=== FILE: README.md ===
# Scene-graph renderer core, modelled in Dafny

This project models the engine core of a small WebGL renderer. The renderer's core is JavaScript. It consists of:

- the column-major 4×4 matrix library (`transformations.js`);
- the two hierarchical-model implementations: the node tree walked recursively (`model_node.js`) and the index-based `Model` class (`model.js`);
- the demo scene that builds a ground → body → head tree and manages the light state (`scene.js`);
- the `Shape` and `ShapeBuffer` wrappers (`shape.js`, `shapebuffer.js`);
- the material table (`material_data.js`);
- the procedural mesh generators, with flat shading, colour generation and per-vertex tangent accumulation (`primitives.js`).

Everything is a pure value in the model. Matrices are `seq<real>` of length 16, with element (i, j) at `j*4 + i`. GPU state, the browser clock and `Math` are parameters:

- a `Trig` record supplies sine, cosine, square root and π;
- a world-transform callback is a name (`Callback`) that an `apply` function interprets;
- a draw call is an event in a returned trace rather than a WebGL side effect.

A recursion that JavaScript would run until the stack overflows carries an explicit `fuel` argument and reports `StackOverflow`. This applies to a cycle in the index-based figure.

Modules, one per file:

| module | file | models |
|---|---|---|
| `Wrappers` | wrappers.dfy | `Option`, `Result` |
| `Maths` | maths.dfy | `Vec3`, `Trig`, and the 16-bit storage of index arrays (`Uint16Array`) |
| `Grid` | grid.dfy | row-by-row tables and flattening of triples and pairs (the generators' nested loops) |
| `Transformations` | transformations.dfy | `Mat4`, `Mat3` and `transformations.js` |
| `Materials` | materials.dfy | `material_data.js` |
| `ShapeBuffers` | shapebuffer.dfy | `shapebuffer.js` |
| `Tangents` | tangents.dfy | `compute_tangents` |
| `Shading` | shading.dfy | `generate_colors`, `flat_shading_normals` |
| `Shapes` | shape.dfy | `shape.js` |
| `Primitives` | primitives.dfy | `pyramid_data`, `cube_data`, `sphere_data`, `cone_data`, `cylinder_data` |
| `SceneGraph` | model_node.dfy | `model_node.js` |
| `FigureModel` | model.dfy | `model.js` |
| `Scene` | scene.dfy | `scene.js` |

## Model

| member | source | states |
|---|---|---|
| Transformations.Identity | src/transformations.js:26-28 | every diagonal entry is 1 and every other entry 0 |
| Transformations.Copy | src/transformations.js:30-32 | the copy has the same entry as the original at every row and column |
| Transformations.Mul | src/transformations.js:101-111 | entry (i, j) of the product is the dot product of row i of `a` with column j of `b` |
| Transformations.MulExpanded | src/transformations.js:106 | the stored element `j*4+i` of the product is the four-term sum `a[k*4+i] * b[j*4+k]` over k |
| Transformations.SumRowColumn | src/transformations.js:104-107 | the inner accumulation loop yields the row-by-column dot product |
| Transformations.MultiplyMat4 | src/transformations.js:101-111 | the triple loop fills every entry with its dot product, so it returns exactly `Mul(a, b)` |
| Transformations.MulIdentityLeft | src/transformations.js:101-111 | the identity is a left unit of the product |
| Transformations.MulIdentityRight | src/transformations.js:101-111 | the identity is a right unit of the product |
| Transformations.MulAssociative | src/transformations.js:101-111 | the product is associative, so a chain of post-multiplications in the scene graph may be regrouped |
| Transformations.Translate | src/transformations.js:35-42 | the first three columns are kept; the fourth becomes the matrix applied to the point (tx, ty, tz, 1) |
| Transformations.TranslateIsPostMultiply | src/transformations.js:35-42 | the in-place update equals post-multiplying by the standard translation matrix |
| Transformations.RotatedX | src/transformations.js:45-63 | columns 0 and 3 are left unchanged |
| Transformations.RotateXIsPostMultiply | src/transformations.js:45-63 | the column update equals post-multiplying by the rotation about X through the angle |
| Transformations.RotatedY | src/transformations.js:66-84 | columns 1 and 3 are left unchanged |
| Transformations.RotateYIsPostMultiply | src/transformations.js:66-84 | the column update equals post-multiplying by the rotation about Y through the angle |
| Transformations.MulRotationZ | src/transformations.js:86-98 | multiplying by the Z rotation mixes only columns 0 and 1 (as `c·col0 + s·col1` and `c·col1 − s·col0`) and keeps columns 2 and 3 |
| Transformations.Scale | src/transformations.js:114-130 | columns 0, 1, 2 are multiplied by sx, sy, sz; column 3 is kept |
| Transformations.ScaleIsPostMultiply | src/transformations.js:114-130 | scaling equals post-multiplying by the diagonal scale matrix |
| Transformations.Mat3Transpose | src/transformations.js:139-147 | entry (i, j) of the result is entry (j, i) of the input |
| Transformations.Mat3TransposeInvolution | src/transformations.js:139-147 | transposing twice gives back the matrix |
| Transformations.UpperLeft | src/transformations.js:149-156 | the 3×3 block has the 4×4 matrix's entries at rows and columns 0..2 |
| Transformations.TransposeInner | src/transformations.js:149-156 | element `i*3+j` of the result is element `j*4+i` of the matrix |
| Transformations.TransposeInnerIsBlockTranspose | src/transformations.js:149-156 | the result is the transpose of the upper-left 3×3 block |
| Materials.ColorConvert | src/material_data.js:92-93 | each channel of the result times 255 is the given channel |
| Materials.ColorConvertRoundTrip | src/material_data.js:92-93 | converting and scaling back by 255 are mutually inverse |
| Materials.ColorConvertInUnitRange | src/material_data.js:92-93 | channels in 0..255 map into the unit range |
| Materials.ColorConvertEndpoints | src/material_data.js:92-93 | black maps to (0,0,0) and white to (1,1,1) |
| Materials.ColorConvertMonotone | src/material_data.js:92-93 | a brighter channel stays brighter after conversion |
| Materials.MaterialColorsInUnitRange | src/material_data.js:2-89 | every material in the table has a colour, and each channel lies in the unit range |
| Materials.OnlyTvScreenSetsKa | src/material_data.js:2-89 | only the TV-screen material sets its own ambient coefficient |
| ShapeBuffers.NewShapeBuffer | src/shapebuffer.js:6-22 | construction succeeds exactly when the vertex count is a multiple of 3 and non-empty normals and colours match it; the buffer keeps the arrays and both lengths |
| ShapeBuffers.NewShapeBufferErrorOrder | src/shapebuffer.js:17-22 | the vertices check comes first, then normals, then colours; each error is raised exactly when the earlier checks pass and its own fails |
| ShapeBuffers.UncheckedAttributes | src/shapebuffer.js:6-22 | texture coordinates and tangents never affect whether construction succeeds |
| ShapeBuffers.RenderDrawsAllIndices | src/shapebuffer.js:87-94 | `render` draws as many indices as the buffer was given |
| Tangents.AddTo | src/primitives.js:434-438 | the triangle's tangent is added to the three components of one vertex, and all other entries are kept |
| Tangents.PerTriangle | src/primitives.js:391-432 | a defined result has one tangent per triangle processed |
| Tangents.PerTriangleDefined | src/primitives.js:391-432 | per-triangle tangents are defined exactly when no triangle has a zero UV determinant, and each equals the triangle's tangent formula |
| Tangents.ScatterStep | src/primitives.js:434-438 | one more triangle adds its tangent to a vertex entry once per corner that names the vertex |
| Tangents.ScatterIsSum | src/primitives.js:391-439 | after the loop each vertex entry is its initial value plus the sum of the tangents of the triangles that use the vertex, counted with multiplicity |
| Tangents.ComputeTangents | src/primitives.js:387-442 | a defined result has three entries per vertex |
| Tangents.ComputeTangentsDefined | src/primitives.js:387-442 | the tangents are finite exactly when no triangle is UV-degenerate |
| Tangents.ComputeTangentsAt | src/primitives.js:387-442 | each vertex's tangent is the sum of the tangents of the triangles that touch it |
| Tangents.ComputeTangentsUnused | src/primitives.js:387-442 | a vertex no triangle references keeps the zero tangent from the `fill(0)` |
| Tangents.ComputeTangentsUnitTriangle | src/primitives.js:426-438 | for the unit right triangle with matching UVs, every vertex gets tangent (1, 0, 0) |
| Tangents.ComputeTangentsCollapsedUv | src/primitives.js:426 | a triangle whose three UVs coincide gives no finite tangent |
| Tangents.MultiplicityScales | src/primitives.js:434-438 | adding x once per matching corner equals x times the number of corners naming the vertex |
| Tangents.TangentSumUnused | src/primitives.js:391-439 | triangles that never name a vertex contribute nothing to its sum |
| Shading.GenerateColors | src/primitives.js:330-336 | there are three entries per pass |
| Shading.GenerateColorsAt | src/primitives.js:330-336 | every vertex's colour triple is the given colour |
| Shading.GenerateColorsStep | src/primitives.js:330-336 | one more pass appends exactly one copy of the colour |
| Shading.FaceNormalPerpendicular | src/primitives.js:354-368 | the face normal is perpendicular to both triangle edges |
| Shading.FaceNormalUnit | src/primitives.js:362-368 | when the cross product is non-zero and `hypot` is its length, the normal has unit length |
| Shading.FaceNormalDegenerate | src/primitives.js:362-368 | a zero cross product is left as the zero vector, not divided |
| Shading.UnshareCorners | src/primitives.js:344-372 | corner k of the output is vertex `indices[k]`, and its normal is its triangle's face normal |
| Shading.NumberVertices | src/primitives.js:374-377 | the new indices are 0, 1, 2, … and the colours repeat the given colour once per new vertex |
| Shading.FlatShadingNormals | src/primitives.js:338-385 | every corner becomes its own vertex, with the position of the vertex it names and its triangle's normal; the stored indices count up modulo 65536 (exactly 0, 1, 2, … up to 65536 corners), and every vertex has the given colour, which is the first triple of the source's `colors` array (the only part read) |
| Shading.NumberingWraps | src/primitives.js:374-382 | stored through `Uint16Array`, the numbering k becomes k mod 65536, and is unchanged below 65536 |
| Shapes.ResolveMaterial | src/shape.js:15-22 | each field is the given value when present, otherwise the default (Ka 0.2, Kd 0.5, Ks 0.5, alpha 10, grey, bump off) |
| Shapes.ResolveEmptyIsDefault | src/shape.js:15-22 | an empty material resolves to the default material |
| Shapes.ResolveFullSpec | src/shape.js:15-22 | resolving a fully specified material returns it unchanged, so resolving is idempotent |
| Shapes.ResolveKeepsFalsyValues | src/shape.js:15-22 | `??` keeps 0 and `false`: they are not replaced by the defaults |
| Shapes.MaterialConstantsKa | src/shape.js:15-22 | resolved against the material table, only the TV screen gets Ka 0.9 and every other material 0.2 |
| Shapes.TextureSetup | src/shape.js:30-46 | texturing is on exactly for a truthy source; a string starts an image load and a video element is kept as the video |
| Shapes.Uint16Array | src/shape.js:9 | every stored index is reduced modulo 65536 and the length is kept |
| Shapes.Uint16ArrayKeepsSmallIndices | src/shape.js:9 | indices below 65536 are stored unchanged |
| Shapes.NewShape | src/shape.js:4-49 | construction fails exactly when the buffer checks fail; otherwise the material is resolved, texturing follows the source's truthiness, and `render` draws every stored index |
| Shapes.ColorPasses | src/shape.js:111 | the colour loop runs for ⌈vertices/3⌉ passes |
| Shapes.MakeShape | src/shape.js:109-114 | without a material the call fails, and with a material but no vertex array it fails too; on success the shape's material is the resolved one |
| Shapes.MakeShapeSucceeds | src/shape.js:109-114 | `makeShape` succeeds exactly when a material and a vertex array are given, the material has a colour (or there are no vertices), and the buffer checks pass |
| Shapes.MakeShapeColors | src/shape.js:109-114 | the shape has one colour triple per vertex, each equal to the material's colour |
| Primitives.TangentsFor | src/primitives.js:387-442 | the generators' tangents are finite exactly when no triangle is UV-degenerate, with three entries per vertex |
| Primitives.Build | src/primitives.js:152-160 | a generator's arrays are consistent: 3 numbers per vertex and normal, 2 per UV, and every index names an existing vertex |
| Primitives.PyramidData | src/primitives.js:1-38 | the pyramid has 9 vertices and 6 triangles, its normals are its positions, it has no UVs or tangents, and every index is in range |
| Primitives.CubeData | src/primitives.js:40-110 | the cube has 24 vertices and 12 triangles, and its arrays are consistent |
| Primitives.CubeDataFields | src/primitives.js:40-110 | the cube's arrays are the listed corners, normals, UVs and indices |
| Primitives.CubeFaceIndices | src/primitives.js:40-110 | face f is drawn as triangles (4f, 4f+1, 4f+2) and (4f, 4f+2, 4f+3) |
| Primitives.CubeFaceNormals | src/primitives.js:40-110 | all four vertices of a face carry that face's axis normal |
| Primitives.CubeFaceTexCoords | src/primitives.js:40-110 | every face maps its corners to the unit square's corners |
| Primitives.CubeTriangleUnitDeterminant | src/primitives.js:40-110 | every cube triangle has UV determinant 1 |
| Primitives.CubeTangentsFinite | src/primitives.js:101 | the cube's tangents are finite |
| Primitives.QuadTris | src/primitives.js:143-150 | the grid has two triangles per cell |
| Primitives.QuadTrisAt | src/primitives.js:143-150 | cell (i, j) contributes the triangles (k1, k2, k1+1) and (k2, k2+1, k1+1), with k1 = i(u+1)+j and k2 = k1+u+1 |
| Primitives.QuadTrisBelow | src/primitives.js:143-150 | every grid index is below (v+1)(u+1) |
| Primitives.GridUvsInUnitSquare | src/primitives.js:137-139 | the grid texture coordinates j/u and i/v lie in the unit square |
| Primitives.SphereData | src/primitives.js:112-161 | the sphere has (v+1)(u+1) vertices, 2uv triangles, consistent arrays, and a tangent result (finite or not) |
| Primitives.SphereDataFields | src/primitives.js:112-161 | the sphere's arrays are the grid of points, their normalised copies, the grid UVs and the quad triangles, and its tangents are those computed from them |
| Primitives.UvDeterminantOfCorners | src/primitives.js:416-426 | a triangle's UV determinant is the signed area spanned by its three corners' coordinates |
| Primitives.CellTriangleAreas | src/primitives.js:137-150 | both triangles of a grid cell span UV area −1/(u·v), since coordinates step by 1/u along a row and 1/v down a column |
| Primitives.QuadTriDeterminant | src/primitives.js:137-150 | every lateral-grid triangle has UV determinant −1/(u·v), wherever the grid sits at the front of a mesh |
| Primitives.SideNoneDegenerate | src/primitives.js:137-150 | no lateral-grid triangle is degenerate |
| Primitives.SphereTangentsFinite | src/primitives.js:112-161 | the sphere's tangents are always finite |
| Primitives.SphereVertexAt | src/primitives.js:118-130 | vertex i(u+1)+j is the point at latitude iπ/v and longitude 2πj/u |
| Primitives.SphereNormalsAreNormalised | src/primitives.js:130-135 | each normal is `norm` of its vertex |
| Primitives.SpherePole | src/primitives.js:118-130 | the whole first row sits at the pole (0, r, 0) |
| Primitives.ConeData | src/primitives.js:163-234 | the cone has the side grid plus a centre and a rim of u+1 vertices, 2uv + u triangles, and consistent arrays |
| Primitives.ConeDataFields | src/primitives.js:163-234 | the cone's arrays are its side points with cap, normals, UVs and triangles, and its tangents are those computed from them |
| Primitives.ConeSidesNonDegenerate | src/primitives.js:171-200 | none of the cone's 2uv lateral triangles is degenerate |
| Primitives.ConeTrisBelow | src/primitives.js:193-222 | every cone index names an existing vertex |
| Primitives.ConeFanAt | src/primitives.js:219-222 | cap triangle j is (centre, rim j, rim j+1) |
| Primitives.ConeApex | src/primitives.js:171-185 | the whole first row of the side is the apex at the origin |
| Primitives.ConeRimMeetsSide | src/primitives.js:171-217 | each cap rim vertex coincides with the matching vertex of the side's last row |
| Primitives.ConeCapNormals | src/primitives.js:205-217 | every cap vertex has normal (0, 0, 1) |
| Primitives.ConeUvsInUnitSquare | src/primitives.js:171-217 | given sine and cosine in [−1, 1], all cone texture coordinates lie in the unit square |
| Primitives.CylinderData | src/primitives.js:236-328 | the cylinder has the side grid plus two caps of u+2 vertices, 2uv + 2u triangles, and consistent arrays |
| Primitives.CylinderDataFields | src/primitives.js:236-328 | the cylinder's arrays are its side and cap points, normals, UVs and triangles, and its tangents are those computed from them |
| Primitives.CylinderSidesNonDegenerate | src/primitives.js:242-269 | none of the cylinder's 2uv lateral triangles is degenerate |
| Primitives.CylinderTrisBelow | src/primitives.js:262-317 | every cylinder index names an existing vertex |
| Primitives.CylinderFansAt | src/primitives.js:289-317 | top-cap triangle j is (top, ring j+1, ring j), wound opposite to bottom-cap triangle j (bottom, ring j, ring j+1) |
| Primitives.CylinderRimsMeetSide | src/primitives.js:242-312 | the top ring coincides with the side's last row and the bottom ring with its first |
| Primitives.CylinderCapNormals | src/primitives.js:270-312 | top-cap vertices point up and bottom-cap vertices point down |
| Primitives.CylinderUvsInUnitSquare | src/primitives.js:242-312 | given sine and cosine in [−1, 1], all cylinder texture coordinates lie in the unit square |
| SceneGraph.OrNull | src/model_node.js:48-51 | `x \|\| null` keeps exactly the truthy values |
| SceneGraph.CreateModelNode | src/model_node.js:23-53 | the node's two transforms agree, its child list is empty, and its callback is the given one; shape, uniforms, material and texture are each `x \|\| null` of the argument |
| SceneGraph.CreateModelNodeTransform | src/model_node.js:26-40 | the initial transform is the identity post-multiplied by the translation, then the rotations about X, Y and Z |
| SceneGraph.LocationProduct | src/model_node.js:28-30 | without angles the transform is the product of the location factors |
| SceneGraph.RotationProduct | src/model_node.js:32-40 | the three successive rotations are post-multiplications, with a missing or falsy angle taken as 0 |
| SceneGraph.CreateModelNodeUnplaced | src/model_node.js:26-40 | with no location and no angle the transform is the identity |
| SceneGraph.CreateModelNodeTranslationOnly | src/model_node.js:26-40 | with a location and no angle the transform is that translation |
| SceneGraph.CreateModelNodeZeroAngles | src/model_node.js:32-40 | zero (or missing) angles give the same transform as no angle object |
| SceneGraph.RotateZAtZero | src/model_node.js:39 | a zero rotation about Z leaves the matrix unchanged |
| SceneGraph.AddChildren | src/model_node.js:55-62 | the child is appended after the existing children (a null list counts as empty), and nothing else changes |
| SceneGraph.AddChildrenToEmpty | src/model_node.js:57-60 | adding to a null or empty list gives the one-element list |
| SceneGraph.EmptyNode | src/model_node.js:1-14 | a fresh node has identity transforms, a null child list, no callback, and no shape, uniforms, material or texture |
| SceneGraph.EmptyNodeInert | src/model_node.js:1-14 | a fresh node draws nothing, hands its children the incoming matrix unchanged, and its first added child becomes its only child |
| SceneGraph.WorldMatrix | src/model_node.js:68-72 | a node's matrix is the incoming matrix times its transform, passed through its callback when it has one |
| SceneGraph.Walk | src/model_node.js:64-85 | the walk leaves the stack as it found it, restores the caller's matrix, and issues exactly the draws of the pre-order trace |
| SceneGraph.WalkChildren | src/model_node.js:78-82 | the child loop leaves the stack unchanged and yields the children's traces in order |
| SceneGraph.TraceLength | src/model_node.js:74-82 | a walk draws once per node with a shape in the subtree |
| SceneGraph.TraceOrder | src/model_node.js:74-82 | a node with a shape draws first, with its own world matrix; a node without one draws only its children's output |
| SceneGraph.TraceOneChild | src/model_node.js:74-82 | a node with one child draws itself and then the child under its world matrix |
| SceneGraph.TraceTwoChildren | src/model_node.js:78-82 | siblings are drawn in order, each under the parent's world matrix and not under the other sibling's |
| SceneGraph.ChildWorldMatrix | src/model_node.js:68 | without callbacks a child's matrix is the incoming matrix times the parent's and the child's transforms |
| SceneGraph.TranslationsCompose | src/model_node.js:68 | nested translations add up |
| SceneGraph.StackedTranslations | src/model_node.js:23-85 | a child placed at y = 1 under a parent at y = 2 ends up at y = 3 |
| FigureModel.CreateNode | src/model.js:62-75 | both transforms are the given one, the local angle is zero and the rotation direction is (1, 1, 1) |
| FigureModel.FigureInit | src/model.js:112-117 | n identity nodes numbered 0..n−1 are appended after the existing figure |
| FigureModel.NewModel | src/model.js:6-18 | the constructor records the arguments, starts with an empty stack and the fixed dynamic parameters, and extends the figure |
| FigureModel.SetMtm | src/model.js:25-27 | only the model matrix changes |
| FigureModel.UpdateDynamicParams | src/model.js:29-34 | only the four dynamic parameters change, to the given values |
| FigureModel.AddChildren | src/model.js:105-110 | for an existing parent the child index, which may be `null`, is appended to its list (a null list counts as empty) and nothing else changes; a missing parent is an error |
| FigureModel.Enter | src/model.js:43-46 | entering a node pushes the current matrix and post-multiplies by the node's transform |
| FigureModel.Walk | src/model.js:36-60 | a successful walk restores the whole model, stack and matrix included; a null index does nothing |
| FigureModel.WalkLocalMatrix | src/model.js:41-50 | a successful walk runs the node's callback and then draws its shape, both under the parent matrix times the node's transform |
| FigureModel.WalkErrors | src/model.js:41-50 | a missing node, callback or shape is reported in that order |
| FigureModel.WalkChildrenFailsAt | src/model.js:52-56 | one failing child makes the whole child loop fail |
| FigureModel.WalkChildren | src/model.js:52-56 | a child loop that finishes leaves the model exactly as it found it, so each child is walked from the parent's matrix and stack |
| FigureModel.WalkFailsWithChildren | src/model.js:52-56 | a failing child makes the node's walk fail |
| FigureModel.SelfLoopOverflows | src/model.js:52-56 | a node listing itself as a child never finishes walking |
| FigureModel.NullChildSkipped | src/model.js:36-103 | a `null` entry in a child list is skipped by both the walk and the transform update |
| FigureModel.UpdateOwn | src/model.js:84-96 | only node 0 changes: its phase advances by dt·spinrate and its transform becomes its initial transform times a Y rotation by the phase |
| FigureModel.OnlyRootTransformChangedTrans | src/model.js:77-103 | the "only node 0's transform and the phase change" relation composes |
| FigureModel.UpdateNodeTransform | src/model.js:77-103 | an update, failed or not, changes nothing but node 0's transform and the phase; a null index changes nothing; a missing index fails, keeping the phase step that index 0 takes before the throw |
| FigureModel.UpdateChildren | src/model.js:98-102 | updating the children keeps the same frame, also when a child fails, and an empty rest does nothing |
| FigureModel.UpdateRootThenMissingChild | src/model.js:84-102 | when node 0's only child is missing, node 0's own update is kept and the missing child is reported |
| FigureModel.UpdateRootLeaf | src/model.js:84-96 | updating a childless root is exactly its own update |
| FigureModel.UpdateOtherLeaf | src/model.js:94-102 | updating a childless node other than 0 changes nothing |
| Scene.UpdateLights | src/scene.js:73-81 | the colours become warm/cool or neutral according to the flag; nothing else changes |
| Scene.UpdateLightsIdempotent | src/scene.js:73-81 | a second update does nothing, and a state whose colours match its flag is a fixed point |
| Scene.ToggleTemperatureLights | src/scene.js:83-86 | the flag flips, the colours follow it, and nothing else changes |
| Scene.ToggleTwice | src/scene.js:83-86 | toggling twice restores the flag, and the whole state once the colours matched it |
| Scene.BuildModel | src/scene.js:29-71 | building sets a root and changes nothing else |
| Scene.BuildModelTopology | src/scene.js:68-70 | the tree is ground → body → head, each with one child except the head, carrying the right shapes and callbacks |
| Scene.CreateScene | src/scene.js:16-27 | the new scene has the declared state, neutral lights and a root |
| Scene.GroundPlacement | src/scene.js:30-38 | the ground's zero angles add no rotation, so its transform is the translation to y = −2 |
| Scene.SceneDrawOrder | src/scene.js:29-71 | a frame draws the sphere, the cube and the cone in that order, with the ground, orange-metal and grey-metal materials |
| Scene.SceneBodyMatrix | src/scene.js:40-51 | the body draws with the incoming matrix times the ground's and body's transforms, turned about Y by now/1000 |
| Scene.SceneCallback | src/scene.js:40-61 | the body callback post-multiplies by the rotation about Y through now/1000 radians, the head callback by the rotation about Z through −5·now/1000, and any other callback leaves the matrix alone |
| Scene.SceneCallbackAtZero | src/scene.js:40-61 | at time 0 neither callback changes the matrix |

## Left out

- WebGL calls are not modelled: buffer creation, `bind_bufferdata`, vertex attribute set-up, uniform uploads, texture and video loading, and `Shape.draw`/`update_video_frame`. A draw is an entry in the returned trace, and `render` returns the index count it would draw.
- `main.js` is not part of this model. It holds the render loop, the event handlers and the GL context.
- `make_shape`, which `scene.js` calls, is not part of this model; the shapes arrive as `Scene.Assets`. `makeShape` from `shape.js` is modelled as `Shapes.MakeShape`.
- `Model.init_node` (`model.js:119-139`) is not modelled. It reads the globals `cube`, `gl` and `uMTM`, which are not part of this model. `FigureModel.NewModel` stops after `figure_init`.
- `perspective`, `ortho` and `apply_ortho` (`transformations.js:3-23`) are not modelled: the scene graph never uses them.
- `norm`, `Math.hypot`, sine, cosine, square root and π are parameters (`Trig`, and a `norm` function for the sphere). Properties that need their values state them as preconditions, e.g. cos 0 = 1.
- `Date.now()` in the scene's callbacks is the parameter `now`, one value for the whole walk. The source reads the clock separately in each callback (`scene.js:44`, `scene.js:57`), so the head may see a slightly later time than the body.
- Float32 rounding of `Float32Array` is not modelled; all arithmetic is exact over the reals.
- Tangents.ComputeTangents: a triangle with a zero UV determinant gives `None` rather than the Infinity/NaN entries JavaScript produces, so the model says whether non-finite values arise instead of what they are.
- Primitives.ConeData: requires √(h² + r²) ≠ 0. At zero `inverse_hyp` is `1 / 0 = Infinity` and every side normal component is `0 · Infinity = NaN` (`primitives.js:169`, `primitives.js:187`).
- Primitives.SphereData: requires u_steps, v_steps ≥ 1 and at most 65536 vertices. The same holds for `ConeData` and `CylinderData`. With zero steps the source divides by zero; with more vertices `Uint16Array` wraps indices, as `Shapes.Uint16Array` models.
- Shading.FlatShadingNormals: requires every index to name a vertex and the index count to be a multiple of 3. Out-of-range reads give `undefined`/NaN in the source.
- Shapes.NewShape: a `null` material and a missing geometry object have no value in the model. In the source both throw a TypeError: `material.Ka` at `shape.js:16`, because the `= {}` default covers only `undefined`, and `geometry.vertices` at `shape.js:8`.
- Side effects with no bearing on the results are not modelled: the `console.log` in `add_children` (`model_node.js:61`), the implicit global `result` that `mat4RotateZ` assigns (`transformations.js:96`), and `figure_init` pushing into the caller's own `figure` array, which the model returns as a new sequence (`model.js:9`, `model.js:115`).
- FigureModel.Walk: the source calls `shape.draw(material_uniforms)` with one argument, while `Shape.draw` takes two. `material_uniforms` is declared in none of the files modelled, so as they stand `model.js:50` would throw a ReferenceError. The model's successful walk assumes the global is defined elsewhere, and records the draw without the uniforms.
- FigureModel.Walk: an error stops the walk. The partially pushed matrix stack that JavaScript would leave behind after the exception is not modelled.
- FigureModel.Walk and FigureModel.UpdateNodeTransform: a `fuel` bound stands for the JavaScript call stack. Running out reports `StackOverflow` and does not model the exact depth at which a browser throws.
- Scene.BuildModel: JavaScript shares the body object between the ground's child list and the later `add_children(body, head)`. With immutable values the model adds the head to the body before the body is added to the ground, which gives the same tree.
- SceneGraph.CreateModelNode: falsy non-null arguments (`0`, `""`, `false`) for shape, uniforms, material and texture are one case, `Falsy`. The model does not distinguish between them.

=== FILE: grid.dfy ===
/** Row-major tables and flat attribute arrays.

    The mesh generators fill their arrays with two nested loops, `i` over
    rows and `j` over columns, pushing one record per iteration. `Table`
    is that loop nest as a sequence of records; `Flat3` and `Flat2` are the
    `push(x, y, z)` / `push(u, v)` flattening into one number array.
 */
module Grid {
  import opened Maths

  /** The records pushed by one counting loop: f(0), f(1), .., f(n-1). */
  function Series<T>(n: nat, f: nat -> T): (r: seq<T>)
    ensures |r| == n
  {
    if n == 0 then [] else Series(n - 1, f) + [f(n - 1)]
  }

  lemma {:induction false} SeriesAt<T>(n: nat, f: nat -> T, j: nat)
    requires j < n
    ensures Series(n, f)[j] == f(j)
  {
    if j < n - 1 {
      SeriesAt(n - 1, f, j);
    }
  }

  /** Every record of a series is `f` at some counter value below `n`. */
  lemma {:induction false} SeriesMember<T>(n: nat, f: nat -> T, x: T)
    requires x in Series(n, f)
    ensures exists j: nat :: j < n && x == f(j)
  {
    if n > 0 && x != f(n - 1) {
      assert x in Series(n - 1, f);
      SeriesMember(n - 1, f, x);
    }
  }

  /** One pass of the inner loop of a loop nest. */
  function Row<T>(i: nat, cols: nat, f: (nat, nat) -> T): (r: seq<T>)
    ensures |r| == cols
  {
    Series(cols, (j: nat) => f(i, j))
  }

  /** The records pushed for i = 0 .. rows-1 (outer) and j = 0 .. cols-1 (inner). */
  function Table<T>(rows: nat, cols: nat, f: (nat, nat) -> T): seq<T>
  {
    if rows == 0 then [] else Table(rows - 1, cols, f) + Row(rows - 1, cols, f)
  }

  /** An earlier row ends before a later one starts. */
  lemma RowBefore(i: nat, rows: nat, cols: nat, j: nat)
    requires i + 1 < rows && j < cols
    ensures i * cols + j < (rows - 1) * cols
  {
    assert (i + 1) * cols <= (rows - 1) * cols;
    assert (i + 1) * cols == i * cols + cols;
  }

  lemma {:induction false} TableLength<T>(rows: nat, cols: nat, f: (nat, nat) -> T)
    ensures |Table(rows, cols, f)| == rows * cols
  {
    if rows > 0 {
      TableLength(rows - 1, cols, f);
      assert (rows - 1) * cols + cols == rows * cols;
    }
  }

  /** Row `i`, column `j` lands at position i·cols + j. */
  lemma {:induction false} TableAt<T>(rows: nat, cols: nat, f: (nat, nat) -> T, i: nat, j: nat)
    requires i < rows && j < cols
    ensures |Table(rows, cols, f)| == rows * cols && i * cols + j < rows * cols
    ensures Table(rows, cols, f)[i * cols + j] == f(i, j)
  {
    TableLength(rows, cols, f);
    TableLength(rows - 1, cols, f);
    if i < rows - 1 {
      TableAt(rows - 1, cols, f, i, j);
      RowBefore(i, rows, cols, j);
    } else {
      SeriesAt(cols, (j: nat) => f(i, j), j);
    }
  }

  /** Every record of the table is `f` at some in-range cell. */
  lemma {:induction false} TableMember<T>(rows: nat, cols: nat, f: (nat, nat) -> T, x: T)
    requires x in Table(rows, cols, f)
    ensures exists i: nat, j: nat :: i < rows && j < cols && x == f(i, j)
  {
    if rows > 0 {
      if x in Table(rows - 1, cols, f) {
        TableMember(rows - 1, cols, f, x);
      } else {
        SeriesMember(cols, (j: nat) => f(rows - 1, j), x);
      }
    }
  }

  /** Tables built from the same cells agree record by record: when every
      cell of `g` is `h` applied to the cell of `f`, so is every record. */
  lemma {:induction false} TableCompose<A, B>(rows: nat, cols: nat, f: (nat, nat) -> A, h: A -> B, g: (nat, nat) -> B)
    requires forall i: nat, j: nat :: g(i, j) == h(f(i, j))
    ensures |Table(rows, cols, g)| == |Table(rows, cols, f)|
    ensures forall k | 0 <= k < |Table(rows, cols, f)| :: Table(rows, cols, g)[k] == h(Table(rows, cols, f)[k])
  {
    if rows > 0 {
      var m := rows - 1;
      TableCompose(m, cols, f, h, g);
      var before := |Table(m, cols, f)|;
      forall k | 0 <= k < |Table(rows, cols, f)|
        ensures Table(rows, cols, g)[k] == h(Table(rows, cols, f)[k])
      {
        if k >= before {
          var j := k - before;
          SeriesAt(cols, (j: nat) => f(m, j), j);
          SeriesAt(cols, (j: nat) => g(m, j), j);
        }
      }
    }
  }

  /** `push(v.x, v.y, v.z)` for each vector in turn. */
  function Flat3(vs: seq<Vec3>): (r: seq<real>)
    ensures |r| == 3 * |vs|
  {
    if vs == [] then [] else Flat3(vs[..|vs| - 1]) + Flat(vs[|vs| - 1])
  }

  /** Component c of vector k sits at position 3k + c. */
  lemma {:induction false} Flat3At(vs: seq<Vec3>, k: nat)
    requires k < |vs|
    ensures Flat3(vs)[3 * k .. 3 * k + 3] == Flat(vs[k])
  {
    var n := |vs| - 1;
    if k < n {
      Flat3At(vs[..n], k);
      assert vs[..n][k] == vs[k];
      assert Flat3(vs)[3 * k .. 3 * k + 3] == Flat3(vs[..n])[3 * k .. 3 * k + 3];
    } else {
      assert Flat3(vs)[3 * k ..] == Flat(vs[k]);
    }
  }

  lemma Flat3Append(a: seq<Vec3>, b: seq<Vec3>)
    ensures Flat3(a + b) == Flat3(a) + Flat3(b)
    decreases |b|
  {
    if b == [] {
      assert a + b == a;
    } else {
      var n := |b| - 1;
      assert (a + b)[..|a + b| - 1] == a + b[..n];
      Flat3Append(a, b[..n]);
    }
  }

  /** Cell (i, j) of a flattened table of vectors occupies positions
      3(i·cols + j) .. 3(i·cols + j) + 2. */
  lemma Flat3TableAt(rows: nat, cols: nat, f: (nat, nat) -> Vec3, i: nat, j: nat)
    requires i < rows && j < cols
    ensures 3 * (i * cols + j) + 3 <= |Flat3(Table(rows, cols, f))|
    ensures Flat3(Table(rows, cols, f))[3 * (i * cols + j) .. 3 * (i * cols + j) + 3] == Flat(f(i, j))
  {
    var k := i * cols + j;
    TableAt(rows, cols, f, i, j);
    Flat3At(Table(rows, cols, f), k);
  }

  /** Vector k of a flattened list is components 3k, 3k + 1 and 3k + 2. */
  lemma Flat3Index(vs: seq<Vec3>, k: nat)
    requires k < |vs|
    ensures 3 * k + 2 < |Flat3(vs)|
    ensures Flat3(vs)[3 * k] == vs[k].x && Flat3(vs)[3 * k + 1] == vs[k].y && Flat3(vs)[3 * k + 2] == vs[k].z
  {
    Flat3At(vs, k);
    assert Flat3(vs)[3 * k .. 3 * k + 3][0] == Flat3(vs)[3 * k];
    assert Flat3(vs)[3 * k .. 3 * k + 3][1] == Flat3(vs)[3 * k + 1];
    assert Flat3(vs)[3 * k .. 3 * k + 3][2] == Flat3(vs)[3 * k + 2];
  }

  /** `n` copies of one vector, as pushed once per vertex. */
  function Repeat(n: nat, x: Vec3): (xs: seq<Vec3>)
    ensures |xs| == n
    ensures forall k | 0 <= k < n :: xs[k] == x
  {
    if n == 0 then [] else Repeat(n - 1, x) + [x]
  }

  /** A texture coordinate pair, `push(u, v)`. */
  datatype Uv = Uv(u: real, v: real)

  function Flat2(uvs: seq<Uv>): (r: seq<real>)
    ensures |r| == 2 * |uvs|
  {
    if uvs == [] then [] else Flat2(uvs[..|uvs| - 1]) + [uvs[|uvs| - 1].u, uvs[|uvs| - 1].v]
  }

  /** Pair k sits at positions 2k and 2k + 1. */
  lemma {:induction false} Flat2At(uvs: seq<Uv>, k: nat)
    requires k < |uvs|
    ensures Flat2(uvs)[2 * k] == uvs[k].u && Flat2(uvs)[2 * k + 1] == uvs[k].v
  {
    var n := |uvs| - 1;
    if k < n {
      Flat2At(uvs[..n], k);
      assert uvs[..n][k] == uvs[k];
    }
  }

  lemma Flat2Append(a: seq<Uv>, b: seq<Uv>)
    ensures Flat2(a + b) == Flat2(a) + Flat2(b)
    decreases |b|
  {
    if b == [] {
      assert a + b == a;
    } else {
      var n := |b| - 1;
      assert (a + b)[..|a + b| - 1] == a + b[..n];
      Flat2Append(a, b[..n]);
    }
  }

  /** One triangle of an index array, `push(a, b, c)`. */
  datatype Tri = Tri(a: nat, b: nat, c: nat)

  /** `true` when every corner names one of the first `count` vertices. */
  predicate TriBelow(t: Tri, count: nat)
  {
    t.a < count && t.b < count && t.c < count
  }

  function FlatTris(ts: seq<Tri>): (r: seq<nat>)
    ensures |r| == 3 * |ts|
  {
    if ts == [] then [] else FlatTris(ts[..|ts| - 1]) + [ts[|ts| - 1].a, ts[|ts| - 1].b, ts[|ts| - 1].c]
  }

  /** Triangle k's corners sit at positions 3k, 3k + 1 and 3k + 2. */
  lemma {:induction false} FlatTrisAt(ts: seq<Tri>, k: nat)
    requires k < |ts|
    ensures FlatTris(ts)[3 * k] == ts[k].a
    ensures FlatTris(ts)[3 * k + 1] == ts[k].b
    ensures FlatTris(ts)[3 * k + 2] == ts[k].c
  {
    var n := |ts| - 1;
    if k < n {
      FlatTrisAt(ts[..n], k);
      assert ts[..n][k] == ts[k];
    }
  }

  lemma FlatTrisAppend(a: seq<Tri>, b: seq<Tri>)
    ensures FlatTris(a + b) == FlatTris(a) + FlatTris(b)
    decreases |b|
  {
    if b == [] {
      assert a + b == a;
    } else {
      var n := |b| - 1;
      assert (a + b)[..|a + b| - 1] == a + b[..n];
      FlatTrisAppend(a, b[..n]);
    }
  }

  /** When every triangle stays below `count`, so does every flat index. */
  lemma FlatTrisBelow(ts: seq<Tri>, count: nat)
    requires forall k | 0 <= k < |ts| :: TriBelow(ts[k], count)
    ensures forall k | 0 <= k < |FlatTris(ts)| :: FlatTris(ts)[k] < count
  {
    forall k | 0 <= k < |FlatTris(ts)|
      ensures FlatTris(ts)[k] < count
    {
      var t := k / 3;
      FlatTrisAt(ts, t);
      assert k == 3 * t || k == 3 * t + 1 || k == 3 * t + 2;
    }
  }

  /** `idx` lists the corners of `ts` in order, three entries per triangle. */
  predicate LaysOutTris(idx: seq<nat>, ts: seq<Tri>)
  {
    && |idx| == 3 * |ts|
    && forall k | 0 <= k < |ts| :: idx[3 * k] == ts[k].a && idx[3 * k + 1] == ts[k].b && idx[3 * k + 2] == ts[k].c
  }

  lemma FlatTrisLaysOut(ts: seq<Tri>)
    ensures LaysOutTris(FlatTris(ts), ts)
  {
    forall k | 0 <= k < |ts|
      ensures FlatTris(ts)[3 * k] == ts[k].a && FlatTris(ts)[3 * k + 1] == ts[k].b && FlatTris(ts)[3 * k + 2] == ts[k].c
    {
      FlatTrisAt(ts, k);
    }
  }

  /** `uv` lists the coordinate pairs of `uvs` in order, two entries per pair. */
  predicate LaysOutUvs(uv: seq<real>, uvs: seq<Uv>)
  {
    && |uv| == 2 * |uvs|
    && forall k | 0 <= k < |uvs| :: uv[2 * k] == uvs[k].u && uv[2 * k + 1] == uvs[k].v
  }

  lemma Flat2LaysOut(uvs: seq<Uv>)
    ensures LaysOutUvs(Flat2(uvs), uvs)
  {
    forall k | 0 <= k < |uvs|
      ensures Flat2(uvs)[2 * k] == uvs[k].u && Flat2(uvs)[2 * k + 1] == uvs[k].v
    {
      Flat2At(uvs, k);
    }
  }
}

=== FILE: materials.dfy ===
/** Material constants and colour conversion (src/material_data.js).

    A material literal names some of the Phong parameters Ka, Kd, Ks,
    alpha, a base colour and the bump-mapping switch; fields it leaves out
    are filled in when a shape is built.
 */
module Materials {
  import opened Wrappers
  import opened Maths

  /** A material object literal; `None` is a property the literal does not set. */
  datatype MaterialSpec = MaterialSpec(
    ka: Option<real>,
    kd: Option<real>,
    ks: Option<real>,
    alpha: Option<real>,
    color: Option<Vec3>,
    bumpOn: Option<bool>)

  /** `colorconvert(r, g, b)`: 8-bit channel values scaled into [0, 1]. */
  function ColorConvert(r: real, g: real, b: real): (c: Vec3)
    ensures c.x * 255.0 == r && c.y * 255.0 == g && c.z * 255.0 == b
  {
    Vec3(r / 255.0, g / 255.0, b / 255.0)
  }

  /** The inverse scaling, back to 8-bit channel values. */
  function ToChannels(c: Vec3): Vec3
  {
    Vec3(c.x * 255.0, c.y * 255.0, c.z * 255.0)
  }

  /** Converting and scaling back are inverse to each other. */
  lemma ColorConvertRoundTrip(r: real, g: real, b: real, c: Vec3)
    ensures ToChannels(ColorConvert(r, g, b)) == Vec3(r, g, b)
    ensures ColorConvert(c.x * 255.0, c.y * 255.0, c.z * 255.0) == c
  {
  }

  /** Channels in [0, 255] give components in [0, 1]. */
  lemma ColorConvertInUnitRange(r: real, g: real, b: real)
    requires 0.0 <= r <= 255.0 && 0.0 <= g <= 255.0 && 0.0 <= b <= 255.0
    ensures UnitRange(ColorConvert(r, g, b))
  {
  }

  /** Black maps to zeros and white to ones. */
  lemma ColorConvertEndpoints()
    ensures ColorConvert(0.0, 0.0, 0.0) == Vec3(0.0, 0.0, 0.0)
    ensures ColorConvert(255.0, 255.0, 255.0) == Vec3(1.0, 1.0, 1.0)
  {
  }

  /** A brighter channel gives a larger component. */
  lemma ColorConvertMonotone(r1: real, g1: real, b1: real, r2: real, g2: real, b2: real)
    requires r1 <= r2 && g1 <= g2 && b1 <= b2
    ensures ColorConvert(r1, g1, b1).x <= ColorConvert(r2, g2, b2).x
    ensures ColorConvert(r1, g1, b1).y <= ColorConvert(r2, g2, b2).y
    ensures ColorConvert(r1, g1, b1).z <= ColorConvert(r2, g2, b2).z
  {
  }

  const GroundMaterial: MaterialSpec :=
    MaterialSpec(None, Some(0.4), Some(0.1), Some(10.0), Some(ColorConvert(200.0, 200.0, 200.0)), Some(true))

  const TvScreenMaterial: MaterialSpec :=
    MaterialSpec(Some(0.9), Some(0.8), Some(0.8), Some(100.0), Some(ColorConvert(200.0, 200.0, 200.0)), Some(false))

  const WallpaperOldMaterial: MaterialSpec :=
    MaterialSpec(None, Some(0.5), Some(0.01), Some(10.0), Some(ColorConvert(225.0, 226.0, 187.0)), Some(false))

  const BlackPlasticMaterial: MaterialSpec :=
    MaterialSpec(None, Some(0.2), Some(0.05), Some(50.0), Some(ColorConvert(30.0, 30.0, 30.0)), Some(true))

  const WoodMaterial: MaterialSpec :=
    MaterialSpec(None, Some(0.2), Some(0.1), Some(10.0), Some(ColorConvert(205.0, 170.0, 125.0)), Some(true))

  const HayMaterial: MaterialSpec :=
    MaterialSpec(None, Some(0.3), Some(0.1), Some(1.0), Some(ColorConvert(218.0, 197.0, 134.0)), Some(true))

  const MetalGrayMaterial: MaterialSpec :=
    MaterialSpec(None, Some(0.2), Some(0.9), Some(1000.0), Some(ColorConvert(128.0, 128.0, 128.0)), Some(true))

  const MetalOrangeMaterial: MaterialSpec :=
    MaterialSpec(None, Some(0.2), Some(0.9), Some(1000.0), Some(ColorConvert(252.0, 129.0, 0.0)), Some(true))

  const MetalRedMaterial: MaterialSpec :=
    MaterialSpec(None, Some(0.2), Some(0.9), Some(1000.0), Some(ColorConvert(244.0, 0.0, 0.0)), Some(true))

  const CandyMaterial: MaterialSpec :=
    MaterialSpec(None, Some(0.5), Some(0.5), Some(10.0), Some(ColorConvert(38.0, 180.0, 28.0)), Some(false))

  const BallMaterial: MaterialSpec :=
    MaterialSpec(None, Some(0.1), Some(0.1), Some(1.0), Some(Vec3(1.0, 0.9, 1.0)), Some(true))

  /** Every material constant, in declaration order. */
  const AllMaterials: seq<MaterialSpec> := [
    GroundMaterial, TvScreenMaterial, WallpaperOldMaterial, BlackPlasticMaterial,
    WoodMaterial, HayMaterial, MetalGrayMaterial, MetalOrangeMaterial,
    MetalRedMaterial, CandyMaterial, BallMaterial]

  /** Every material sets a colour, and every colour lies in [0, 1]. */
  lemma MaterialColorsInUnitRange()
    ensures forall k | 0 <= k < |AllMaterials| :: AllMaterials[k].color.Some? && UnitRange(AllMaterials[k].color.value)
  {
    ColorConvertInUnitRange(200.0, 200.0, 200.0);
    ColorConvertInUnitRange(225.0, 226.0, 187.0);
    ColorConvertInUnitRange(30.0, 30.0, 30.0);
    ColorConvertInUnitRange(205.0, 170.0, 125.0);
    ColorConvertInUnitRange(218.0, 197.0, 134.0);
    ColorConvertInUnitRange(128.0, 128.0, 128.0);
    ColorConvertInUnitRange(252.0, 129.0, 0.0);
    ColorConvertInUnitRange(244.0, 0.0, 0.0);
    ColorConvertInUnitRange(38.0, 180.0, 28.0);
  }

  /** Only the TV-screen material sets Ka; every other one leaves it to the default. */
  lemma OnlyTvScreenSetsKa()
    ensures forall k | 0 <= k < |AllMaterials| :: AllMaterials[k].ka.Some? <==> k == 1
    ensures AllMaterials[1] == TvScreenMaterial
  {
  }
}

=== FILE: maths.dfy ===
/** The numeric vocabulary shared by every part of the renderer.

    The source calls `Math.sin`, `Math.cos`, `Math.sqrt`, `Math.hypot` and
    reads `Math.PI`. Their values are not computed here: they arrive as a
    `Trig` record of functions, and nothing is assumed about them unless a
    lemma states it.
 */
module Maths {

  /** A three-component array, `[x, y, z]`. */
  datatype Vec3 = Vec3(x: real, y: real, z: real)

  /** The transcendental functions and constant the source reads from `Math`. */
  datatype Trig = Trig(sin: real -> real, cos: real -> real, sqrt: real -> real, pi: real)

  /** The three-element flat array `[v.x, v.y, v.z]`. */
  function Flat(v: Vec3): (r: seq<real>)
    ensures |r| == 3
  {
    [v.x, v.y, v.z]
  }

  /** `true` when every component lies in the closed interval [0, 1]. */
  predicate UnitRange(v: Vec3)
  {
    0.0 <= v.x <= 1.0 && 0.0 <= v.y <= 1.0 && 0.0 <= v.z <= 1.0
  }

  /** Index arrays are `Uint16Array`s: each stored value is kept modulo this. */
  const Uint16Limit: nat := 65536

  /** `new Uint16Array(xs)` for an array of non-negative integers: each entry
      keeps its low 16 bits. */
  function Uint16(xs: seq<nat>): (r: seq<nat>)
    ensures |r| == |xs|
    ensures forall k | 0 <= k < |r| :: r[k] < Uint16Limit && r[k] % Uint16Limit == xs[k] % Uint16Limit
  {
    seq(|xs|, k requires 0 <= k < |xs| => xs[k] % Uint16Limit)
  }
}

=== FILE: model.dfy ===
/** The index-based hierarchical model (src/model.js).

    A `Model` keeps its nodes in the array `figure`; a node names its
    children by index. The walk and the transform update recurse over those
    indices. Nothing in the source stops a child list from naming an
    ancestor, so recursion is bounded by `fuel`: running out models the
    call-stack overflow a cyclic figure causes.

    A node's callback and its shape's `draw` act only on the GPU; the walk
    records each as an `Event` carrying the model matrix current at the time.
 */
module FigureModel {
  import opened Wrappers
  import opened Maths
  import opened Transformations

  /** A node object of `figure`. `wtransform` and `shape` name a callback and
      a shape; `children` is `None` for a `null` list, and an entry is
      `None` when `null` was added as a child. */
  datatype FigNode = FigNode(
    idx: nat,
    transform: Mat4,
    itransform: Mat4,
    wtransform: Option<nat>,
    children: Option<seq<Option<nat>>>,
    shape: Option<nat>,
    localAngle: Vec3,
    rotationDir: Vec3)

  datatype Model = Model(
    numSegments: nat,
    mtm: Mat4,
    figure: seq<FigNode>,
    matStack: seq<Mat4>,
    dynamicAngle: real,
    dt: real,
    spinrate: real,
    spinphase: real,
    oscillationrate: real)

  /** Why a walk or an update throws: an index past the end of `figure`
      (reading a property of `undefined`), a missing callback or shape
      (calling `null`), or a recursion deeper than the stack allows. */
  datatype ModelError = NoSuchNode(idx: nat) | MissingCallback(idx: nat) | MissingShape(idx: nat) | StackOverflow

  /** What the walk does outside the model: run node `idx`'s callback, or
      draw its shape, while the model matrix is `mtm`. */
  datatype Event = Transformed(idx: nat, callback: nat, mtm: Mat4) | Drew(idx: nat, shape: nat, mtm: Mat4)

  /** `create_node(idx, transform, wtransform, children, shape)`. */
  function CreateNode(idx: nat, transform: Mat4, wtransform: Option<nat>, children: Option<seq<Option<nat>>>, shape: Option<nat>): (n: FigNode)
    ensures n.itransform == n.transform == transform
    ensures n.localAngle == Vec3(0.0, 0.0, 0.0) && n.rotationDir == Vec3(1.0, 1.0, 1.0)
  {
    FigNode(idx, transform, transform, wtransform, children, shape, Vec3(0.0, 0.0, 0.0), Vec3(1.0, 1.0, 1.0))
  }

  /** `figure_init(num_segments)`: appends nodes 0 .. n-1, each with the
      identity transform and no callback, children or shape. */
  method FigureInit(figure: seq<FigNode>, n: nat) returns (r: seq<FigNode>)
    ensures |r| == |figure| + n
    ensures r[..|figure|] == figure
    ensures forall k | |figure| <= k < |r| :: r[k] == CreateNode(k - |figure|, Identity(), None, None, None)
  {
    r := figure;
    var i := 0;
    while i < n
      invariant i <= n
      invariant |r| == |figure| + i && r[..|figure|] == figure
      invariant forall k | |figure| <= k < |r| :: r[k] == CreateNode(k - |figure|, Identity(), None, None, None)
    {
      r := r + [CreateNode(i, Identity(), None, None, None)];
      i := i + 1;
    }
  }

  /** `new Model(num_segments, model_transformation_matrix, figure)` up to
      the `figure_init` call; the per-node `init_node` set-up is not part of
      this model. */
  method NewModel(numSegments: nat, mtm: Mat4, figure: seq<FigNode>) returns (m: Model)
    ensures m.numSegments == numSegments && m.mtm == mtm && m.matStack == []
    ensures m.dynamicAngle == 0.0 && m.dt == 0.0 && m.spinrate == 0.1 && m.spinphase == 0.0 && m.oscillationrate == 1.0
    ensures |m.figure| == |figure| + numSegments && m.figure[..|figure|] == figure
    ensures forall k | |figure| <= k < |m.figure| :: m.figure[k] == CreateNode(k - |figure|, Identity(), None, None, None)
  {
    var nodes := FigureInit(figure, numSegments);
    m := Model(numSegments, mtm, nodes, [], 0.0, 0.0, 0.1, 0.0, 1.0);
  }

  /** `set_mtm(model_transformation_matrix)`: replaces the model matrix
      and nothing else. */
  function SetMtm(m: Model, mtm: Mat4): (r: Model)
    ensures r.mtm == mtm
    ensures r.(mtm := m.mtm) == m
  {
    m.(mtm := mtm)
  }

  /** `update_dynamic_params(angle, dt, spinrate, oscillationrate)`. */
  function UpdateDynamicParams(m: Model, angle: real, dt: real, spinrate: real, oscillationrate: real): (r: Model)
    ensures r.dynamicAngle == angle && r.dt == dt && r.spinrate == spinrate && r.oscillationrate == oscillationrate
    ensures r.(dynamicAngle := m.dynamicAngle, dt := m.dt, spinrate := m.spinrate, oscillationrate := m.oscillationrate) == m
  {
    m.(dynamicAngle := angle, dt := dt, spinrate := spinrate, oscillationrate := oscillationrate)
  }

  /** `add_children(parent_idx, child_idx)`: appends the child index, which
      may be `null`, creating the list when it is null. */
  function AddChildren(m: Model, parent: nat, child: Option<nat>): (r: Result<Model, ModelError>)
    ensures r.Ok? <==> parent < |m.figure|
    ensures r.Ok? ==>
              && |r.value.figure| == |m.figure|
              && r.value.figure[parent].children.Some?
              && r.value.figure[parent].children.value == m.figure[parent].children.GetOr([]) + [child]
              && r.value.figure[parent].(children := m.figure[parent].children) == m.figure[parent]
              && r.value.(figure := m.figure) == m
              && forall k | 0 <= k < |m.figure| && k != parent :: r.value.figure[k] == m.figure[k]
  {
    if parent >= |m.figure| then Err(NoSuchNode(parent))
    else
      var node := m.figure[parent];
      Ok(m.(figure := m.figure[parent := node.(children := Some(node.children.GetOr([]) + [child]))]))
  }

  // ---------------------------------------------------------------------------
  // The walk

  /** `walk(idx)` with at most `fuel` nested calls. On success the model is
      exactly what it was: the matrix pushed on entry is popped on exit, and
      the events are the callback and draw of each visited node. */
  function Walk(m: Model, idx: Option<nat>, fuel: nat): (r: Result<(Model, seq<Event>), ModelError>)
    ensures r.Ok? ==> r.value.0 == m
    ensures idx.None? ==> r == Ok((m, []))
    decreases fuel, 0, 0
  {
    if idx.None? then Ok((m, []))
    else if fuel == 0 then Err(StackOverflow)
    else if idx.value >= |m.figure| then Err(NoSuchNode(idx.value))
    else
      var i := idx.value;
      var node := m.figure[i];
      var local := Enter(m, node);
      if node.wtransform.None? then Err(MissingCallback(i))
      else if node.shape.None? then Err(MissingShape(i))
      else
        var own := [Transformed(i, node.wtransform.value, local.mtm), Drew(i, node.shape.value, local.mtm)];
        match WalkChildren(local, node.children.GetOr([]), 0, fuel - 1)
        case Err(e) => Err(e)
        case Ok((after, evs)) =>
          var top := |after.matStack| - 1;
          Ok((after.(mtm := after.matStack[top], matStack := after.matStack[..top]), own + evs))
  }

  /** Entering a node: push the model matrix, then multiply it by the
      node's transform. */
  function Enter(m: Model, node: FigNode): (r: Model)
    ensures r.figure == m.figure && r.matStack == m.matStack + [m.mtm]
    ensures r.mtm == Mul(m.mtm, node.transform)
  {
    var pushed := m.(matStack := m.matStack + [m.mtm]);
    pushed.(mtm := Mul(pushed.mtm, node.transform))
  }

  /** The child loop of `walk`: children `k` onward, in list order. */
  function WalkChildren(m: Model, children: seq<Option<nat>>, k: nat, fuel: nat): (r: Result<(Model, seq<Event>), ModelError>)
    requires k <= |children|
    ensures r.Ok? ==> r.value.0 == m
    decreases fuel, 1, |children| - k
  {
    if k == |children| then Ok((m, []))
    else
      match Walk(m, children[k], fuel)
      case Err(e) => Err(e)
      case Ok((m1, evs)) =>
        match WalkChildren(m1, children, k + 1, fuel)
        case Err(e) => Err(e)
        case Ok((m2, rest)) => Ok((m2, evs + rest))
  }

  /** A successful walk of node `i` first runs its callback and then draws,
      both with the incoming model matrix times the node's transform. */
  lemma WalkLocalMatrix(m: Model, i: nat, fuel: nat)
    requires Walk(m, Some(i), fuel).Ok?
    ensures i < |m.figure| && m.figure[i].wtransform.Some? && m.figure[i].shape.Some?
    ensures var evs := Walk(m, Some(i), fuel).value.1;
      && |evs| >= 2
      && evs[0] == Transformed(i, m.figure[i].wtransform.value, Mul(m.mtm, m.figure[i].transform))
      && evs[1] == Drew(i, m.figure[i].shape.value, Mul(m.mtm, m.figure[i].transform))
  {
  }

  /** The walk throws on the first missing piece it touches: an index past
      the end, then a missing callback, then a missing shape. */
  lemma WalkErrors(m: Model, i: nat, fuel: nat)
    requires fuel > 0
    ensures i >= |m.figure| ==> Walk(m, Some(i), fuel) == Err(NoSuchNode(i))
    ensures i < |m.figure| && m.figure[i].wtransform.None? ==> Walk(m, Some(i), fuel) == Err(MissingCallback(i))
    ensures i < |m.figure| && m.figure[i].wtransform.Some? && m.figure[i].shape.None? ==>
      Walk(m, Some(i), fuel) == Err(MissingShape(i))
  {
  }

  /** A child loop fails when one child's walk fails: every child before
      it restores the model, so that child is walked from the same state. */
  lemma {:induction false} WalkChildrenFailsAt(m: Model, children: seq<Option<nat>>, k: nat, p: nat, fuel: nat)
    requires k <= p < |children|
    requires Walk(m, children[p], fuel).Err?
    ensures WalkChildren(m, children, k, fuel).Err?
    decreases p - k
  {
    if k < p {
      match Walk(m, children[k], fuel)
      case Err(_) =>
      case Ok((m1, _)) =>
        WalkChildrenFailsAt(m1, children, k + 1, p, fuel);
    }
  }

  /** A walk that gets past a node's callback and shape fails when its
      child loop fails. */
  lemma WalkFailsWithChildren(m: Model, i: nat, fuel: nat, local: Model, children: seq<Option<nat>>)
    requires fuel > 0 && i < |m.figure|
    requires m.figure[i].wtransform.Some? && m.figure[i].shape.Some?
    requires local == Enter(m, m.figure[i]) && children == m.figure[i].children.GetOr([])
    requires WalkChildren(local, children, 0, fuel - 1).Err?
    ensures Walk(m, Some(i), fuel).Err?
  {
  }

  /** A node that lists itself as a child is never walked successfully: the
      recursion only ends when the stack runs out. */
  lemma {:induction false} SelfLoopOverflows(m: Model, i: nat, fuel: nat)
    requires i < |m.figure| && m.figure[i].children.Some? && Some(i) in m.figure[i].children.value
    ensures Walk(m, Some(i), fuel).Err?
    decreases fuel
  {
    if fuel > 0 {
      var node := m.figure[i];
      if node.wtransform.Some? && node.shape.Some? {
        var children := node.children.value;
        var p :| 0 <= p < |children| && children[p] == Some(i);
        assert node.children.GetOr([]) == children;
        var local := Enter(m, node);
        SelfLoopOverflows(local, i, fuel - 1);
        WalkChildrenFailsAt(local, children, 0, p, fuel - 1);
        WalkFailsWithChildren(m, i, fuel, local, children);
      }
    }
  }

  // ---------------------------------------------------------------------------
  // The transform update

  /** The `switch` of `update_node_transform` for node `i`: node 0 advances
      the spin phase by `dt·spinrate` and takes its initial transform times a
      rotation about Y by the new phase; every other node is left alone. */
  function UpdateOwn(trig: Trig, m: Model, i: nat): (r: Model)
    requires i < |m.figure|
    ensures OnlyRootTransformChanged(m, r)
    ensures i != 0 ==> r == m
    ensures i == 0 ==>
              && r.spinphase == m.spinphase + m.dt * m.spinrate
              && r.figure[0].transform == Mul(m.figure[0].itransform, RotateY(Identity(), r.spinphase, trig))
  {
    if i != 0 then m
    else
      var phase := m.spinphase + m.dt * m.spinrate;
      var delta := RotateY(Identity(), phase, trig);
      var node := m.figure[0];
      m.(spinphase := phase, figure := m.figure[0 := node.(transform := Mul(node.itransform, delta))])
  }

  /** `b` differs from `a` at most in the spin phase and in node 0's
      transform: every other node, node 0's initial transform and children,
      the matrix stack and the parameters are as they were. */
  predicate OnlyRootTransformChanged(a: Model, b: Model)
  {
    && |b.figure| == |a.figure|
    && (forall k | 0 < k < |a.figure| :: b.figure[k] == a.figure[k])
    && (|a.figure| > 0 ==> b.figure[0].(transform := a.figure[0].transform) == a.figure[0])
    && b.(figure := a.figure, spinphase := a.spinphase) == a
  }

  lemma OnlyRootTransformChangedTrans(a: Model, b: Model, c: Model)
    requires OnlyRootTransformChanged(a, b) && OnlyRootTransformChanged(b, c)
    ensures OnlyRootTransformChanged(a, c)
  {
  }

  /** The model as `update_node_transform` leaves it, and the error it
      threw, if any. A throw does not undo the assignments made before it. */
  datatype Update = Update(model: Model, error: Option<ModelError>)

  /** The spin phase advanced by one step, as `case 0` does first. */
  function Spun(m: Model): Model
  {
    m.(spinphase := m.spinphase + m.dt * m.spinrate)
  }

  /** `update_node_transform(idx)` with at most `fuel` nested calls: node
      `idx` is updated, then its children in list order. For index 0 past
      the end of the figure the phase has already advanced when reading
      `node.itransform` throws; any other missing node throws at
      `node.children` with nothing changed. Whatever happens, only the phase
      and node 0's transform can differ afterwards. */
  function UpdateNodeTransform(trig: Trig, m: Model, idx: Option<nat>, fuel: nat): (r: Update)
    ensures OnlyRootTransformChanged(m, r.model)
    ensures idx.None? ==> r == Update(m, None)
    ensures idx.Some? && fuel > 0 && idx.value >= |m.figure| ==>
      r == Update(if idx.value == 0 then Spun(m) else m, Some(NoSuchNode(idx.value)))
    decreases fuel, 0, 0
  {
    if idx.None? then Update(m, None)
    else if fuel == 0 then Update(m, Some(StackOverflow))
    else if idx.value >= |m.figure| then
      Update(if idx.value == 0 then Spun(m) else m, Some(NoSuchNode(idx.value)))
    else
      var node := m.figure[idx.value];
      var updated := UpdateOwn(trig, m, idx.value);
      var r := UpdateChildren(trig, updated, node.children.GetOr([]), 0, fuel - 1);
      OnlyRootTransformChangedTrans(m, updated, r.model);
      r
  }

  /** The child loop of `update_node_transform`: children `k` onward. The
      first failing child stops the loop, keeping what earlier children and
      the failing child itself already changed. */
  function UpdateChildren(trig: Trig, m: Model, children: seq<Option<nat>>, k: nat, fuel: nat): (r: Update)
    requires k <= |children|
    ensures OnlyRootTransformChanged(m, r.model)
    ensures k == |children| ==> r == Update(m, None)
    decreases fuel, 1, |children| - k
  {
    if k == |children| then Update(m, None)
    else
      var first := UpdateNodeTransform(trig, m, children[k], fuel);
      if first.error.Some? then first
      else
        var rest := UpdateChildren(trig, first.model, children, k + 1, fuel);
        OnlyRootTransformChangedTrans(m, first.model, rest.model);
        rest
  }

  /** Updating a root without children spins it exactly once. */
  lemma UpdateRootLeaf(trig: Trig, m: Model, fuel: nat)
    requires |m.figure| > 0 && fuel > 0
    requires m.figure[0].children.None? || m.figure[0].children == Some([])
    ensures UpdateNodeTransform(trig, m, Some(0), fuel) == Update(UpdateOwn(trig, m, 0), None)
  {
  }

  /** Updating a node other than 0 that has no children changes nothing. */
  lemma UpdateOtherLeaf(trig: Trig, m: Model, i: nat, fuel: nat)
    requires 0 < i < |m.figure| && fuel > 0
    requires m.figure[i].children.None? || m.figure[i].children == Some([])
    ensures UpdateNodeTransform(trig, m, Some(i), fuel) == Update(m, None)
  {
  }

  /** A root whose only child does not exist is still spun: the child's
      error arrives after node 0's phase and transform were updated. */
  lemma UpdateRootThenMissingChild(trig: Trig, m: Model, c: nat, fuel: nat)
    requires |m.figure| > 0 && fuel > 1
    requires m.figure[0].children == Some([Some(c)]) && c >= |m.figure|
    ensures UpdateNodeTransform(trig, m, Some(0), fuel) == Update(UpdateOwn(trig, m, 0), Some(NoSuchNode(c)))
  {
    var updated := UpdateOwn(trig, m, 0);
    assert UpdateChildren(trig, updated, [Some(c)], 0, fuel - 1).error == Some(NoSuchNode(c));
  }

  /** A `null` entry in a child list is skipped by both loops: `walk(null)`
      and `update_node_transform(null)` return at once. */
  lemma NullChildSkipped(trig: Trig, m: Model, children: seq<Option<nat>>, fuel: nat)
    requires |children| > 0 && children[0].None?
    ensures WalkChildren(m, children, 0, fuel) == WalkChildren(m, children, 1, fuel)
    ensures UpdateChildren(trig, m, children, 0, fuel) == UpdateChildren(trig, m, children, 1, fuel)
  {
    assert Walk(m, None, fuel) == Ok((m, []));
    match WalkChildren(m, children, 1, fuel)
    case Err(_) =>
    case Ok((m2, rest)) =>
      assert [] + rest == rest;
  }
}

=== FILE: model_node.dfy ===
/** The scene-node tree and its depth-first walk (src/model_node.js).

    A node holds a local transform, an optional world-transform callback,
    its children and what to draw. The walk keeps a stack of matrices: it
    saves the incoming matrix, composes it with the node's transform, lets
    the callback replace the result, draws, visits the children with that
    matrix, and pops the stack again.

    A callback is a name (`Callback`); what it computes is supplied to the
    walk as the function `apply`. Drawing is recorded as a `Draw` event
    instead of being sent to the GPU.
 */
module SceneGraph {
  import opened Wrappers
  import opened Maths
  import opened Transformations
  import opened Materials
  import opened Shapes

  /** A world-transform callback, identified by name. */
  datatype Callback = Callback(id: nat)

  /** An argument that `|| null` normalises: missing (`null`/`undefined`),
      another falsy value, or a real value. */
  datatype Arg<+T> = Absent | Falsy | Given(value: T)

  /** `x || null`. */
  function OrNull<T>(a: Arg<T>): (o: Option<T>)
    ensures o.Some? <==> a.Given?
    ensures o.Some? ==> o.value == a.value
  {
    match a
    case Given(v) => Some(v)
    case _ => None
  }

  /** An angle object `{x, y, z}`; a component may be missing. */
  datatype Angles = Angles(x: Option<real>, y: Option<real>, z: Option<real>)

  /** A child list, which the constructor leaves `null`. */
  datatype ChildList = NullList | List(nodes: seq<Node>) {

    /** The children, none for a `null` list. */
    function Nodes(): seq<Node>
    {
      if NullList? then [] else nodes
    }
  }

  /** A `ModelNode`. */
  datatype Node = Node(
    transform: Mat4,
    itransform: Mat4,
    wtransform: Option<Callback>,
    children: ChildList,
    shape: Option<Shape>,
    uniforms: Option<nat>,
    material: Option<MaterialSpec>,
    texture: Option<nat>)

  /** `new ModelNode()`: identity transforms, no callback, a null child
      list and nothing to draw. */
  function EmptyNode(): (n: Node)
    ensures n.transform == Identity() && n.itransform == Identity()
    ensures n.wtransform.None? && n.children == NullList
    ensures n.shape.None? && n.uniforms.None? && n.material.None? && n.texture.None?
  {
    Node(Identity(), Identity(), None, NullList, None, None, None, None)
  }

  /** The placement `create_model_node` computes: translate the identity by
      the location, then rotate about X, Y and Z in turn. A missing location
      skips the translation, a missing angle skips all three rotations, and a
      missing angle component counts as 0. */
  function InitialTransform(trig: Trig, location: Option<Vec3>, angle: Option<Angles>): Mat4
  {
    var t := if location.Some? then Translate(Identity(), location.value) else Identity();
    match angle
    case None => t
    case Some(a) =>
      RotateZ(RotateY(RotateX(t, a.x.GetOr(0.0), trig), a.y.GetOr(0.0), trig), a.z.GetOr(0.0), trig)
  }

  /** `create_model_node(initial_location, initial_angle, wtransform_cb, shape, uniforms, material, texture)`. */
  function CreateModelNode(trig: Trig, location: Option<Vec3>, angle: Option<Angles>, cb: Option<Callback>,
                           shape: Arg<Shape>, uniforms: Arg<nat>, material: Arg<MaterialSpec>, texture: Arg<nat>): (n: Node)
    ensures n.itransform == n.transform
    ensures n.children == List([])
    ensures n.wtransform == cb
    ensures n.shape == OrNull(shape) && n.uniforms == OrNull(uniforms)
    ensures n.material == OrNull(material) && n.texture == OrNull(texture)
  {
    var t := InitialTransform(trig, location, angle);
    Node(t, Copy(t), cb, List([]), OrNull(shape), OrNull(uniforms), OrNull(material), OrNull(texture))
  }

  /** The elementary matrices of a placement, in the order they are applied. */
  function Placement(trig: Trig, location: Option<Vec3>, angle: Option<Angles>): seq<Mat4>
  {
    LocationFactors(location) + if angle.Some? then RotationFactors(trig, angle.value) else []
  }

  /** The left-to-right product I·f0·f1·…, the identity for an empty list. */
  function Product(fs: seq<Mat4>): Mat4
  {
    if fs == [] then Identity() else Mul(Product(fs[..|fs| - 1]), fs[|fs| - 1])
  }

  lemma ProductSnoc(fs: seq<Mat4>, m: Mat4)
    ensures Product(fs + [m]) == Mul(Product(fs), m)
  {
    assert (fs + [m])[..|fs|] == fs;
  }

  /** A node's local transform is the product of its elementary placement
      matrices: translation first, then the X, Y and Z rotations. */
  lemma CreateModelNodeTransform(trig: Trig, location: Option<Vec3>, angle: Option<Angles>, cb: Option<Callback>,
                                 shape: Arg<Shape>, uniforms: Arg<nat>, material: Arg<MaterialSpec>, texture: Arg<nat>)
    ensures CreateModelNode(trig, location, angle, cb, shape, uniforms, material, texture).transform
         == Product(Placement(trig, location, angle))
  {
    var lead := LocationFactors(location);
    LocationProduct(trig, location);
    if angle.Some? {
      RotationProduct(trig, lead, InitialTransform(trig, location, None), angle.value);
      assert Placement(trig, location, angle) == lead + RotationFactors(trig, angle.value);
    } else {
      assert Placement(trig, location, angle) == lead;
    }
  }

  /** The translation factor of a placement, if there is one. */
  function LocationFactors(location: Option<Vec3>): seq<Mat4>
  {
    if location.Some? then [TranslationMatrix(location.value)] else []
  }

  /** The three rotation factors of a placement. */
  function RotationFactors(trig: Trig, a: Angles): seq<Mat4>
  {
    var x, y, z := a.x.GetOr(0.0), a.y.GetOr(0.0), a.z.GetOr(0.0);
    [RotationXMatrix(trig.cos(x), trig.sin(x)),
     RotationYMatrix(trig.cos(y), trig.sin(y)),
     RotationZMatrix(trig.cos(z), trig.sin(z))]
  }

  lemma LocationProduct(trig: Trig, location: Option<Vec3>)
    ensures InitialTransform(trig, location, None) == Product(LocationFactors(location))
  {
    if location.Some? {
      TranslateIsPostMultiply(Identity(), location.value);
      ProductSnoc([], TranslationMatrix(location.value));
      assert [] + [TranslationMatrix(location.value)] == LocationFactors(location);
    }
  }

  lemma RotationProduct(trig: Trig, lead: seq<Mat4>, t: Mat4, a: Angles)
    requires t == Product(lead)
    ensures RotateZ(RotateY(RotateX(t, a.x.GetOr(0.0), trig), a.y.GetOr(0.0), trig), a.z.GetOr(0.0), trig)
         == Product(lead + RotationFactors(trig, a))
  {
    var x, y, z := a.x.GetOr(0.0), a.y.GetOr(0.0), a.z.GetOr(0.0);
    var rx := RotationXMatrix(trig.cos(x), trig.sin(x));
    var ry := RotationYMatrix(trig.cos(y), trig.sin(y));
    var rz := RotationZMatrix(trig.cos(z), trig.sin(z));
    RotateXIsPostMultiply(t, x, trig);
    ProductSnoc(lead, rx);
    RotateYIsPostMultiply(RotateX(t, x, trig), y, trig);
    ProductSnoc(lead + [rx], ry);
    ProductSnoc(lead + [rx] + [ry], rz);
    assert lead + RotationFactors(trig, a) == lead + [rx] + [ry] + [rz];
  }

  /** Without a location or an angle the node starts at the identity. */
  lemma CreateModelNodeUnplaced(trig: Trig, cb: Option<Callback>, shape: Arg<Shape>, uniforms: Arg<nat>,
                                material: Arg<MaterialSpec>, texture: Arg<nat>)
    ensures CreateModelNode(trig, None, None, cb, shape, uniforms, material, texture).transform == Identity()
  {
  }

  /** With a location and no angle the node's transform is the translation matrix. */
  lemma CreateModelNodeTranslationOnly(trig: Trig, location: Vec3, cb: Option<Callback>, shape: Arg<Shape>,
                                       uniforms: Arg<nat>, material: Arg<MaterialSpec>, texture: Arg<nat>)
    ensures CreateModelNode(trig, Some(location), None, cb, shape, uniforms, material, texture).transform
         == TranslationMatrix(location)
  {
    TranslateIsPostMultiply(Identity(), location);
    MulIdentityLeft(TranslationMatrix(location));
  }

  /** When cos 0 = 1 and sin 0 = 0, an angle object whose components are
      all missing or zero adds no rotation. */
  lemma CreateModelNodeZeroAngles(trig: Trig, location: Option<Vec3>, a: Angles, cb: Option<Callback>, shape: Arg<Shape>,
                                  uniforms: Arg<nat>, material: Arg<MaterialSpec>, texture: Arg<nat>)
    requires trig.cos(0.0) == 1.0 && trig.sin(0.0) == 0.0
    requires a.x.GetOr(0.0) == 0.0 && a.y.GetOr(0.0) == 0.0 && a.z.GetOr(0.0) == 0.0
    ensures CreateModelNode(trig, location, Some(a), cb, shape, uniforms, material, texture).transform
         == CreateModelNode(trig, location, None, cb, shape, uniforms, material, texture).transform
  {
    var t := InitialTransform(trig, location, None);
    RotateXAtZero(t, trig);
    RotateYAtZero(t, trig);
    RotateZAtZero(t, trig);
  }

  lemma RotateXAtZero(m: Mat4, trig: Trig)
    requires trig.cos(0.0) == 1.0 && trig.sin(0.0) == 0.0
    ensures RotateX(m, 0.0, trig) == m
  {
    RotateXIsPostMultiply(m, 0.0, trig);
    assert RotationXMatrix(1.0, 0.0) == Identity();
    MulIdentityRight(m);
  }

  lemma RotateYAtZero(m: Mat4, trig: Trig)
    requires trig.cos(0.0) == 1.0 && trig.sin(0.0) == 0.0
    ensures RotateY(m, 0.0, trig) == m
  {
    RotateYIsPostMultiply(m, 0.0, trig);
    assert RotationYMatrix(1.0, 0.0) == Identity();
    MulIdentityRight(m);
  }

  lemma RotateZAtZero(m: Mat4, trig: Trig)
    requires trig.cos(0.0) == 1.0 && trig.sin(0.0) == 0.0
    ensures RotateZ(m, 0.0, trig) == m
  {
    assert RotationZMatrix(1.0, 0.0) == Identity();
    MulIdentityRight(m);
  }

  /** `add_children(parent, child)`: the child is appended to the list, which
      is created first when null. */
  function AddChildren(parent: Node, child: Node): (p: Node)
    ensures p.children.List?
    ensures |p.children.nodes| == |parent.children.Nodes()| + 1
    ensures p.children.nodes[|p.children.nodes| - 1] == child
    ensures p.children.nodes[..|p.children.nodes| - 1] == parent.children.Nodes()
    ensures p.(children := parent.children) == parent
  {
    parent.(children := List(parent.children.Nodes() + [child]))
  }

  /** Adding to a fresh node gives a one-child list, whether the list was
      `[]` or `null`. */
  lemma AddChildrenToEmpty(parent: Node, child: Node)
    requires parent.children == NullList || parent.children == List([])
    ensures AddChildren(parent, child).children == List([child])
  {
  }

  /** One draw call: what the node hands to its shape, and the matrix it
      draws with. */
  datatype Draw = Draw(shape: Shape, uniforms: Option<nat>, material: Option<MaterialSpec>, texture: Option<nat>, mtm: Mat4)

  /** The matrix a node draws with and passes to its children: the incoming
      matrix times the node's transform, replaced by the callback's result
      when the node has one. */
  function WorldMatrix(apply: (Callback, Mat4) -> Mat4, node: Node, mtm: Mat4): (m: Mat4)
    ensures node.wtransform.None? ==> m == Mul(mtm, node.transform)
    ensures node.wtransform.Some? ==> m == apply(node.wtransform.value, Mul(mtm, node.transform))
  {
    var m := Mul(mtm, node.transform);
    match node.wtransform
    case None => m
    case Some(cb) => apply(cb, m)
  }

  /** The node's own draw, if it has a shape. */
  function OwnDraw(apply: (Callback, Mat4) -> Mat4, node: Node, mtm: Mat4): seq<Draw>
  {
    if node.shape.Some?
    then [Draw(node.shape.value, node.uniforms, node.material, node.texture, WorldMatrix(apply, node, mtm))]
    else []
  }

  /** The draws of a subtree in depth-first pre-order, children in list order. */
  function Trace(apply: (Callback, Mat4) -> Mat4, node: Node, mtm: Mat4): seq<Draw>
    decreases node, 1, 0
  {
    var m := WorldMatrix(apply, node, mtm);
    OwnDraw(apply, node, mtm) + if node.children.NullList? then [] else TraceChildren(apply, node, |node.children.nodes|, m)
  }

  /** The draws of the first `n` children of `parent`, all starting from `mtm`. */
  function TraceChildren(apply: (Callback, Mat4) -> Mat4, parent: Node, n: nat, mtm: Mat4): seq<Draw>
    requires parent.children.List? && n <= |parent.children.nodes|
    decreases parent, 0, n
  {
    if n == 0 then []
    else
      assert parent.children.nodes[n - 1] in parent.children.nodes;
      TraceChildren(apply, parent, n - 1, mtm) + Trace(apply, parent.children.nodes[n - 1], mtm)
  }

  /** `walk(node, mtm_stack, mtm)`. The stack is threaded through and
      returned; `restored` is the matrix the final `pop` yields. */
  method Walk(apply: (Callback, Mat4) -> Mat4, node: Node, stack: seq<Mat4>, mtm: Mat4)
    returns (stackOut: seq<Mat4>, restored: Mat4, draws: seq<Draw>)
    ensures stackOut == stack
    ensures restored == mtm
    ensures draws == Trace(apply, node, mtm)
    decreases node, 1
  {
    var s := stack + [Copy(mtm)];
    var m := Mul(mtm, node.transform);
    if node.wtransform.Some? {
      m := apply(node.wtransform.value, m);
    }
    assert m == WorldMatrix(apply, node, mtm);
    draws := [];
    if node.shape.Some? {
      draws := [Draw(node.shape.value, node.uniforms, node.material, node.texture, m)];
    }
    assert draws == OwnDraw(apply, node, mtm);
    if node.children.List? {
      var childDraws;
      s, childDraws := WalkChildren(apply, node, s, m);
      draws := draws + childDraws;
    }
    restored := s[|s| - 1];
    stackOut := s[..|s| - 1];
  }

  /** The `for (let child of node.children)` loop of `walk`: every child is
      walked with the node's world matrix on the same stack. */
  method WalkChildren(apply: (Callback, Mat4) -> Mat4, node: Node, stack: seq<Mat4>, m: Mat4)
    returns (stackOut: seq<Mat4>, draws: seq<Draw>)
    requires node.children.List?
    ensures stackOut == stack
    ensures draws == TraceChildren(apply, node, |node.children.nodes|, m)
    decreases node, 0
  {
    var children := node.children.nodes;
    stackOut, draws := stack, [];
    var k := 0;
    while k < |children|
      invariant k <= |children|
      invariant stackOut == stack
      invariant draws == TraceChildren(apply, node, k, m)
    {
      var childDraws;
      var restoredChild;
      assert children[k] in node.children.nodes;
      stackOut, restoredChild, childDraws := Walk(apply, children[k], stackOut, m);
      draws := draws + childDraws;
      k := k + 1;
    }
  }

  /** A fresh `ModelNode` is inert: walking it draws nothing, it hands its
      children the incoming matrix unchanged, and its first child becomes
      its only child. */
  lemma EmptyNodeInert(apply: (Callback, Mat4) -> Mat4, mtm: Mat4, child: Node)
    ensures Trace(apply, EmptyNode(), mtm) == []
    ensures WorldMatrix(apply, EmptyNode(), mtm) == mtm
    ensures AddChildren(EmptyNode(), child).children == List([child])
  {
    MulIdentityRight(mtm);
  }

  /** The number of nodes with a shape in a subtree. */
  function ShapeCount(node: Node): nat
    decreases node, 1, 0
  {
    (if node.shape.Some? then 1 else 0)
    + if node.children.NullList? then 0 else ChildrenShapeCount(node, |node.children.nodes|)
  }

  function ChildrenShapeCount(parent: Node, n: nat): nat
    requires parent.children.List? && n <= |parent.children.nodes|
    decreases parent, 0, n
  {
    if n == 0 then 0
    else
      assert parent.children.nodes[n - 1] in parent.children.nodes;
      ChildrenShapeCount(parent, n - 1) + ShapeCount(parent.children.nodes[n - 1])
  }

  /** The walk draws exactly once per node that has a shape. */
  lemma {:induction false} TraceLength(apply: (Callback, Mat4) -> Mat4, node: Node, mtm: Mat4)
    ensures |Trace(apply, node, mtm)| == ShapeCount(node)
    decreases node, 1, 0
  {
    if node.children.List? {
      TraceChildrenLength(apply, node, |node.children.nodes|, WorldMatrix(apply, node, mtm));
    }
  }

  lemma {:induction false} TraceChildrenLength(apply: (Callback, Mat4) -> Mat4, parent: Node, n: nat, mtm: Mat4)
    requires parent.children.List? && n <= |parent.children.nodes|
    ensures |TraceChildren(apply, parent, n, mtm)| == ChildrenShapeCount(parent, n)
    decreases parent, 0, n
  {
    if n > 0 {
      var child := parent.children.nodes[n - 1];
      assert child in parent.children.nodes;
      TraceChildrenStep(apply, parent, n, mtm);
      TraceChildrenLength(apply, parent, n - 1, mtm);
      TraceLength(apply, child, mtm);
    }
  }

  /** One unfolding of `TraceChildren` and `ChildrenShapeCount`, counted. */
  lemma TraceChildrenStep(apply: (Callback, Mat4) -> Mat4, parent: Node, n: nat, mtm: Mat4)
    requires parent.children.List? && 0 < n <= |parent.children.nodes|
    ensures |TraceChildren(apply, parent, n, mtm)|
         == |TraceChildren(apply, parent, n - 1, mtm)| + |Trace(apply, parent.children.nodes[n - 1], mtm)|
    ensures ChildrenShapeCount(parent, n) == ChildrenShapeCount(parent, n - 1) + ShapeCount(parent.children.nodes[n - 1])
  {
  }

  /** Pre-order: a node with a shape draws before any of its descendants,
      and a node without one contributes only its children's draws. */
  lemma TraceOrder(apply: (Callback, Mat4) -> Mat4, node: Node, mtm: Mat4)
    ensures node.shape.Some? ==>
              && |Trace(apply, node, mtm)| > 0
              && Trace(apply, node, mtm)[0].shape == node.shape.value
              && Trace(apply, node, mtm)[0].mtm == WorldMatrix(apply, node, mtm)
    ensures node.shape.None? && node.children.List? ==>
      Trace(apply, node, mtm) == TraceChildren(apply, node, |node.children.nodes|, WorldMatrix(apply, node, mtm))
  {
  }

  /** A node without children draws only itself. */
  lemma TraceLeaf(apply: (Callback, Mat4) -> Mat4, node: Node, mtm: Mat4)
    requires node.children == List([]) || node.children == NullList
    ensures Trace(apply, node, mtm) == OwnDraw(apply, node, mtm)
  {
  }

  /** A node with one child draws itself, then the child's subtree from
      the node's world matrix. */
  lemma TraceOneChild(apply: (Callback, Mat4) -> Mat4, node: Node, child: Node, mtm: Mat4)
    requires node.children == List([child])
    ensures Trace(apply, node, mtm) == OwnDraw(apply, node, mtm) + Trace(apply, child, WorldMatrix(apply, node, mtm))
  {
    assert TraceChildren(apply, node, 1, WorldMatrix(apply, node, mtm)) == Trace(apply, child, WorldMatrix(apply, node, mtm));
  }

  /** A node with two children draws the first child's subtree before the
      second's, both from the parent's world matrix. */
  lemma TraceTwoChildren(apply: (Callback, Mat4) -> Mat4, parent: Node, a: Node, b: Node, mtm: Mat4)
    requires parent.children == List([a, b]) && parent.shape.None?
    ensures var m := WorldMatrix(apply, parent, mtm);
      Trace(apply, parent, mtm) == Trace(apply, a, m) + Trace(apply, b, m)
  {
    var m := WorldMatrix(apply, parent, mtm);
    assert TraceChildren(apply, parent, 1, m) == Trace(apply, a, m);
  }

  /** Without callbacks, a child's world matrix is the incoming matrix times
      the product of the parent's and the child's transforms. */
  lemma ChildWorldMatrix(apply: (Callback, Mat4) -> Mat4, parent: Node, child: Node, mtm: Mat4)
    requires parent.wtransform.None? && child.wtransform.None?
    ensures WorldMatrix(apply, child, WorldMatrix(apply, parent, mtm)) == Mul(mtm, Mul(parent.transform, child.transform))
  {
    MulAssociative(mtm, parent.transform, child.transform);
  }

  /** Two translations compose into the translation by their sum. */
  lemma TranslationsCompose(p: Vec3, c: Vec3)
    ensures Mul(TranslationMatrix(p), TranslationMatrix(c)) == TranslationMatrix(Vec3(p.x + c.x, p.y + c.y, p.z + c.z))
  {
    TranslateIsPostMultiply(TranslationMatrix(p), c);
    Ext16(Translate(TranslationMatrix(p), c), TranslationMatrix(Vec3(p.x + c.x, p.y + c.y, p.z + c.z)));
  }

  /** A parent placed at (0, 2, 0) with a child placed at (0, 1, 0) puts the
      child at (0, 3, 0) in world space. */
  lemma StackedTranslations(apply: (Callback, Mat4) -> Mat4, trig: Trig)
    ensures var parent := CreateModelNode(trig, Some(Vec3(0.0, 2.0, 0.0)), None, None, Absent, Absent, Absent, Absent);
      var child := CreateModelNode(trig, Some(Vec3(0.0, 1.0, 0.0)), None, None, Absent, Absent, Absent, Absent);
      WorldMatrix(apply, child, WorldMatrix(apply, parent, Identity())) == TranslationMatrix(Vec3(0.0, 3.0, 0.0))
  {
    var p, c := Vec3(0.0, 2.0, 0.0), Vec3(0.0, 1.0, 0.0);
    var parent := CreateModelNode(trig, Some(p), None, None, Absent, Absent, Absent, Absent);
    var child := CreateModelNode(trig, Some(c), None, None, Absent, Absent, Absent, Absent);
    CreateModelNodeTranslationOnly(trig, p, None, Absent, Absent, Absent, Absent);
    CreateModelNodeTranslationOnly(trig, c, None, Absent, Absent, Absent, Absent);
    ChildWorldMatrix(apply, parent, child, Identity());
    TranslationsCompose(p, c);
    MulIdentityLeft(TranslationMatrix(Vec3(0.0, 3.0, 0.0)));
  }
}

=== FILE: primitives.dfy ===
/** The procedural mesh generators (`src/primitives.js`).

    Each generator returns flat arrays: three numbers per vertex position and
    normal, two per texture coordinate, three indices per triangle. The
    curved surfaces are a (v_steps + 1) × (u_steps + 1) grid of vertices
    stitched by two triangles per cell; the cone and cylinder add fan caps.
    Sines, cosines, square roots and π come from a `Trig` record.
 */
module Primitives {
  import opened Wrappers
  import opened Maths
  import opened Grid
  import Tangents

  /** What a generator attaches as `tangents`. `NonFinite` stands for the
      Infinity/NaN entries the source writes when a triangle's UV mapping is
      degenerate. */
  datatype TangentData = Absent | Finite(values: seq<real>) | NonFinite

  /** The object a generator returns. The pyramid has no texture coordinates. */
  datatype Mesh = Mesh(
    vertices: seq<real>,
    indices: seq<nat>,
    normals: seq<real>,
    texCoords: Option<seq<real>>,
    tangents: TangentData)

  /** The number of vertices, `vertices.length / 3`. */
  function VertexCount(m: Mesh): nat
  {
    |m.vertices| / 3
  }

  /** Array lengths agree and every index names an existing vertex. */
  predicate WellFormed(m: Mesh)
  {
    && |m.vertices| % 3 == 0
    && |m.normals| == |m.vertices|
    && |m.indices| % 3 == 0
    && (forall k | 0 <= k < |m.indices| :: m.indices[k] < VertexCount(m))
    && (m.texCoords.Some? ==> |m.texCoords.value| == 2 * VertexCount(m))
    && (m.tangents.Finite? ==> |m.tangents.values| == |m.vertices|)
  }

  // ---------------------------------------------------------------------------
  // Shared construction

  /** `compute_tangents` on the finished arrays. */
  function TangentsFor(vertices: seq<real>, uv: seq<real>, indices: seq<nat>): (r: TangentData)
    requires Tangents.WellIndexed(vertices, uv, indices)
    ensures r.Finite? <==> Tangents.NoneDegenerate(vertices, uv, indices, Tangents.TriangleCount(indices))
    ensures r.Finite? ==> |r.values| == |vertices|
    ensures r != Absent
  {
    Tangents.ComputeTangentsDefined(vertices, uv, indices);
    match Tangents.ComputeTangents(vertices, uv, indices)
    case Some(t) => Finite(t)
    case None => NonFinite
  }

  /** Triangles whose corners stay below the vertex count index the flat
      arrays safely. */
  lemma WellIndexedFlat(pts: seq<Vec3>, uvs: seq<Uv>, tris: seq<Tri>)
    requires |uvs| == |pts|
    requires forall k | 0 <= k < |tris| :: TriBelow(tris[k], |pts|)
    ensures Tangents.WellIndexed(Flat3(pts), Flat2(uvs), FlatTris(tris))
  {
    var idx := FlatTris(tris);
    FlatTrisBelow(tris, |pts|);
    forall k | 0 <= k < |idx|
      ensures 3 * idx[k] + 2 < |Flat3(pts)| && 2 * idx[k] + 1 < |Flat2(uvs)|
    {
      assert idx[k] < |pts|;
    }
    TripleMod(|pts|);
    TripleMod(|tris|);
  }

  lemma TripleMod(n: nat)
    ensures (3 * n) % 3 == 0
  {
  }

  lemma TripleDiv(n: nat)
    ensures (3 * n) / 3 == n
  {
  }

  /** Flatten the generated records and compute the tangents. */
  function Build(pts: seq<Vec3>, nrm: seq<Vec3>, uvs: seq<Uv>, tris: seq<Tri>): (m: Mesh)
    requires |nrm| == |pts| && |uvs| == |pts|
    requires forall k | 0 <= k < |tris| :: TriBelow(tris[k], |pts|)
    ensures WellFormed(m)
    ensures VertexCount(m) == |pts| && |m.indices| == 3 * |tris|
    ensures m.tangents != Absent
  {
    WellIndexedFlat(pts, uvs, tris);
    FlatTrisBelow(tris, |pts|);
    Mesh(Flat3(pts), FlatTris(tris), Flat3(nrm), Some(Flat2(uvs)),
         TangentsFor(Flat3(pts), Flat2(uvs), FlatTris(tris)))
  }

  /** The angle `j * 2 * Math.PI / u_steps`. */
  function Theta(trig: Trig, steps: nat, j: nat): real
    requires steps > 0
  {
    j as real * 2.0 * trig.pi / steps as real
  }

  /** The lateral texture coordinate `(j / u_steps, i / v_steps)`. */
  function GridUv(u: nat, v: nat, i: nat, j: nat): Uv
    requires u > 0 && v > 0
  {
    Uv(j as real / u as real, i as real / v as real)
  }

  function GridUvCell(u: nat, v: nat): (nat, nat) -> Uv
    requires u > 0 && v > 0
  {
    (i: nat, j: nat) => GridUv(u, v, i, j)
  }

  /** Every lateral texture coordinate of a grid lies in the unit square. */
  lemma GridUvInUnitSquare(u: nat, v: nat, x: Uv)
    requires u > 0 && v > 0
    requires x in Table(v + 1, u + 1, GridUvCell(u, v))
    ensures 0.0 <= x.u <= 1.0 && 0.0 <= x.v <= 1.0
  {
    TableMember(v + 1, u + 1, GridUvCell(u, v), x);
    var i: nat, j: nat :| i < v + 1 && j < u + 1 && x == GridUvCell(u, v)(i, j);
    assert x == Uv(j as real / u as real, i as real / v as real);
    RatioInUnit(j, u);
    RatioInUnit(i, v);
  }

  /** A counter divided by its bound lies in [0, 1]. */
  lemma RatioInUnit(a: nat, b: nat)
    requires 0 < b && a <= b
    ensures 0.0 <= a as real / b as real <= 1.0
  {
    var q := a as real / b as real;
    assert q * b as real == a as real;
  }

  // ---------------------------------------------------------------------------
  // Grid cells: two triangles per cell

  /** A grid cell's two triangles (k1, k2, k1+1) and (k2, k2+1, k1+1), where
      k1 = i·(u_steps+1) + j and k2 = k1 + u_steps + 1. */
  datatype Quad = Quad(lower: Tri, upper: Tri)

  function Cell(u: nat, i: nat, j: nat): Quad
  {
    var k1 := i * (u + 1) + j;
    var k2 := k1 + u + 1;
    Quad(Tri(k1, k2, k1 + 1), Tri(k2, k2 + 1, k1 + 1))
  }

  function CellOf(u: nat): (nat, nat) -> Quad
  {
    (i: nat, j: nat) => Cell(u, i, j)
  }

  /** The two triangles of each quad, in order. */
  function Split(qs: seq<Quad>): (r: seq<Tri>)
    ensures |r| == 2 * |qs|
  {
    if qs == [] then [] else Split(qs[..|qs| - 1]) + [qs[|qs| - 1].lower, qs[|qs| - 1].upper]
  }

  lemma {:induction false} SplitAt(qs: seq<Quad>, k: nat)
    requires k < |qs|
    ensures Split(qs)[2 * k] == qs[k].lower && Split(qs)[2 * k + 1] == qs[k].upper
  {
    var n := |qs| - 1;
    if k < n {
      SplitAt(qs[..n], k);
      assert qs[..n][k] == qs[k];
    }
  }

  lemma SplitAppend(a: seq<Quad>, b: seq<Quad>)
    ensures Split(a + b) == Split(a) + Split(b)
    decreases |b|
  {
    if b == [] {
      assert a + b == a;
    } else {
      var n := |b| - 1;
      assert (a + b)[..|a + b| - 1] == a + b[..n];
      SplitAppend(a, b[..n]);
    }
  }

  /** The index loop nest `for i < v_steps, for j < u_steps` of every curved generator. */
  function QuadTris(u: nat, v: nat): (r: seq<Tri>)
    ensures |r| == 2 * (v * u)
  {
    TableLength(v, u, CellOf(u));
    Split(Table(v, u, CellOf(u)))
  }

  /** Both triangles of cell (i, j) stay inside the (v+1) × (u+1) vertex grid. */
  lemma CellBelow(u: nat, v: nat, i: nat, j: nat)
    requires i < v && j < u
    ensures TriBelow(Cell(u, i, j).lower, (v + 1) * (u + 1))
    ensures TriBelow(Cell(u, i, j).upper, (v + 1) * (u + 1))
  {
    var k1 := i * (u + 1) + j;
    assert (i + 1) * (u + 1) <= v * (u + 1);
    assert (v + 1) * (u + 1) == v * (u + 1) + u + 1;
    assert k1 + u + 2 == (i + 1) * (u + 1) + j + 1;
  }

  /** Stitched triangle k references a grid vertex. */
  lemma QuadTriBelow(u: nat, v: nat, k: nat)
    requires k < |QuadTris(u, v)|
    ensures TriBelow(QuadTris(u, v)[k], (v + 1) * (u + 1))
  {
    var qs := Table(v, u, CellOf(u));
    assert QuadTris(u, v) == Split(qs);
    var c := k / 2;
    assert k == 2 * c || k == 2 * c + 1;
    SplitAt(qs, c);
    assert qs[c] in qs;
    TableMember(v, u, CellOf(u), qs[c]);
    var i: nat, j: nat :| i < v && j < u && qs[c] == CellOf(u)(i, j);
    CellBelow(u, v, i, j);
  }

  /** Every stitched triangle references a grid vertex. */
  lemma QuadTrisBelow(u: nat, v: nat)
    ensures forall k | 0 <= k < |QuadTris(u, v)| :: TriBelow(QuadTris(u, v)[k], (v + 1) * (u + 1))
  {
    forall k | 0 <= k < |QuadTris(u, v)|
      ensures TriBelow(QuadTris(u, v)[k], (v + 1) * (u + 1))
    {
      QuadTriBelow(u, v, k);
    }
  }

  /** Cell (i, j) contributes triangles 2(i·u + j) and 2(i·u + j) + 1. */
  lemma QuadTrisAt(u: nat, v: nat, i: nat, j: nat)
    requires i < v && j < u
    ensures 2 * (i * u + j) + 1 < |QuadTris(u, v)|
    ensures QuadTris(u, v)[2 * (i * u + j)] == Cell(u, i, j).lower
    ensures QuadTris(u, v)[2 * (i * u + j) + 1] == Cell(u, i, j).upper
  {
    TableAt(v, u, CellOf(u), i, j);
    SplitAt(Table(v, u, CellOf(u)), i * u + j);
  }

  // ---------------------------------------------------------------------------
  // Fans

  /** Fan triangle j around `center` over the ring starting at `start`:
      (center, start+j, start+j+1), or (center, start+j+1, start+j) when
      `reversed`. */
  function FanCell(center: nat, start: nat, reversed: bool): nat -> Tri
  {
    (j: nat) => if reversed then Tri(center, start + j + 1, start + j) else Tri(center, start + j, start + j + 1)
  }

  function Fan(center: nat, start: nat, n: nat, reversed: bool): (r: seq<Tri>)
    ensures |r| == n
  {
    Series(n, FanCell(center, start, reversed))
  }

  lemma FanBelow(center: nat, start: nat, n: nat, reversed: bool, count: nat)
    requires center < count && start + n < count
    ensures forall k | 0 <= k < n :: TriBelow(Fan(center, start, n, reversed)[k], count)
  {
    forall k | 0 <= k < n
      ensures TriBelow(Fan(center, start, n, reversed)[k], count)
    {
      SeriesAt(n, FanCell(center, start, reversed), k);
    }
  }

  /** Triangles of `a` then `b`, all below `count`. */
  lemma AllBelowAppend(a: seq<Tri>, b: seq<Tri>, count: nat)
    requires forall k | 0 <= k < |a| :: TriBelow(a[k], count)
    requires forall k | 0 <= k < |b| :: TriBelow(b[k], count)
    ensures forall k | 0 <= k < |a + b| :: TriBelow((a + b)[k], count)
  {
    forall k | 0 <= k < |a + b|
      ensures TriBelow((a + b)[k], count)
    {
      if k >= |a| {
        assert (a + b)[k] == b[k - |a|];
      }
    }
  }

  /** Triangles that stay below a smaller count stay below a larger one. */
  lemma AllBelowWiden(a: seq<Tri>, small: nat, large: nat)
    requires small <= large
    requires forall k | 0 <= k < |a| :: TriBelow(a[k], small)
    ensures forall k | 0 <= k < |a| :: TriBelow(a[k], large)
  {
  }

  // ---------------------------------------------------------------------------
  // pyramid_data

  const PyramidVertices: seq<real> := [
    -1.0, -1.0, -1.0,   1.0, -1.0, -1.0,   1.0, 1.0, -1.0,  -1.0, 1.0, -1.0,
    -1.0, -1.0, 1.0,    1.0, -1.0, 1.0,    1.0, 1.0, 1.0,   -1.0, 1.0, 1.0,
     0.0, 1.0, 0.0]

  const PyramidIndices: seq<nat> := [0, 1, 5,  0, 5, 4,  1, 5, 8,  5, 4, 8,  4, 0, 8,  0, 1, 8]

  /** `pyramid_data()`: the normals array is filled by copying the vertex
      array entry by entry; there are no texture coordinates or tangents. */
  method PyramidData() returns (m: Mesh)
    ensures m.normals == m.vertices
    ensures |m.vertices| == 3 * 9 && |m.indices| == 18
    ensures m.texCoords.None? && m.tangents == Absent
    ensures WellFormed(m)
  {
    var normals: seq<real> := [];
    var i := 0;
    while i < |PyramidVertices|
      invariant 0 <= i <= |PyramidVertices|
      invariant normals == PyramidVertices[..i]
    {
      normals := normals + [PyramidVertices[i]];
      i := i + 1;
    }
    assert PyramidVertices[..i] == PyramidVertices;
    m := Mesh(PyramidVertices, PyramidIndices, normals, None, Absent);
  }

  // ---------------------------------------------------------------------------
  // cube_data

  /** The cube's 24 corner positions, four per face. */
  const CubeCorners: seq<Vec3> := [
    Vec3(-1.0, -1.0, 1.0),  Vec3(1.0, -1.0, 1.0),   Vec3(1.0, 1.0, 1.0),    Vec3(-1.0, 1.0, 1.0),
    Vec3(-1.0, -1.0, -1.0), Vec3(-1.0, 1.0, -1.0),  Vec3(1.0, 1.0, -1.0),   Vec3(1.0, -1.0, -1.0),
    Vec3(-1.0, 1.0, -1.0),  Vec3(-1.0, 1.0, 1.0),   Vec3(1.0, 1.0, 1.0),    Vec3(1.0, 1.0, -1.0),
    Vec3(-1.0, -1.0, -1.0), Vec3(1.0, -1.0, -1.0),  Vec3(1.0, -1.0, 1.0),   Vec3(-1.0, -1.0, 1.0),
    Vec3(1.0, -1.0, -1.0),  Vec3(1.0, 1.0, -1.0),   Vec3(1.0, 1.0, 1.0),    Vec3(1.0, -1.0, 1.0),
    Vec3(-1.0, -1.0, -1.0), Vec3(-1.0, -1.0, 1.0),  Vec3(-1.0, 1.0, 1.0),   Vec3(-1.0, 1.0, -1.0)]

  const CubeTexCoords: seq<real> := [
    0.0, 0.0, 1.0, 0.0, 1.0, 1.0, 0.0, 1.0,
    0.0, 0.0, 1.0, 0.0, 1.0, 1.0, 0.0, 1.0,
    0.0, 0.0, 1.0, 0.0, 1.0, 1.0, 0.0, 1.0,
    0.0, 0.0, 1.0, 0.0, 1.0, 1.0, 0.0, 1.0,
    0.0, 0.0, 1.0, 0.0, 1.0, 1.0, 0.0, 1.0,
    0.0, 0.0, 1.0, 0.0, 1.0, 1.0, 0.0, 1.0]

  const CubeIndices: seq<nat> := [
    0, 1, 2,     0, 2, 3,
    4, 5, 6,     4, 6, 7,
    8, 9, 10,    8, 10, 11,
    12, 13, 14,  12, 14, 15,
    16, 17, 18,  16, 18, 19,
    20, 21, 22,  20, 22, 23]

  /** The cube's 24 vertex normals, one per corner. */
  const CubeNormalList: seq<Vec3> := [
    Vec3(0.0, 0.0, 1.0),  Vec3(0.0, 0.0, 1.0),  Vec3(0.0, 0.0, 1.0),  Vec3(0.0, 0.0, 1.0),
    Vec3(0.0, 0.0, -1.0), Vec3(0.0, 0.0, -1.0), Vec3(0.0, 0.0, -1.0), Vec3(0.0, 0.0, -1.0),
    Vec3(0.0, 1.0, 0.0),  Vec3(0.0, 1.0, 0.0),  Vec3(0.0, 1.0, 0.0),  Vec3(0.0, 1.0, 0.0),
    Vec3(0.0, -1.0, 0.0), Vec3(0.0, -1.0, 0.0), Vec3(0.0, -1.0, 0.0), Vec3(0.0, -1.0, 0.0),
    Vec3(1.0, 0.0, 0.0),  Vec3(1.0, 0.0, 0.0),  Vec3(1.0, 0.0, 0.0),  Vec3(1.0, 0.0, 0.0),
    Vec3(-1.0, 0.0, 0.0), Vec3(-1.0, 0.0, 0.0), Vec3(-1.0, 0.0, 0.0), Vec3(-1.0, 0.0, 0.0)]

  lemma CubeWellIndexed()
    ensures Tangents.WellIndexed(Flat3(CubeCorners), CubeTexCoords, CubeIndices)
  {
    assert forall k | 0 <= k < |CubeIndices| :: CubeIndices[k] < 24;
  }

  /** `cube_data()`: six faces of four vertices, each face a quad of two
      triangles, with tangents from `compute_tangents`. */
  function CubeData(): (m: Mesh)
    ensures WellFormed(m)
    ensures |m.vertices| == 3 * 24 && |m.indices| == 36
  {
    CubeWellIndexed();
    Mesh(Flat3(CubeCorners), CubeIndices, Flat3(CubeNormalList), Some(CubeTexCoords),
         TangentsFor(Flat3(CubeCorners), CubeTexCoords, CubeIndices))
  }

  lemma CubeDataFields()
    ensures CubeData().vertices == Flat3(CubeCorners) && CubeData().indices == CubeIndices
    ensures CubeData().normals == Flat3(CubeNormalList) && CubeData().texCoords == Some(CubeTexCoords)
  {
  }

  /** The texture coordinates every cube face uses: (0,0), (1,0), (1,1), (0,1). */
  const FaceUv: seq<real> := [0.0, 0.0, 1.0, 0.0, 1.0, 1.0, 0.0, 1.0]

  /** Face f (0..5) is vertices 4f .. 4f+3, drawn as the triangles
      (4f, 4f+1, 4f+2) and (4f, 4f+2, 4f+3). */
  lemma CubeFaceIndices(f: nat)
    requires f < 6
    ensures CubeData().indices[6 * f .. 6 * f + 6] == [4 * f, 4 * f + 1, 4 * f + 2, 4 * f, 4 * f + 2, 4 * f + 3]
  {
    CubeDataFields();
    CubeIndicesFace(f);
  }

  lemma CubeIndicesFace(f: nat)
    requires f < 6
    ensures CubeIndices[6 * f .. 6 * f + 6] == [4 * f, 4 * f + 1, 4 * f + 2, 4 * f, 4 * f + 2, 4 * f + 3]
  {
    var s := CubeIndices[6 * f .. 6 * f + 6];
    var want := [4 * f, 4 * f + 1, 4 * f + 2, 4 * f, 4 * f + 2, 4 * f + 3];
    forall t | 0 <= t < 6
      ensures s[t] == want[t]
    {
      assert s[t] == CubeIndices[6 * f + t];
      assert t == 0 || t == 1 || t == 2 || t == 3 || t == 4 || t == 5;
      assert f == 0 || f == 1 || f == 2 || f == 3 || f == 4 || f == 5;
    }
  }

  /** The outward normal of cube face f: +z, −z, +y, −y, +x, −x. */
  function FaceNormal(f: nat): Vec3
    requires f < 6
  {
    [Vec3(0.0, 0.0, 1.0), Vec3(0.0, 0.0, -1.0), Vec3(0.0, 1.0, 0.0),
     Vec3(0.0, -1.0, 0.0), Vec3(1.0, 0.0, 0.0), Vec3(-1.0, 0.0, 0.0)][f]
  }

  /** All four vertices of face f carry the face's outward normal. */
  lemma CubeFaceNormals(f: nat, k: nat)
    requires f < 6 && k < 4
    ensures CubeData().normals[12 * f + 3 * k .. 12 * f + 3 * k + 3] == Flat(FaceNormal(f))
  {
    CubeDataFields();
    CubeNormalsFace(f, k);
  }

  lemma CubeNormalsFace(f: nat, k: nat)
    requires f < 6 && k < 4
    ensures Flat3(CubeNormalList)[12 * f + 3 * k .. 12 * f + 3 * k + 3] == Flat(FaceNormal(f))
  {
    Flat3At(CubeNormalList, 4 * f + k);
    assert k == 0 || k == 1 || k == 2 || k == 3;
    assert f == 0 || f == 1 || f == 2 || f == 3 || f == 4 || f == 5;
  }

  /** Each face's texture coordinates run (0,0), (1,0), (1,1), (0,1). */
  lemma CubeFaceTexCoords(f: nat)
    requires f < 6
    ensures CubeData().texCoords.Some?
    ensures CubeData().texCoords.value[8 * f .. 8 * f + 8] == FaceUv
  {
    CubeDataFields();
    CubeTexCoordsFace(f);
  }

  lemma CubeTexCoordsFace(f: nat)
    requires f < 6
    ensures CubeTexCoords[8 * f .. 8 * f + 8] == FaceUv
  {
    var s := CubeTexCoords[8 * f .. 8 * f + 8];
    forall t | 0 <= t < 8
      ensures s[t] == FaceUv[t]
    {
      CubeTexCoordAt(f, t);
    }
  }

  lemma CubeTexCoordAt(f: nat, t: nat)
    requires f < 6 && t < 8
    ensures CubeTexCoords[8 * f + t] == FaceUv[t]
  {
    if f == 0 {
    } else if f == 1 {
    } else if f == 2 {
    } else if f == 3 {
    } else if f == 4 {
    } else {
      assert f == 5;
    }
  }

  /** A quad whose corners 4f .. 4f+3 carry the face coordinates gives both
      of its triangles a UV determinant of 1. */
  lemma FaceDeterminant(pos: seq<real>, uv: seq<real>, idx: seq<nat>, f: nat, t: nat)
    requires Tangents.WellIndexed(pos, uv, idx)
    requires 6 * f + 6 <= |idx| && 8 * f + 8 <= |uv|
    requires idx[6 * f .. 6 * f + 6] == [4 * f, 4 * f + 1, 4 * f + 2, 4 * f, 4 * f + 2, 4 * f + 3]
    requires uv[8 * f .. 8 * f + 8] == FaceUv
    requires t == 2 * f || t == 2 * f + 1
    ensures t < Tangents.TriangleCount(idx)
    ensures Tangents.UvDeterminant(pos, uv, idx, t) == 1.0
  {
    var s := uv[8 * f .. 8 * f + 8];
    assert uv[8 * f] == s[0] && uv[8 * f + 1] == s[1];
    assert uv[8 * f + 2] == s[2] && uv[8 * f + 3] == s[3];
    assert uv[8 * f + 4] == s[4] && uv[8 * f + 5] == s[5];
    assert uv[8 * f + 6] == s[6] && uv[8 * f + 7] == s[7];
    var q := idx[6 * f .. 6 * f + 6];
    if t == 2 * f {
      assert idx[3 * t] == q[0] && idx[3 * t + 1] == q[1] && idx[3 * t + 2] == q[2];
    } else {
      assert idx[3 * t] == q[3] && idx[3 * t + 1] == q[4] && idx[3 * t + 2] == q[5];
    }
  }

  /** Cube triangle t has a UV determinant of 1. */
  lemma CubeTriangleUnitDeterminant(t: nat)
    requires t < 12
    ensures Tangents.WellIndexed(Flat3(CubeCorners), CubeTexCoords, CubeIndices)
    ensures Tangents.UvDeterminant(Flat3(CubeCorners), CubeTexCoords, CubeIndices, t) == 1.0
  {
    CubeWellIndexed();
    var f := t / 2;
    CubeIndicesFace(f);
    CubeTexCoordsFace(f);
    FaceDeterminant(Flat3(CubeCorners), CubeTexCoords, CubeIndices, f, t);
  }

  /** No cube triangle is degenerate, so the cube's tangents are finite. */
  lemma CubeTangentsFinite()
    ensures CubeData().tangents.Finite?
  {
    CubeWellIndexed();
    forall t | 0 <= t < 12
      ensures !Tangents.Degenerate(Flat3(CubeCorners), CubeTexCoords, CubeIndices, t)
    {
      CubeTriangleUnitDeterminant(t);
    }
  }

  // ---------------------------------------------------------------------------
  // Curved surfaces: shared pieces

  /** Sine and cosine never leave [-1, 1]. */
  ghost predicate BoundedTrig(trig: Trig)
  {
    forall x :: -1.0 <= trig.sin(x) <= 1.0 && -1.0 <= trig.cos(x) <= 1.0
  }

  /** The texture coordinates of every lateral grid, row by row. */
  function GridUvs(u: nat, v: nat): (uvs: seq<Uv>)
    requires u > 0 && v > 0
    ensures |uvs| == (v + 1) * (u + 1)
  {
    TableLength(v + 1, u + 1, GridUvCell(u, v));
    Table(v + 1, u + 1, GridUvCell(u, v))
  }

  /** Every lateral texture coordinate lies in the unit square. */
  lemma GridUvsInUnitSquare(u: nat, v: nat)
    requires u > 0 && v > 0
    ensures forall k | 0 <= k < |GridUvs(u, v)| :: 0.0 <= GridUvs(u, v)[k].u <= 1.0 && 0.0 <= GridUvs(u, v)[k].v <= 1.0
  {
    forall k | 0 <= k < |GridUvs(u, v)|
      ensures 0.0 <= GridUvs(u, v)[k].u <= 1.0 && 0.0 <= GridUvs(u, v)[k].v <= 1.0
    {
      assert GridUvs(u, v)[k] in GridUvs(u, v);
      GridUvInUnitSquare(u, v, GridUvs(u, v)[k]);
    }
  }

  /** The UV determinant of a triangle with coordinates a, b, c, as
      `compute_tangents` forms it from the differences b − a and c − a. */
  function UvArea(a: Uv, b: Uv, c: Uv): real
  {
    (b.u - a.u) * (c.v - a.v) - (b.v - a.v) * (c.u - a.u)
  }

  /** Triangle t of a flat index array whose corners carry the coordinates
      a, b and c has the determinant of those coordinates. */
  lemma UvDeterminantOfCorners(pos: seq<real>, uv: seq<real>, idx: seq<nat>, t: nat, a: Uv, b: Uv, c: Uv)
    requires Tangents.WellIndexed(pos, uv, idx) && 3 * t + 2 < |idx|
    requires uv[2 * idx[3 * t]] == a.u && uv[2 * idx[3 * t] + 1] == a.v
    requires uv[2 * idx[3 * t + 1]] == b.u && uv[2 * idx[3 * t + 1] + 1] == b.v
    requires uv[2 * idx[3 * t + 2]] == c.u && uv[2 * idx[3 * t + 2] + 1] == c.v
    ensures t < Tangents.TriangleCount(idx)
    ensures Tangents.UvDeterminant(pos, uv, idx, t) == UvArea(a, b, c)
  {
  }

  /** Grid coordinate (i, j) is record i·(u+1) + j. */
  lemma GridUvAt(u: nat, v: nat, i: nat, j: nat)
    requires u > 0 && v > 0 && i <= v && j <= u
    ensures i * (u + 1) + j < GridCount(u, v)
    ensures GridUvs(u, v)[i * (u + 1) + j] == GridUv(u, v, i, j)
  {
    TableAt(v + 1, u + 1, GridUvCell(u, v), i, j);
  }

  /** Both triangles of grid cell (i, j) have UV determinant −1/(u·v): the
      coordinates step by 1/u along a row and by 1/v down a column. */
  lemma CellUvAreas(u: nat, v: nat, i: nat, j: nat)
    requires u > 0 && v > 0
    ensures UvArea(GridUv(u, v, i, j), GridUv(u, v, i + 1, j), GridUv(u, v, i, j + 1)) == -(1.0 / u as real) * (1.0 / v as real)
    ensures UvArea(GridUv(u, v, i + 1, j), GridUv(u, v, i + 1, j + 1), GridUv(u, v, i, j + 1)) == -(1.0 / u as real) * (1.0 / v as real)
  {
    var du, dv := 1.0 / u as real, 1.0 / v as real;
    assert (j + 1) as real / u as real - j as real / u as real == du;
    assert (i + 1) as real / v as real - i as real / v as real == dv;
  }

  /** Grid triangle t belongs to cell (t/2 / u, t/2 % u). */
  lemma QuadCellOf(u: nat, v: nat, t: nat)
    requires u > 0 && t < 2 * (v * u)
    ensures t / 2 / u < v && t / 2 % u < u
    ensures t / 2 == (t / 2 / u) * u + t / 2 % u
  {
  }

  /** Grid coordinate (i, j) of records that start with the grid's own. */
  lemma GridPrefixAt(uvs: seq<Uv>, u: nat, v: nat, i: nat, j: nat)
    requires u > 0 && v > 0 && i <= v && j <= u
    requires GridCount(u, v) <= |uvs| && uvs[..GridCount(u, v)] == GridUvs(u, v)
    ensures i * (u + 1) + j < |uvs| && uvs[i * (u + 1) + j] == GridUv(u, v, i, j)
  {
    GridUvAt(u, v, i, j);
    assert uvs[i * (u + 1) + j] == uvs[..GridCount(u, v)][i * (u + 1) + j];
  }

  /** The corners of cell (i, j) carry the grid coordinates of (i, j),
      (i+1, j), (i, j+1) and (i+1, j+1), so both of its triangles have UV
      determinant −1/(u·v). */
  lemma CellTriangleAreas(uvs: seq<Uv>, u: nat, v: nat, i: nat, j: nat)
    requires u > 0 && v > 0 && i < v && j < u
    requires GridCount(u, v) <= |uvs| && uvs[..GridCount(u, v)] == GridUvs(u, v)
    ensures TriBelow(Cell(u, i, j).lower, |uvs|) && TriBelow(Cell(u, i, j).upper, |uvs|)
    ensures var c := Cell(u, i, j).lower;
      UvArea(uvs[c.a], uvs[c.b], uvs[c.c]) == -(1.0 / u as real) * (1.0 / v as real)
    ensures var c := Cell(u, i, j).upper;
      UvArea(uvs[c.a], uvs[c.b], uvs[c.c]) == -(1.0 / u as real) * (1.0 / v as real)
  {
    assert i * (u + 1) + j + u + 1 == (i + 1) * (u + 1) + j;
    GridPrefixAt(uvs, u, v, i, j);
    GridPrefixAt(uvs, u, v, i + 1, j);
    GridPrefixAt(uvs, u, v, i, j + 1);
    GridPrefixAt(uvs, u, v, i + 1, j + 1);
    CellUvAreas(u, v, i, j);
  }

  /** A triangle that is one half of grid cell (i, j) has UV determinant
      −1/(u·v). */
  lemma CellTriDeterminant(pos: seq<real>, uv: seq<real>, idx: seq<nat>, tris: seq<Tri>, uvs: seq<Uv>, u: nat, v: nat, i: nat, j: nat, t: nat)
    requires u > 0 && v > 0 && i < v && j < u
    requires Tangents.WellIndexed(pos, uv, idx) && LaysOutTris(idx, tris) && LaysOutUvs(uv, uvs)
    requires t < |tris| && (tris[t] == Cell(u, i, j).lower || tris[t] == Cell(u, i, j).upper)
    requires GridCount(u, v) <= |uvs| && uvs[..GridCount(u, v)] == GridUvs(u, v)
    ensures t < Tangents.TriangleCount(idx)
    ensures Tangents.UvDeterminant(pos, uv, idx, t) == -(1.0 / u as real) * (1.0 / v as real)
  {
    CellTriangleAreas(uvs, u, v, i, j);
    var c := tris[t];
    UvDeterminantOfCorners(pos, uv, idx, t, uvs[c.a], uvs[c.b], uvs[c.c]);
  }

  /** Triangle t of records that start with the lateral grid is one half of
      cell (t/2 / u, t/2 % u). */
  lemma QuadTriIsCellHalf(tris: seq<Tri>, u: nat, v: nat, t: nat) returns (i: nat, j: nat)
    requires u > 0 && v > 0 && t < 2 * (v * u)
    requires 2 * (v * u) <= |tris| && tris[..2 * (v * u)] == QuadTris(u, v)
    ensures i == t / 2 / u && j == t / 2 % u && i < v && j < u
    ensures tris[t] == Cell(u, i, j).lower || tris[t] == Cell(u, i, j).upper
  {
    QuadCellOf(u, v, t);
    i, j := t / 2 / u, t / 2 % u;
    QuadTrisAt(u, v, i, j);
    assert t == 2 * (i * u + j) || t == 2 * (i * u + j) + 1;
    assert tris[t] == tris[..2 * (v * u)][t];
  }

  /** Every triangle of the lateral grid, wherever its records sit at the
      front of a larger mesh, has UV determinant −1/(u·v), so it is never
      degenerate. */
  lemma QuadTriDeterminant(pos: seq<real>, uv: seq<real>, idx: seq<nat>, tris: seq<Tri>, uvs: seq<Uv>, u: nat, v: nat, t: nat)
    requires u > 0 && v > 0 && t < 2 * (v * u)
    requires Tangents.WellIndexed(pos, uv, idx) && LaysOutTris(idx, tris) && LaysOutUvs(uv, uvs)
    requires 2 * (v * u) <= |tris| && tris[..2 * (v * u)] == QuadTris(u, v)
    requires GridCount(u, v) <= |uvs| && uvs[..GridCount(u, v)] == GridUvs(u, v)
    ensures t < Tangents.TriangleCount(idx)
    ensures Tangents.UvDeterminant(pos, uv, idx, t) == -(1.0 / u as real) * (1.0 / v as real)
  {
    var i, j := QuadTriIsCellHalf(tris, u, v, t);
    CellTriDeterminant(pos, uv, idx, tris, uvs, u, v, i, j, t);
  }

  /** The lateral grid at the front of a mesh contributes no degenerate
      triangle. */
  lemma SideNoneDegenerate(pos: seq<real>, uv: seq<real>, idx: seq<nat>, tris: seq<Tri>, uvs: seq<Uv>, u: nat, v: nat)
    requires u > 0 && v > 0
    requires Tangents.WellIndexed(pos, uv, idx) && LaysOutTris(idx, tris) && LaysOutUvs(uv, uvs)
    requires 2 * (v * u) <= |tris| && tris[..2 * (v * u)] == QuadTris(u, v)
    requires GridCount(u, v) <= |uvs| && uvs[..GridCount(u, v)] == GridUvs(u, v)
    ensures 2 * (v * u) <= Tangents.TriangleCount(idx)
    ensures Tangents.NoneDegenerate(pos, uv, idx, 2 * (v * u))
  {
    TripleDiv(|tris|);
    forall t | 0 <= t < 2 * (v * u)
      ensures !Tangents.Degenerate(pos, uv, idx, t)
    {
      QuadTriDeterminant(pos, uv, idx, tris, uvs, u, v, t);
      NonzeroProduct(1.0 / u as real, 1.0 / v as real);
    }
  }

  lemma NonzeroProduct(x: real, y: real)
    requires x > 0.0 && y > 0.0
    ensures -x * y != 0.0
  {
  }

  /** A cap's rim coordinate `(0.5 + 0.5·cos θ, 0.5 + 0.5·sin θ)`, θ = j·2π / u_steps. */
  function RimUv(trig: Trig, u: nat, j: nat): Uv
    requires u > 0
  {
    var theta := Theta(trig, u, j);
    Uv(0.5 + 0.5 * trig.cos(theta), 0.5 + 0.5 * trig.sin(theta))
  }

  function RimUvCell(trig: Trig, u: nat): nat -> Uv
    requires u > 0
  {
    (j: nat) => RimUv(trig, u, j)
  }

  /** The u_steps + 1 rim coordinates of a cap. */
  function RimUvs(trig: Trig, u: nat): (uvs: seq<Uv>)
    requires u > 0
    ensures |uvs| == u + 1
  {
    Series(u + 1, RimUvCell(trig, u))
  }

  /** With sine and cosine in [-1, 1], a cap's coordinates stay in the unit square. */
  lemma RimUvsInUnitSquare(trig: Trig, u: nat)
    requires u > 0 && BoundedTrig(trig)
    ensures forall j | 0 <= j < |RimUvs(trig, u)| :: 0.0 <= RimUvs(trig, u)[j].u <= 1.0 && 0.0 <= RimUvs(trig, u)[j].v <= 1.0
  {
    forall j | 0 <= j < |RimUvs(trig, u)|
      ensures 0.0 <= RimUvs(trig, u)[j].u <= 1.0 && 0.0 <= RimUvs(trig, u)[j].v <= 1.0
    {
      SeriesAt(u + 1, RimUvCell(trig, u), j);
      var theta := Theta(trig, u, j);
      assert -1.0 <= trig.sin(theta) <= 1.0 && -1.0 <= trig.cos(theta) <= 1.0;
    }
  }

  /** The number of vertices of a (v+1) × (u+1) grid. */
  function GridCount(u: nat, v: nat): nat
  {
    (v + 1) * (u + 1)
  }

  // ---------------------------------------------------------------------------
  // sphere_data

  /** Vertex (i, j): v = i·π / v_steps, u = j·2π / u_steps and
      (r·cos u·sin v, r·cos v, r·sin u·sin v). */
  function SpherePoint(trig: Trig, u: nat, v: nat, r: real, i: nat, j: nat): Vec3
    requires u > 0 && v > 0
  {
    var polar := i as real * trig.pi / v as real;
    var azimuth := Theta(trig, u, j);
    Vec3(r * trig.cos(azimuth) * trig.sin(polar), r * trig.cos(polar), r * trig.sin(azimuth) * trig.sin(polar))
  }

  function SpherePointCell(trig: Trig, u: nat, v: nat, r: real): (nat, nat) -> Vec3
    requires u > 0 && v > 0
  {
    (i: nat, j: nat) => SpherePoint(trig, u, v, r, i, j)
  }

  function SphereNormalCell(trig: Trig, norm: Vec3 -> Vec3, u: nat, v: nat, r: real): (nat, nat) -> Vec3
    requires u > 0 && v > 0
  {
    (i: nat, j: nat) => norm(SpherePoint(trig, u, v, r, i, j))
  }

  function SphereVertices(trig: Trig, u: nat, v: nat, r: real): (ps: seq<Vec3>)
    requires u > 0 && v > 0
    ensures |ps| == GridCount(u, v)
  {
    TableLength(v + 1, u + 1, SpherePointCell(trig, u, v, r));
    Table(v + 1, u + 1, SpherePointCell(trig, u, v, r))
  }

  function SphereNormals(trig: Trig, norm: Vec3 -> Vec3, u: nat, v: nat, r: real): (ns: seq<Vec3>)
    requires u > 0 && v > 0
    ensures |ns| == GridCount(u, v)
  {
    TableLength(v + 1, u + 1, SphereNormalCell(trig, norm, u, v, r));
    Table(v + 1, u + 1, SphereNormalCell(trig, norm, u, v, r))
  }

  /** `sphere_data(u_steps, v_steps, r)`; `norm` is the source's vector
      normalisation, applied to each position to get its normal. */
  function SphereData(trig: Trig, norm: Vec3 -> Vec3, u: nat, v: nat, r: real): (m: Mesh)
    requires u > 0 && v > 0 && GridCount(u, v) <= Uint16Limit
    ensures WellFormed(m) && m.tangents != Absent
    ensures VertexCount(m) == GridCount(u, v) && |m.indices| == 6 * (v * u)
  {
    QuadTrisBelow(u, v);
    Build(SphereVertices(trig, u, v, r), SphereNormals(trig, norm, u, v, r), GridUvs(u, v), QuadTris(u, v))
  }

  /** The sphere's arrays are its flattened vertex, normal, coordinate and
      triangle lists. */
  lemma SphereDataFields(trig: Trig, norm: Vec3 -> Vec3, u: nat, v: nat, r: real)
    requires u > 0 && v > 0 && GridCount(u, v) <= Uint16Limit
    ensures SphereData(trig, norm, u, v, r).vertices == Flat3(SphereVertices(trig, u, v, r))
    ensures SphereData(trig, norm, u, v, r).normals == Flat3(SphereNormals(trig, norm, u, v, r))
    ensures SphereData(trig, norm, u, v, r).texCoords == Some(Flat2(GridUvs(u, v)))
    ensures SphereData(trig, norm, u, v, r).indices == FlatTris(QuadTris(u, v))
    ensures Tangents.WellIndexed(Flat3(SphereVertices(trig, u, v, r)), Flat2(GridUvs(u, v)), FlatTris(QuadTris(u, v)))
    ensures SphereData(trig, norm, u, v, r).tangents
         == TangentsFor(Flat3(SphereVertices(trig, u, v, r)), Flat2(GridUvs(u, v)), FlatTris(QuadTris(u, v)))
  {
    QuadTrisBelow(u, v);
    WellIndexedFlat(SphereVertices(trig, u, v, r), GridUvs(u, v), QuadTris(u, v));
  }

  /** Every sphere triangle has UV determinant −1/(u·v), so the sphere's
      tangents are always finite. */
  lemma SphereTangentsFinite(trig: Trig, norm: Vec3 -> Vec3, u: nat, v: nat, r: real)
    requires u > 0 && v > 0 && GridCount(u, v) <= Uint16Limit
    ensures SphereData(trig, norm, u, v, r).tangents.Finite?
  {
    SphereDataFields(trig, norm, u, v, r);
    FlatTrisLaysOut(QuadTris(u, v));
    Flat2LaysOut(GridUvs(u, v));
    assert QuadTris(u, v)[..2 * (v * u)] == QuadTris(u, v);
    assert GridUvs(u, v)[..GridCount(u, v)] == GridUvs(u, v);
    SideNoneDegenerate(Flat3(SphereVertices(trig, u, v, r)), Flat2(GridUvs(u, v)), FlatTris(QuadTris(u, v)), QuadTris(u, v), GridUvs(u, v), u, v);
  }

  /** Vertex (i, j) is record i·(u+1) + j. */
  lemma SphereVertexAt(trig: Trig, u: nat, v: nat, r: real, i: nat, j: nat)
    requires u > 0 && v > 0 && i <= v && j <= u
    ensures i * (u + 1) + j < GridCount(u, v)
    ensures SphereVertices(trig, u, v, r)[i * (u + 1) + j] == SpherePoint(trig, u, v, r, i, j)
  {
    TableAt(v + 1, u + 1, SpherePointCell(trig, u, v, r), i, j);
  }

  /** Each normal is the normalised position of the same vertex. */
  lemma SphereNormalsAreNormalised(trig: Trig, norm: Vec3 -> Vec3, u: nat, v: nat, r: real)
    requires u > 0 && v > 0
    ensures forall k | 0 <= k < GridCount(u, v) :: SphereNormals(trig, norm, u, v, r)[k] == norm(SphereVertices(trig, u, v, r)[k])
  {
    TableCompose(v + 1, u + 1, SpherePointCell(trig, u, v, r), norm, SphereNormalCell(trig, norm, u, v, r));
  }

  /** The first row of vertices sits at the north pole (0, r, 0) when
      sin 0 = 0 and cos 0 = 1. */
  lemma SpherePole(trig: Trig, u: nat, v: nat, r: real, j: nat)
    requires u > 0 && v > 0 && j <= u
    requires trig.sin(0.0) == 0.0 && trig.cos(0.0) == 1.0
    ensures SphereVertices(trig, u, v, r)[j] == Vec3(0.0, r, 0.0)
  {
    SphereVertexAt(trig, u, v, r, 0, j);
    assert 0 as real * trig.pi / v as real == 0.0;
  }

  // ---------------------------------------------------------------------------
  // cone_data

  /** Lateral vertex (i, j): with v = i / v_steps, the ring of radius r·v at
      height v·h, `(r·v·cos θ, r·v·sin θ, v·h)`. */
  function ConePoint(trig: Trig, u: nat, v: nat, r: real, h: real, i: nat, j: nat): Vec3
    requires u > 0 && v > 0
  {
    var t := i as real / v as real;
    var theta := Theta(trig, u, j);
    Vec3(r * t * trig.cos(theta), r * t * trig.sin(theta), t * h)
  }

  function ConePointCell(trig: Trig, u: nat, v: nat, r: real, h: real): (nat, nat) -> Vec3
    requires u > 0 && v > 0
  {
    (i: nat, j: nat) => ConePoint(trig, u, v, r, h, i, j)
  }

  /** The lateral normal `(h·cos θ, h·sin θ, r) / sqrt(h² + r²)`, the same on every row. */
  function ConeNormal(trig: Trig, u: nat, r: real, h: real, j: nat): Vec3
    requires u > 0 && trig.sqrt(h * h + r * r) != 0.0
  {
    var inverseHyp := 1.0 / trig.sqrt(h * h + r * r);
    var theta := Theta(trig, u, j);
    Vec3(h * trig.cos(theta) * inverseHyp, h * trig.sin(theta) * inverseHyp, r * inverseHyp)
  }

  function ConeNormalCell(trig: Trig, u: nat, r: real, h: real): (nat, nat) -> Vec3
    requires u > 0 && trig.sqrt(h * h + r * r) != 0.0
  {
    (i: nat, j: nat) => ConeNormal(trig, u, r, h, j)
  }

  /** Rim vertex j of the cone's cap, `(r·cos θ, r·sin θ, h)`. */
  function ConeRimPoint(trig: Trig, u: nat, r: real, h: real, j: nat): Vec3
    requires u > 0
  {
    var theta := Theta(trig, u, j);
    Vec3(r * trig.cos(theta), r * trig.sin(theta), h)
  }

  function ConeRimCell(trig: Trig, u: nat, r: real, h: real): nat -> Vec3
    requires u > 0
  {
    (j: nat) => ConeRimPoint(trig, u, r, h, j)
  }

  /** The cap's centre `base_idx`, right after the lateral grid. */
  function ConeCenter(u: nat, v: nat): nat
  {
    GridCount(u, v)
  }

  function ConeCount(u: nat, v: nat): nat
  {
    GridCount(u, v) + 1 + (u + 1)
  }

  function ConeVertices(trig: Trig, u: nat, v: nat, r: real, h: real): (ps: seq<Vec3>)
    requires u > 0 && v > 0
    ensures |ps| == ConeCount(u, v)
  {
    TableLength(v + 1, u + 1, ConePointCell(trig, u, v, r, h));
    Table(v + 1, u + 1, ConePointCell(trig, u, v, r, h)) + [Vec3(0.0, 0.0, h)] + Series(u + 1, ConeRimCell(trig, u, r, h))
  }

  function ConeNormals(trig: Trig, u: nat, v: nat, r: real, h: real): (ns: seq<Vec3>)
    requires u > 0 && v > 0 && trig.sqrt(h * h + r * r) != 0.0
    ensures |ns| == ConeCount(u, v)
  {
    TableLength(v + 1, u + 1, ConeNormalCell(trig, u, r, h));
    Table(v + 1, u + 1, ConeNormalCell(trig, u, r, h)) + [Vec3(0.0, 0.0, 1.0)] + Repeat(u + 1, Vec3(0.0, 0.0, 1.0))
  }

  function ConeUvs(trig: Trig, u: nat, v: nat): (uvs: seq<Uv>)
    requires u > 0 && v > 0
    ensures |uvs| == ConeCount(u, v)
  {
    GridUvs(u, v) + [Uv(0.5, 0.5)] + RimUvs(trig, u)
  }

  /** The lateral cells, then the cap fan (base_idx, ring + j, ring + j + 1). */
  function ConeTris(u: nat, v: nat): (ts: seq<Tri>)
    ensures |ts| == 2 * (v * u) + u
  {
    QuadTris(u, v) + Fan(ConeCenter(u, v), ConeCenter(u, v) + 1, u, false)
  }

  lemma ConeTrisBelow(u: nat, v: nat)
    ensures forall k | 0 <= k < |ConeTris(u, v)| :: TriBelow(ConeTris(u, v)[k], ConeCount(u, v))
  {
    QuadTrisBelow(u, v);
    AllBelowWiden(QuadTris(u, v), GridCount(u, v), ConeCount(u, v));
    FanBelow(ConeCenter(u, v), ConeCenter(u, v) + 1, u, false, ConeCount(u, v));
    AllBelowAppend(QuadTris(u, v), Fan(ConeCenter(u, v), ConeCenter(u, v) + 1, u, false), ConeCount(u, v));
  }

  /** `cone_data(u_steps, v_steps, r, h)`. */
  function ConeData(trig: Trig, u: nat, v: nat, r: real, h: real): (m: Mesh)
    requires u > 0 && v > 0 && ConeCount(u, v) <= Uint16Limit
    requires trig.sqrt(h * h + r * r) != 0.0
    ensures WellFormed(m) && m.tangents != Absent
    ensures VertexCount(m) == ConeCount(u, v) && |m.indices| == 3 * |ConeTris(u, v)|
  {
    ConeTrisBelow(u, v);
    Build(ConeVertices(trig, u, v, r, h), ConeNormals(trig, u, v, r, h), ConeUvs(trig, u, v), ConeTris(u, v))
  }

  lemma ConeDataFields(trig: Trig, u: nat, v: nat, r: real, h: real)
    requires u > 0 && v > 0 && ConeCount(u, v) <= Uint16Limit
    requires trig.sqrt(h * h + r * r) != 0.0
    ensures ConeData(trig, u, v, r, h).vertices == Flat3(ConeVertices(trig, u, v, r, h))
    ensures ConeData(trig, u, v, r, h).normals == Flat3(ConeNormals(trig, u, v, r, h))
    ensures ConeData(trig, u, v, r, h).texCoords == Some(Flat2(ConeUvs(trig, u, v)))
    ensures ConeData(trig, u, v, r, h).indices == FlatTris(ConeTris(u, v))
    ensures Tangents.WellIndexed(Flat3(ConeVertices(trig, u, v, r, h)), Flat2(ConeUvs(trig, u, v)), FlatTris(ConeTris(u, v)))
    ensures ConeData(trig, u, v, r, h).tangents
         == TangentsFor(Flat3(ConeVertices(trig, u, v, r, h)), Flat2(ConeUvs(trig, u, v)), FlatTris(ConeTris(u, v)))
  {
    ConeTrisBelow(u, v);
    WellIndexedFlat(ConeVertices(trig, u, v, r, h), ConeUvs(trig, u, v), ConeTris(u, v));
  }

  /** The cone's lateral triangles are never degenerate; only its cap fan
      can be, depending on `trig`. */
  lemma ConeSidesNonDegenerate(trig: Trig, u: nat, v: nat, r: real, h: real)
    requires u > 0 && v > 0 && ConeCount(u, v) <= Uint16Limit
    ensures Tangents.WellIndexed(Flat3(ConeVertices(trig, u, v, r, h)), Flat2(ConeUvs(trig, u, v)), FlatTris(ConeTris(u, v)))
    ensures 2 * (v * u) <= Tangents.TriangleCount(FlatTris(ConeTris(u, v)))
    ensures Tangents.NoneDegenerate(Flat3(ConeVertices(trig, u, v, r, h)), Flat2(ConeUvs(trig, u, v)), FlatTris(ConeTris(u, v)), 2 * (v * u))
  {
    ConeTrisBelow(u, v);
    WellIndexedFlat(ConeVertices(trig, u, v, r, h), ConeUvs(trig, u, v), ConeTris(u, v));
    FlatTrisLaysOut(ConeTris(u, v));
    Flat2LaysOut(ConeUvs(trig, u, v));
    assert ConeTris(u, v)[..2 * (v * u)] == QuadTris(u, v);
    assert ConeUvs(trig, u, v)[..GridCount(u, v)] == GridUvs(u, v);
    SideNoneDegenerate(Flat3(ConeVertices(trig, u, v, r, h)), Flat2(ConeUvs(trig, u, v)), FlatTris(ConeTris(u, v)),
                       ConeTris(u, v), ConeUvs(trig, u, v), u, v);
  }

  /** Cap triangle j joins the centre to rim vertices j and j + 1, in that order. */
  lemma ConeFanAt(u: nat, v: nat, j: nat)
    requires j < u
    ensures 2 * (v * u) + j < |ConeTris(u, v)|
    ensures ConeTris(u, v)[2 * (v * u) + j] == Tri(ConeCenter(u, v), ConeCenter(u, v) + 1 + j, ConeCenter(u, v) + 2 + j)
  {
    var c := ConeCenter(u, v);
    SeriesAt(u, FanCell(c, c + 1, false), j);
  }

  /** Row 0 of the lateral grid collapses to the apex at the origin. */
  lemma ConeApex(trig: Trig, u: nat, v: nat, r: real, h: real, j: nat)
    requires u > 0 && v > 0 && j <= u
    ensures ConeVertices(trig, u, v, r, h)[j] == Vec3(0.0, 0.0, 0.0)
  {
    TableLength(v + 1, u + 1, ConePointCell(trig, u, v, r, h));
    TableAt(v + 1, u + 1, ConePointCell(trig, u, v, r, h), 0, j);
    assert 0 as real / v as real == 0.0;
  }

  /** The cap's rim repeats the last lateral row, so the cap closes the cone. */
  lemma ConeRimMeetsSide(trig: Trig, u: nat, v: nat, r: real, h: real, j: nat)
    requires u > 0 && v > 0 && j <= u
    ensures v * (u + 1) + j < GridCount(u, v)
    ensures ConeVertices(trig, u, v, r, h)[ConeCenter(u, v) + 1 + j] == ConeVertices(trig, u, v, r, h)[v * (u + 1) + j]
  {
    TableLength(v + 1, u + 1, ConePointCell(trig, u, v, r, h));
    TableAt(v + 1, u + 1, ConePointCell(trig, u, v, r, h), v, j);
    SeriesAt(u + 1, ConeRimCell(trig, u, r, h), j);
    ConeLastRow(trig, u, v, r, h, j);
  }

  lemma ConeLastRow(trig: Trig, u: nat, v: nat, r: real, h: real, j: nat)
    requires u > 0 && v > 0
    ensures ConePoint(trig, u, v, r, h, v, j) == ConeRimPoint(trig, u, r, h, j)
  {
    assert v as real / v as real == 1.0;
  }

  /** The cap's centre and rim vertices all face +z. */
  lemma ConeCapNormals(trig: Trig, u: nat, v: nat, r: real, h: real, k: nat)
    requires u > 0 && v > 0 && trig.sqrt(h * h + r * r) != 0.0
    requires ConeCenter(u, v) <= k < ConeCount(u, v)
    ensures ConeNormals(trig, u, v, r, h)[k] == Vec3(0.0, 0.0, 1.0)
  {
  }

  /** With sine and cosine in [-1, 1], every cone texture coordinate lies in the unit square. */
  lemma ConeUvsInUnitSquare(trig: Trig, u: nat, v: nat)
    requires u > 0 && v > 0 && BoundedTrig(trig)
    ensures forall k | 0 <= k < |ConeUvs(trig, u, v)| :: 0.0 <= ConeUvs(trig, u, v)[k].u <= 1.0 && 0.0 <= ConeUvs(trig, u, v)[k].v <= 1.0
  {
    GridUvsInUnitSquare(u, v);
    RimUvsInUnitSquare(trig, u);
    var g := GridUvs(u, v);
    forall k | 0 <= k < |ConeUvs(trig, u, v)|
      ensures 0.0 <= ConeUvs(trig, u, v)[k].u <= 1.0 && 0.0 <= ConeUvs(trig, u, v)[k].v <= 1.0
    {
      if k > |g| {
        assert ConeUvs(trig, u, v)[k] == RimUvs(trig, u)[k - |g| - 1];
      }
    }
  }

  // ---------------------------------------------------------------------------
  // cylinder_data

  /** A vertex on the circle of radius r at height y, `(r·cos θ, y, r·sin θ)`. */
  function CylinderPoint(trig: Trig, u: nat, r: real, y: real, j: nat): Vec3
    requires u > 0
  {
    var theta := Theta(trig, u, j);
    Vec3(r * trig.cos(theta), y, r * trig.sin(theta))
  }

  /** Lateral vertex (i, j) sits at height (i / v_steps)·h. */
  function CylinderSideCell(trig: Trig, u: nat, v: nat, r: real, h: real): (nat, nat) -> Vec3
    requires u > 0 && v > 0
  {
    (i: nat, j: nat) => CylinderPoint(trig, u, r, i as real / v as real * h, j)
  }

  /** The lateral normal `(cos θ, 0, sin θ)`. */
  function CylinderNormalCell(trig: Trig, u: nat): (nat, nat) -> Vec3
    requires u > 0
  {
    (i: nat, j: nat) => CylinderPoint(trig, u, 1.0, 0.0, j)
  }

  function CylinderRimCell(trig: Trig, u: nat, r: real, y: real): nat -> Vec3
    requires u > 0
  {
    (j: nat) => CylinderPoint(trig, u, r, y, j)
  }

  /** `top_center_idx`, right after the lateral grid. */
  function TopCenter(u: nat, v: nat): nat
  {
    GridCount(u, v)
  }

  /** `bottom_center_idx`, right after the top cap's centre and rim. */
  function BottomCenter(u: nat, v: nat): nat
  {
    TopCenter(u, v) + 1 + (u + 1)
  }

  function CylinderCount(u: nat, v: nat): nat
  {
    BottomCenter(u, v) + 1 + (u + 1)
  }

  function CylinderVertices(trig: Trig, u: nat, v: nat, r: real, h: real): (ps: seq<Vec3>)
    requires u > 0 && v > 0
    ensures |ps| == CylinderCount(u, v)
  {
    TableLength(v + 1, u + 1, CylinderSideCell(trig, u, v, r, h));
    Table(v + 1, u + 1, CylinderSideCell(trig, u, v, r, h))
      + [Vec3(0.0, h, 0.0)] + Series(u + 1, CylinderRimCell(trig, u, r, h))
      + [Vec3(0.0, 0.0, 0.0)] + Series(u + 1, CylinderRimCell(trig, u, r, 0.0))
  }

  function CylinderNormals(trig: Trig, u: nat, v: nat): (ns: seq<Vec3>)
    requires u > 0 && v > 0
    ensures |ns| == CylinderCount(u, v)
  {
    TableLength(v + 1, u + 1, CylinderNormalCell(trig, u));
    Table(v + 1, u + 1, CylinderNormalCell(trig, u))
      + [Vec3(0.0, 1.0, 0.0)] + Repeat(u + 1, Vec3(0.0, 1.0, 0.0))
      + [Vec3(0.0, -1.0, 0.0)] + Repeat(u + 1, Vec3(0.0, -1.0, 0.0))
  }

  function CylinderUvs(trig: Trig, u: nat, v: nat): (uvs: seq<Uv>)
    requires u > 0 && v > 0
    ensures |uvs| == CylinderCount(u, v)
  {
    GridUvs(u, v) + [Uv(0.5, 0.5)] + RimUvs(trig, u) + [Uv(0.5, 0.5)] + RimUvs(trig, u)
  }

  /** The lateral cells, the top fan (top, ring + j + 1, ring + j) and the
      bottom fan (bottom, ring + j, ring + j + 1). */
  function CylinderTris(u: nat, v: nat): (ts: seq<Tri>)
    ensures |ts| == 2 * (v * u) + u + u
  {
    QuadTris(u, v) + Fan(TopCenter(u, v), TopCenter(u, v) + 1, u, true)
      + Fan(BottomCenter(u, v), BottomCenter(u, v) + 1, u, false)
  }

  lemma CylinderTrisBelow(u: nat, v: nat)
    ensures forall k | 0 <= k < |CylinderTris(u, v)| :: TriBelow(CylinderTris(u, v)[k], CylinderCount(u, v))
  {
    var n := CylinderCount(u, v);
    var top := Fan(TopCenter(u, v), TopCenter(u, v) + 1, u, true);
    var bottom := Fan(BottomCenter(u, v), BottomCenter(u, v) + 1, u, false);
    QuadTrisBelow(u, v);
    AllBelowWiden(QuadTris(u, v), GridCount(u, v), n);
    FanBelow(TopCenter(u, v), TopCenter(u, v) + 1, u, true, n);
    FanBelow(BottomCenter(u, v), BottomCenter(u, v) + 1, u, false, n);
    AllBelowAppend(QuadTris(u, v), top, n);
    AllBelowAppend(QuadTris(u, v) + top, bottom, n);
  }

  /** `cylinder_data(u_steps, v_steps, r, h)`. */
  function CylinderData(trig: Trig, u: nat, v: nat, r: real, h: real): (m: Mesh)
    requires u > 0 && v > 0 && CylinderCount(u, v) <= Uint16Limit
    ensures WellFormed(m) && m.tangents != Absent
    ensures VertexCount(m) == CylinderCount(u, v) && |m.indices| == 3 * |CylinderTris(u, v)|
  {
    CylinderTrisBelow(u, v);
    Build(CylinderVertices(trig, u, v, r, h), CylinderNormals(trig, u, v), CylinderUvs(trig, u, v), CylinderTris(u, v))
  }

  lemma CylinderDataFields(trig: Trig, u: nat, v: nat, r: real, h: real)
    requires u > 0 && v > 0 && CylinderCount(u, v) <= Uint16Limit
    ensures CylinderData(trig, u, v, r, h).vertices == Flat3(CylinderVertices(trig, u, v, r, h))
    ensures CylinderData(trig, u, v, r, h).normals == Flat3(CylinderNormals(trig, u, v))
    ensures CylinderData(trig, u, v, r, h).texCoords == Some(Flat2(CylinderUvs(trig, u, v)))
    ensures CylinderData(trig, u, v, r, h).indices == FlatTris(CylinderTris(u, v))
    ensures Tangents.WellIndexed(Flat3(CylinderVertices(trig, u, v, r, h)), Flat2(CylinderUvs(trig, u, v)), FlatTris(CylinderTris(u, v)))
    ensures CylinderData(trig, u, v, r, h).tangents
         == TangentsFor(Flat3(CylinderVertices(trig, u, v, r, h)), Flat2(CylinderUvs(trig, u, v)), FlatTris(CylinderTris(u, v)))
  {
    CylinderTrisBelow(u, v);
    WellIndexedFlat(CylinderVertices(trig, u, v, r, h), CylinderUvs(trig, u, v), CylinderTris(u, v));
  }

  /** The cylinder's lateral triangles are never degenerate; only its cap
      fans can be, depending on `trig`. */
  lemma CylinderSidesNonDegenerate(trig: Trig, u: nat, v: nat, r: real, h: real)
    requires u > 0 && v > 0 && CylinderCount(u, v) <= Uint16Limit
    ensures Tangents.WellIndexed(Flat3(CylinderVertices(trig, u, v, r, h)), Flat2(CylinderUvs(trig, u, v)), FlatTris(CylinderTris(u, v)))
    ensures 2 * (v * u) <= Tangents.TriangleCount(FlatTris(CylinderTris(u, v)))
    ensures Tangents.NoneDegenerate(Flat3(CylinderVertices(trig, u, v, r, h)), Flat2(CylinderUvs(trig, u, v)), FlatTris(CylinderTris(u, v)), 2 * (v * u))
  {
    CylinderTrisBelow(u, v);
    WellIndexedFlat(CylinderVertices(trig, u, v, r, h), CylinderUvs(trig, u, v), CylinderTris(u, v));
    FlatTrisLaysOut(CylinderTris(u, v));
    Flat2LaysOut(CylinderUvs(trig, u, v));
    assert CylinderTris(u, v)[..2 * (v * u)] == QuadTris(u, v);
    assert CylinderUvs(trig, u, v)[..GridCount(u, v)] == GridUvs(u, v);
    SideNoneDegenerate(Flat3(CylinderVertices(trig, u, v, r, h)), Flat2(CylinderUvs(trig, u, v)), FlatTris(CylinderTris(u, v)),
                       CylinderTris(u, v), CylinderUvs(trig, u, v), u, v);
  }

  /** The two caps wind in opposite directions: the top fan visits its rim
      backwards, the bottom fan forwards. */
  lemma CylinderFansAt(u: nat, v: nat, j: nat)
    requires j < u
    ensures 2 * (v * u) + u + j < |CylinderTris(u, v)|
    ensures CylinderTris(u, v)[2 * (v * u) + j] == Tri(TopCenter(u, v), TopCenter(u, v) + 2 + j, TopCenter(u, v) + 1 + j)
    ensures CylinderTris(u, v)[2 * (v * u) + u + j] == Tri(BottomCenter(u, v), BottomCenter(u, v) + 1 + j, BottomCenter(u, v) + 2 + j)
  {
    var t := TopCenter(u, v);
    var b := BottomCenter(u, v);
    SeriesAt(u, FanCell(t, t + 1, true), j);
    SeriesAt(u, FanCell(b, b + 1, false), j);
  }

  /** The top rim repeats the last lateral row and the bottom rim the first,
      so both caps close the tube. */
  lemma CylinderRimsMeetSide(trig: Trig, u: nat, v: nat, r: real, h: real, j: nat)
    requires u > 0 && v > 0 && j <= u
    ensures v * (u + 1) + j < GridCount(u, v)
    ensures CylinderVertices(trig, u, v, r, h)[TopCenter(u, v) + 1 + j] == CylinderVertices(trig, u, v, r, h)[v * (u + 1) + j]
    ensures CylinderVertices(trig, u, v, r, h)[BottomCenter(u, v) + 1 + j] == CylinderVertices(trig, u, v, r, h)[j]
  {
    TableLength(v + 1, u + 1, CylinderSideCell(trig, u, v, r, h));
    TableAt(v + 1, u + 1, CylinderSideCell(trig, u, v, r, h), v, j);
    TableAt(v + 1, u + 1, CylinderSideCell(trig, u, v, r, h), 0, j);
    SeriesAt(u + 1, CylinderRimCell(trig, u, r, h), j);
    SeriesAt(u + 1, CylinderRimCell(trig, u, r, 0.0), j);
    CylinderEndRows(trig, u, v, r, h, j);
  }

  lemma CylinderEndRows(trig: Trig, u: nat, v: nat, r: real, h: real, j: nat)
    requires u > 0 && v > 0
    ensures CylinderSideCell(trig, u, v, r, h)(v, j) == CylinderPoint(trig, u, r, h, j)
    ensures CylinderSideCell(trig, u, v, r, h)(0, j) == CylinderPoint(trig, u, r, 0.0, j)
  {
    assert v as real / v as real * h == h;
    assert 0 as real / v as real * h == 0.0;
  }

  /** Top-cap vertices face +y and bottom-cap vertices face −y. */
  lemma CylinderCapNormals(trig: Trig, u: nat, v: nat, k: nat)
    requires u > 0 && v > 0 && TopCenter(u, v) <= k < CylinderCount(u, v)
    ensures CylinderNormals(trig, u, v)[k] == if k < BottomCenter(u, v) then Vec3(0.0, 1.0, 0.0) else Vec3(0.0, -1.0, 0.0)
  {
  }

  /** With sine and cosine in [-1, 1], every cylinder texture coordinate lies in the unit square. */
  lemma CylinderUvsInUnitSquare(trig: Trig, u: nat, v: nat)
    requires u > 0 && v > 0 && BoundedTrig(trig)
    ensures forall k | 0 <= k < |CylinderUvs(trig, u, v)| :: 0.0 <= CylinderUvs(trig, u, v)[k].u <= 1.0 && 0.0 <= CylinderUvs(trig, u, v)[k].v <= 1.0
  {
    GridUvsInUnitSquare(u, v);
    RimUvsInUnitSquare(trig, u);
    var g := GridUvs(u, v);
    var rim := RimUvs(trig, u);
    var all := CylinderUvs(trig, u, v);
    forall k | 0 <= k < |all|
      ensures 0.0 <= all[k].u <= 1.0 && 0.0 <= all[k].v <= 1.0
    {
      var second := |g| + 1 + |rim|;
      if |g| < k < second {
        assert all[k] == rim[k - |g| - 1];
      } else if k > second {
        assert all[k] == rim[k - second - 1];
      }
    }
  }
}

=== FILE: scene.dfy ===
/** The demo scene (src/scene.js): the light state with its temperature
    toggle, and the three-node tree ground → body → head.

    The shapes, the uniform locations and the textures are created on the
    GPU and arrive here as values. `Date.now()` inside the two callbacks is
    the parameter `now`.
 */
module Scene {
  import opened Wrappers
  import opened Maths
  import opened Transformations
  import opened Materials
  import opened Shapes
  import opened SceneGraph

  datatype Lights = Lights(pos1: Vec3, pos2: Vec3, color1: Vec3, color2: Vec3)

  /** The scene's `state` object. */
  datatype SceneState = SceneState(
    bumpStrength: real,
    viewDirection: Vec3,
    temperatureLights: bool,
    lights: Lights,
    root: Option<Node>)

  const NeutralLight: Vec3 := Vec3(0.7, 0.7, 0.7)
  const WarmLight: Vec3 := Vec3(1.0, 0.6, 0.4)
  const CoolLight: Vec3 := Vec3(0.4, 0.6, 1.0)

  /** `state` as declared, before the model is built. */
  const InitialState: SceneState :=
    SceneState(100.0, Vec3(0.0, 0.0, 0.0), false,
               Lights(Vec3(0.0, 3.0, 0.0), Vec3(0.0, 3.0, 0.0), NeutralLight, NeutralLight), None)

  /** The light colours agree with the temperature flag. */
  predicate LightsMatchFlag(s: SceneState)
  {
    if s.temperatureLights
    then s.lights.color1 == WarmLight && s.lights.color2 == CoolLight
    else s.lights.color1 == NeutralLight && s.lights.color2 == NeutralLight
  }

  /** `update_lights()`: warm and cool colours when the flag is set, the
      neutral grey for both otherwise. Only the two colours change. */
  function UpdateLights(s: SceneState): (r: SceneState)
    ensures LightsMatchFlag(r)
    ensures r.temperatureLights == s.temperatureLights
    ensures r.lights.pos1 == s.lights.pos1 && r.lights.pos2 == s.lights.pos2
    ensures r.(lights := s.lights) == s
  {
    if s.temperatureLights
    then s.(lights := s.lights.(color1 := WarmLight, color2 := CoolLight))
    else s.(lights := s.lights.(color1 := NeutralLight, color2 := NeutralLight))
  }

  /** Updating twice is updating once, and a state whose colours already
      match its flag is left as it is. */
  lemma UpdateLightsIdempotent(s: SceneState)
    ensures UpdateLights(UpdateLights(s)) == UpdateLights(s)
    ensures LightsMatchFlag(s) ==> UpdateLights(s) == s
  {
  }

  /** `toggle_temperature_lights()`: flip the flag, then recompute the colours. */
  function ToggleTemperatureLights(s: SceneState): (r: SceneState)
    ensures r.temperatureLights == !s.temperatureLights
    ensures LightsMatchFlag(r)
    ensures r.(temperatureLights := s.temperatureLights, lights := s.lights) == s
    ensures r.lights.pos1 == s.lights.pos1 && r.lights.pos2 == s.lights.pos2
  {
    UpdateLights(s.(temperatureLights := !s.temperatureLights))
  }

  /** Toggling twice restores the flag and, once the colours matched it,
      the whole state. */
  lemma ToggleTwice(s: SceneState)
    ensures ToggleTemperatureLights(ToggleTemperatureLights(s)).temperatureLights == s.temperatureLights
    ensures LightsMatchFlag(s) ==> ToggleTemperatureLights(ToggleTemperatureLights(s)) == s
  {
  }

  /** The two callbacks of `build_model`. */
  const BodySpin: Callback := Callback(0)
  const HeadSpin: Callback := Callback(1)

  /** What the callbacks compute at time `now` (milliseconds): the body turns
      about Y by now/1000 radians, the head about Z by −5·now/1000. */
  function SceneCallback(trig: Trig, now: real, cb: Callback, m: Mat4): (r: Mat4)
    ensures cb == BodySpin ==>
      r == Mul(m, RotationYMatrix(trig.cos(now * 0.001), trig.sin(now * 0.001)))
    ensures cb == HeadSpin ==>
      r == Mul(m, RotationZMatrix(trig.cos(-(now * 0.001 * 5.0)), trig.sin(-(now * 0.001 * 5.0))))
    ensures cb != BodySpin && cb != HeadSpin ==> r == m
  {
    if cb == BodySpin then
      RotateYIsPostMultiply(Identity(), now * 0.001, trig);
      MulIdentityLeft(RotationYMatrix(trig.cos(now * 0.001), trig.sin(now * 0.001)));
      Mul(m, RotateY(Identity(), now * 0.001, trig))
    else if cb == HeadSpin then
      MulIdentityLeft(RotationZMatrix(trig.cos(-(now * 0.001 * 5.0)), trig.sin(-(now * 0.001 * 5.0))));
      Mul(m, RotateZ(Identity(), -(now * 0.001 * 5.0), trig))
    else m
  }

  /** At time 0 neither callback turns anything. */
  lemma SceneCallbackAtZero(trig: Trig, cb: Callback, m: Mat4)
    requires trig.cos(0.0) == 1.0 && trig.sin(0.0) == 0.0
    ensures SceneCallback(trig, 0.0, cb, m) == m
  {
    assert RotationYMatrix(1.0, 0.0) == Identity();
    assert RotationZMatrix(1.0, 0.0) == Identity();
    MulIdentityRight(m);
  }

  /** The callbacks as the function the walk applies. */
  function SceneCallbacks(trig: Trig, now: real): (Callback, Mat4) -> Mat4
  {
    (cb: Callback, m: Mat4) => SceneCallback(trig, now, cb, m)
  }

  /** The shapes, uniform locations and textures `create_scene` builds. */
  datatype Assets = Assets(
    cube: Shape, sphere: Shape, cone: Shape, uniforms: nat,
    rustyMetal1: nat, rustyMetal2: nat, concreteFloor: nat)

  function Ground(trig: Trig, a: Assets): Node
  {
    CreateModelNode(trig, Some(Vec3(0.0, -2.0, 0.0)), Some(Angles(Some(0.0), Some(0.0), Some(0.0))), None,
                    Given(a.sphere), Given(a.uniforms), Given(GroundMaterial), Given(a.concreteFloor))
  }

  function Body(trig: Trig, a: Assets): Node
  {
    CreateModelNode(trig, Some(Vec3(0.0, 2.0, 0.0)), None, Some(BodySpin),
                    Given(a.cube), Given(a.uniforms), Given(MetalOrangeMaterial), Given(a.rustyMetal1))
  }

  function Head(trig: Trig, a: Assets): Node
  {
    CreateModelNode(trig, Some(Vec3(0.0, 2.0, 0.0)), Some(Angles(Some(trig.pi / 2.0), Some(0.0), Some(0.0))), Some(HeadSpin),
                    Given(a.cone), Given(a.uniforms), Given(MetalGrayMaterial), Given(a.rustyMetal2))
  }

  /** `build_model()`. The body object is shared: the head is added to it
      after it was added to the ground, and the ground sees that child. */
  function BuildModel(trig: Trig, s: SceneState, a: Assets): (r: SceneState)
    ensures r.(root := s.root) == s
    ensures r.root.Some?
  {
    var body := AddChildren(Body(trig, a), Head(trig, a));
    s.(root := Some(AddChildren(Ground(trig, a), body)))
  }

  /** After `build_model` the root is the ground, its only child is the
      body, the body's only child is the head, and the head has none. */
  lemma BuildModelTopology(trig: Trig, s: SceneState, a: Assets)
    ensures var root := BuildModel(trig, s, a).root.value;
      && root.children.List? && |root.children.nodes| == 1
      && root.shape == Some(a.sphere) && root.wtransform.None?
      && var body := root.children.nodes[0];
      && body.children.List? && |body.children.nodes| == 1
      && body.shape == Some(a.cube) && body.wtransform == Some(BodySpin)
      && var head := body.children.nodes[0];
      && head.children == List([])
      && head.shape == Some(a.cone) && head.wtransform == Some(HeadSpin)
  {
  }

  /** `create_scene` without its GPU set-up: build the model, then set the
      light colours from the flag. */
  function CreateScene(trig: Trig, a: Assets): (s: SceneState)
    ensures !s.temperatureLights && s.lights.color1 == NeutralLight && s.lights.color2 == NeutralLight
    ensures s.root.Some? && s.(root := None) == InitialState
  {
    UpdateLights(BuildModel(trig, InitialState, a))
  }

  /** With cos 0 = 1 and sin 0 = 0 the ground's zero angles add no
      rotation, so the ground sits two units below the origin. */
  lemma GroundPlacement(trig: Trig, a: Assets)
    requires trig.cos(0.0) == 1.0 && trig.sin(0.0) == 0.0
    ensures Ground(trig, a).transform == TranslationMatrix(Vec3(0.0, -2.0, 0.0))
  {
    var loc := Vec3(0.0, -2.0, 0.0);
    CreateModelNodeZeroAngles(trig, Some(loc), Angles(Some(0.0), Some(0.0), Some(0.0)), None,
                              Given(a.sphere), Given(a.uniforms), Given(GroundMaterial), Given(a.concreteFloor));
    CreateModelNodeTranslationOnly(trig, loc, None, Given(a.sphere), Given(a.uniforms), Given(GroundMaterial), Given(a.concreteFloor));
  }

  /** A frame draws the ground, then the body, then the head, each with
      its own material. */
  lemma SceneDrawOrder(trig: Trig, a: Assets, now: real, mtm: Mat4)
    ensures var draws := Trace(SceneCallbacks(trig, now), CreateScene(trig, a).root.value, mtm);
      && |draws| == 3
      && draws[0].shape == a.sphere && draws[1].shape == a.cube && draws[2].shape == a.cone
      && draws[0].material == Some(GroundMaterial)
      && draws[1].material == Some(MetalOrangeMaterial)
      && draws[2].material == Some(MetalGrayMaterial)
  {
    var apply := SceneCallbacks(trig, now);
    var head := Head(trig, a);
    var body := AddChildren(Body(trig, a), head);
    var root := AddChildren(Ground(trig, a), body);
    assert CreateScene(trig, a).root.value == root;
    var m0 := WorldMatrix(apply, root, mtm);
    var m1 := WorldMatrix(apply, body, m0);
    TraceLeaf(apply, head, m1);
    TraceOneChild(apply, body, head, m0);
    TraceOneChild(apply, root, body, mtm);
  }

  /** The body is drawn with the incoming matrix times the ground's and the
      body's transforms, turned about Y by the body callback. */
  lemma SceneBodyMatrix(trig: Trig, a: Assets, now: real, mtm: Mat4)
    ensures var apply := SceneCallbacks(trig, now);
      var root := CreateScene(trig, a).root.value;
      WorldMatrix(apply, root.children.nodes[0], WorldMatrix(apply, root, mtm))
        == Mul(Mul(Mul(mtm, Ground(trig, a).transform), Body(trig, a).transform), RotateY(Identity(), now * 0.001, trig))
  {
    var apply := SceneCallbacks(trig, now);
    var body := AddChildren(Body(trig, a), Head(trig, a));
    var root := AddChildren(Ground(trig, a), body);
    assert CreateScene(trig, a).root.value == root;
    assert root.children.nodes[0] == body;
    assert apply(BodySpin, Mul(WorldMatrix(apply, root, mtm), body.transform))
        == SceneCallback(trig, now, BodySpin, Mul(WorldMatrix(apply, root, mtm), body.transform));
  }
}

=== FILE: shading.dfy ===
/** Per-vertex colours and flat shading (`generate_colors` and
    `flat_shading_normals`, src/primitives.js).

    Flat shading un-shares the vertices of an indexed mesh: every corner of
    every triangle becomes a vertex of its own, carrying the normal of its
    triangle, so the lighting does not blend across edges.
 */
module Shading {
  import opened Maths
  import opened Grid
  import Tangents

  /** What `flat_shading_normals` returns: flat positions, normals, indices and colours. */
  datatype FlatMesh = FlatMesh(vertices: seq<real>, normals: seq<real>, indices: seq<nat>, colors: seq<real>)

  /** `generate_colors(rgb, n)`: the colour `rgb` pushed once for each of `n` vertices. */
  function GenerateColors(rgb: Vec3, n: nat): (cs: seq<real>)
    ensures |cs| == 3 * n
  {
    Flat3(Repeat(n, rgb))
  }

  /** Every vertex gets the same colour. */
  lemma GenerateColorsAt(rgb: Vec3, n: nat, k: nat)
    requires k < n
    ensures 3 * k + 2 < |GenerateColors(rgb, n)|
    ensures Tangents.Position(GenerateColors(rgb, n), k) == rgb
  {
    Flat3Index(Repeat(n, rgb), k);
  }

  /** One more vertex appends one more copy of the colour. */
  lemma GenerateColorsStep(rgb: Vec3, n: nat)
    ensures GenerateColors(rgb, n + 1) == GenerateColors(rgb, n) + Flat(rgb)
  {
    assert Repeat(n + 1, rgb)[..n] == Repeat(n, rgb);
  }

  function Sub(a: Vec3, b: Vec3): Vec3
  {
    Vec3(a.x - b.x, a.y - b.y, a.z - b.z)
  }

  function Cross(a: Vec3, b: Vec3): Vec3
  {
    Vec3(a.y * b.z - a.z * b.y, a.z * b.x - a.x * b.z, a.x * b.y - a.y * b.x)
  }

  function Dot(a: Vec3, b: Vec3): real
  {
    a.x * b.x + a.y * b.y + a.z * b.z
  }

  /** Each component divided by `d`. */
  function Divided(v: Vec3, d: real): Vec3
    requires d != 0.0
  {
    Vec3(v.x / d, v.y / d, v.z / d)
  }

  /** `Math.hypot(v.x, v.y, v.z)`, the square root of the sum of squares. */
  function Hypot(trig: Trig, v: Vec3): real
  {
    trig.sqrt(Dot(v, v))
  }

  /** The normal of the triangle (p0, p1, p2): the cross product of its two
      edges from p0, divided by its length only when that length is positive. */
  function FaceNormal(trig: Trig, p0: Vec3, p1: Vec3, p2: Vec3): Vec3
  {
    var n := Cross(Sub(p1, p0), Sub(p2, p0));
    var len := Hypot(trig, n);
    if len > 0.0 then Divided(n, len) else n
  }

  lemma CrossPerpendicular(a: Vec3, b: Vec3)
    ensures Dot(Cross(a, b), a) == 0.0 && Dot(Cross(a, b), b) == 0.0
  {
    assert Dot(Cross(a, b), a) == (a.y * b.z - a.z * b.y) * a.x + (a.z * b.x - a.x * b.z) * a.y + (a.x * b.y - a.y * b.x) * a.z;
    assert Dot(Cross(a, b), b) == (a.y * b.z - a.z * b.y) * b.x + (a.z * b.x - a.x * b.z) * b.y + (a.x * b.y - a.y * b.x) * b.z;
  }

  lemma DividedDot(n: Vec3, d: real, e: Vec3)
    requires d != 0.0
    ensures Dot(Divided(n, d), e) == Dot(n, e) / d
  {
  }

  /** The face normal is perpendicular to both edges of its triangle. */
  lemma FaceNormalPerpendicular(trig: Trig, p0: Vec3, p1: Vec3, p2: Vec3)
    ensures Dot(FaceNormal(trig, p0, p1, p2), Sub(p1, p0)) == 0.0
    ensures Dot(FaceNormal(trig, p0, p1, p2), Sub(p2, p0)) == 0.0
  {
    var n := Cross(Sub(p1, p0), Sub(p2, p0));
    CrossPerpendicular(Sub(p1, p0), Sub(p2, p0));
    var len := Hypot(trig, n);
    if len > 0.0 {
      DividedDot(n, len, Sub(p1, p0));
      DividedDot(n, len, Sub(p2, p0));
    }
  }

  /** When the square root is exact, a triangle of positive area gets a
      normal of unit length. */
  lemma FaceNormalUnit(trig: Trig, p0: Vec3, p1: Vec3, p2: Vec3)
    requires var n := Cross(Sub(p1, p0), Sub(p2, p0));
      Hypot(trig, n) > 0.0 && Hypot(trig, n) * Hypot(trig, n) == Dot(n, n)
    ensures Dot(FaceNormal(trig, p0, p1, p2), FaceNormal(trig, p0, p1, p2)) == 1.0
  {
    var n := Cross(Sub(p1, p0), Sub(p2, p0));
    var len := Hypot(trig, n);
    var q := Divided(n, len);
    DividedDot(n, len, q);
    assert Dot(n, q) == Dot(q, n);
    DividedDot(n, len, n);
    assert Dot(q, q) == Dot(n, n) / len / len;
    DivideTwice(Dot(n, n), len);
  }

  lemma DivideTwice(a: real, d: real)
    requires d != 0.0 && d * d == a
    ensures a / d / d == 1.0
  {
    var x := a / d;
    assert x * d == a;
    assert x == d;
  }

  /** A triangle whose edges are parallel (zero area) keeps the zero vector
      as its normal: the guard skips the division. */
  lemma FaceNormalDegenerate(trig: Trig, p0: Vec3, p1: Vec3, p2: Vec3)
    requires Cross(Sub(p1, p0), Sub(p2, p0)) == Vec3(0.0, 0.0, 0.0)
    ensures FaceNormal(trig, p0, p1, p2) == Vec3(0.0, 0.0, 0.0)
  {
    var zero := Vec3(0.0, 0.0, 0.0);
    var len := Hypot(trig, zero);
    if len > 0.0 {
      assert Divided(zero, len) == zero;
    }
  }

  /** Whole triangles whose corners name existing vertices. */
  predicate Indexed(vertices: seq<real>, indices: seq<nat>)
  {
    && |indices| % 3 == 0
    && forall k | 0 <= k < |indices| :: 3 * indices[k] + 2 < |vertices|
  }

  /** The position of corner k, `vertices[indices[k]]`. */
  function Corner(vertices: seq<real>, indices: seq<nat>, k: nat): Vec3
    requires Indexed(vertices, indices) && k < |indices|
  {
    Tangents.Position(vertices, indices[k])
  }

  /** The face normal of triangle t of an indexed mesh. */
  function TriangleNormal(trig: Trig, vertices: seq<real>, indices: seq<nat>, t: nat): Vec3
    requires Indexed(vertices, indices) && 3 * t + 2 < |indices|
  {
    FaceNormal(trig, Corner(vertices, indices, 3 * t), Corner(vertices, indices, 3 * t + 1), Corner(vertices, indices, 3 * t + 2))
  }

  lemma CornerTriangle(t: nat, c: nat)
    requires c < 3
    ensures (3 * t + c) / 3 == t
  {
  }

  /** The first loop of `flat_shading_normals`: each triangle's three
      corner positions, and its face normal three times. */
  method UnshareCorners(trig: Trig, vertices: seq<real>, indices: seq<nat>) returns (ps: seq<Vec3>, ns: seq<Vec3>)
    requires Indexed(vertices, indices)
    ensures |ps| == |indices| && |ns| == |indices|
    ensures forall k | 0 <= k < |indices| :: ps[k] == Corner(vertices, indices, k)
    ensures forall k | 0 <= k < |indices| :: ns[k] == TriangleNormal(trig, vertices, indices, k / 3)
  {
    ps, ns := [], [];
    var t := 0;
    while 3 * t < |indices|
      invariant 3 * t <= |indices|
      invariant |ps| == 3 * t && |ns| == 3 * t
      invariant forall k | 0 <= k < 3 * t :: ps[k] == Corner(vertices, indices, k)
      invariant forall k | 0 <= k < 3 * t :: ns[k] == TriangleNormal(trig, vertices, indices, k / 3)
    {
      var i := 3 * t;
      var n := TriangleNormal(trig, vertices, indices, t);
      CornerTriangle(t, 0);
      CornerTriangle(t, 1);
      CornerTriangle(t, 2);
      ps := ps + [Corner(vertices, indices, i), Corner(vertices, indices, i + 1), Corner(vertices, indices, i + 2)];
      ns := ns + [n, n, n];
      t := t + 1;
    }
  }

  /** The second loop of `flat_shading_normals`: indices 0 .. n-1 and the
      colour once per vertex. */
  method NumberVertices(n: nat, colors: Vec3) returns (findices: seq<nat>, fcolors: seq<real>)
    ensures |findices| == n && forall k | 0 <= k < n :: findices[k] == k
    ensures fcolors == GenerateColors(colors, n)
  {
    findices, fcolors := [], [];
    var j := 0;
    while j < n
      invariant j <= n
      invariant |findices| == j && forall k | 0 <= k < j :: findices[k] == k
      invariant fcolors == GenerateColors(colors, j)
    {
      GenerateColorsStep(colors, j);
      findices := findices + [j];
      fcolors := fcolors + Flat(colors);
      j := j + 1;
    }
  }

  /** `flat_shading_normals(vertices, indices, colors)`. Output vertex k is
      input vertex indices[k]; the three corners of a triangle share its face
      normal; the new index array is 0, 1, 2, ... stored in a `Uint16Array`,
      so it counts modulo 65536. The source's `colors` is an array of which
      only the first triple is read; `colors` here is that triple, and every
      vertex gets it. */
  method FlatShadingNormals(trig: Trig, vertices: seq<real>, indices: seq<nat>, colors: Vec3) returns (fm: FlatMesh)
    requires Indexed(vertices, indices)
    ensures |fm.vertices| == 3 * |indices| && |fm.normals| == 3 * |indices|
    ensures forall k | 0 <= k < |indices| :: Tangents.Position(fm.vertices, k) == Corner(vertices, indices, k)
    ensures forall k | 0 <= k < |indices| :: Tangents.Position(fm.normals, k) == TriangleNormal(trig, vertices, indices, k / 3)
    ensures |fm.indices| == |indices| && forall k | 0 <= k < |indices| :: fm.indices[k] == k % Uint16Limit
    ensures |indices| <= Uint16Limit ==> forall k | 0 <= k < |indices| :: fm.indices[k] == k
    ensures fm.colors == GenerateColors(colors, |indices|)
  {
    var ps, ns := UnshareCorners(trig, vertices, indices);
    var findices, fcolors := NumberVertices(|ps|, colors);
    FlatPositions(ps);
    FlatPositions(ns);
    var stored := Uint16(findices);
    NumberingWraps(findices);
    fm := FlatMesh(Flat3(ps), Flat3(ns), stored, fcolors);
  }

  /** Stored in a `Uint16Array`, the numbering 0, 1, 2, ... counts modulo
      65536, and is unchanged while it stays below that. */
  lemma NumberingWraps(findices: seq<nat>)
    requires forall k | 0 <= k < |findices| :: findices[k] == k
    ensures forall k | 0 <= k < |findices| :: Uint16(findices)[k] == k % Uint16Limit
    ensures forall k | 0 <= k < |findices| && k < Uint16Limit :: Uint16(findices)[k] == k
  {
  }

  /** Read back as positions, the flattened array gives the vectors again. */
  lemma FlatPositions(vs: seq<Vec3>)
    ensures forall k | 0 <= k < |vs| :: Tangents.Position(Flat3(vs), k) == vs[k]
  {
    forall k | 0 <= k < |vs|
      ensures Tangents.Position(Flat3(vs), k) == vs[k]
    {
      Flat3Index(vs, k);
    }
  }
}

=== FILE: shape.dfy ===
/** Drawable shapes (src/shape.js): material defaults, the texture switch,
    the typed-array conversion of a geometry, and `makeShape`, which colours
    every vertex with the material colour before building the shape.
 */
module Shapes {
  import opened Wrappers
  import opened Maths
  import opened Materials
  import Shading
  import Tangents
  import ShapeBuffers

  /** A material with every field resolved. */
  datatype Material = Material(ka: real, kd: real, ks: real, alpha: real, color: Vec3, bumpOn: bool)

  /** The values a shape uses for fields its material literal leaves out. */
  const DefaultMaterial: Material := Material(0.2, 0.5, 0.5, 10.0, Vec3(0.5, 0.5, 0.5), false)

  /** The empty literal `{}`, the constructor's default `material` argument. */
  const EmptySpec: MaterialSpec := MaterialSpec(None, None, None, None, None, None)

  /** A literal that sets every field to the value `m` has. */
  function FullSpec(m: Material): MaterialSpec
  {
    MaterialSpec(Some(m.ka), Some(m.kd), Some(m.ks), Some(m.alpha), Some(m.color), Some(m.bumpOn))
  }

  /** The `??` defaulting of the constructor: a field falls back to its
      default only when the literal leaves it out (null or undefined). */
  function ResolveMaterial(spec: MaterialSpec): (m: Material)
    ensures spec.ka.Some? ==> m.ka == spec.ka.value
    ensures spec.ka.None? ==> m.ka == DefaultMaterial.ka
    ensures spec.kd.Some? ==> m.kd == spec.kd.value
    ensures spec.kd.None? ==> m.kd == DefaultMaterial.kd
    ensures spec.ks.Some? ==> m.ks == spec.ks.value
    ensures spec.ks.None? ==> m.ks == DefaultMaterial.ks
    ensures spec.alpha.Some? ==> m.alpha == spec.alpha.value
    ensures spec.alpha.None? ==> m.alpha == DefaultMaterial.alpha
    ensures spec.color.Some? ==> m.color == spec.color.value
    ensures spec.color.None? ==> m.color == DefaultMaterial.color
    ensures spec.bumpOn.Some? ==> m.bumpOn == spec.bumpOn.value
    ensures spec.bumpOn.None? ==> m.bumpOn == DefaultMaterial.bumpOn
  {
    Material(
      spec.ka.GetOr(DefaultMaterial.ka),
      spec.kd.GetOr(DefaultMaterial.kd),
      spec.ks.GetOr(DefaultMaterial.ks),
      spec.alpha.GetOr(DefaultMaterial.alpha),
      spec.color.GetOr(DefaultMaterial.color),
      spec.bumpOn.GetOr(DefaultMaterial.bumpOn))
  }

  /** An empty literal gets every default: Ka 0.2, Kd 0.5, Ks 0.5, alpha 10,
      colour (0.5, 0.5, 0.5), bump mapping off. */
  lemma ResolveEmptyIsDefault()
    ensures ResolveMaterial(EmptySpec) == Material(0.2, 0.5, 0.5, 10.0, Vec3(0.5, 0.5, 0.5), false)
  {
  }

  /** A fully specified literal is taken as it is, so resolving an already
      resolved material changes nothing. */
  lemma ResolveFullSpec(m: Material, spec: MaterialSpec)
    ensures ResolveMaterial(FullSpec(m)) == m
    ensures ResolveMaterial(FullSpec(ResolveMaterial(spec))) == ResolveMaterial(spec)
  {
  }

  /** Falsy values that are given are kept: `Ka: 0` stays 0 and
      `bumpOn: false` stays false, even where the default differs. */
  lemma ResolveKeepsFalsyValues(spec: MaterialSpec)
    requires spec.ka == Some(0.0) && spec.alpha == Some(0.0) && spec.bumpOn == Some(false)
    ensures ResolveMaterial(spec).ka == 0.0 && ResolveMaterial(spec).alpha == 0.0
    ensures !ResolveMaterial(spec).bumpOn
  {
  }

  /** Every material constant but the TV screen's takes the default Ka of 0.2. */
  lemma MaterialConstantsKa()
    ensures forall k | 0 <= k < |AllMaterials| ::
      ResolveMaterial(AllMaterials[k]).ka == (if k == 1 then 0.9 else 0.2)
  {
    OnlyTvScreenSetsKa();
  }

  /** The texture argument, sorted by how JavaScript treats it: a missing or
      other falsy value, a URL string, a video element, or any other object. */
  datatype TexSource = NoSource | Url(path: string) | Video(element: nat) | OtherObject(id: nat)

  /** JavaScript truthiness of the texture argument; the empty string is falsy. */
  predicate Truthy(tex: TexSource)
  {
    !tex.NoSource? && tex != Url("")
  }

  /** The texture fields set when `tex_on` holds. */
  datatype TextureInfo = TextureInfo(source: TexSource, isVideo: bool, video: Option<nat>, loadsImage: bool)

  /** The `tex_on` branch of the constructor: `None` when `tex_on` is false;
      otherwise a string starts an image load and a video element is kept. */
  function TextureSetup(tex: TexSource): (t: Option<TextureInfo>)
    ensures t.Some? <==> Truthy(tex)
    ensures t.Some? ==> t.value.source == tex
    ensures t.Some? ==> (t.value.isVideo <==> tex.Video?) && (t.value.video.Some? <==> tex.Video?)
    ensures t.Some? ==> (t.value.loadsImage <==> tex.Url?)
  {
    match tex
    case NoSource => None
    case Url(path) => if path == "" then None else Some(TextureInfo(tex, false, None, true))
    case Video(element) => Some(TextureInfo(tex, true, Some(element), false))
    case OtherObject(_) => Some(TextureInfo(tex, false, None, false))
  }

  /** A geometry object; a missing property is `undefined`. */
  datatype Geometry = Geometry(
    vertices: Option<seq<real>>,
    indices: Option<seq<nat>>,
    colors: Option<seq<real>>,
    normals: Option<seq<real>>,
    texCoords: Option<seq<real>>,
    tangents: Option<seq<real>>)

  /** `new Float32Array(a)`: an undefined array gives an empty one. */
  function FloatArray(a: Option<seq<real>>): seq<real>
  {
    a.GetOr([])
  }

  /** `new Uint16Array(a)`: each index keeps its low 16 bits. */
  function Uint16Array(a: Option<seq<nat>>): (r: seq<nat>)
    ensures a.None? ==> r == []
    ensures a.Some? ==> |r| == |a.value|
    ensures forall k | 0 <= k < |r| :: r[k] < Uint16Limit && r[k] % Uint16Limit == a.value[k] % Uint16Limit
  {
    match a
    case None => []
    case Some(xs) => Uint16(xs)
  }

  /** Indices below 65536 survive the conversion unchanged. */
  lemma Uint16ArrayKeepsSmallIndices(xs: seq<nat>)
    requires forall k | 0 <= k < |xs| :: xs[k] < Uint16Limit
    ensures Uint16Array(Some(xs)) == xs
  {
  }

  /** A constructed shape without its GPU handles. */
  datatype Shape = Shape(
    vertices: seq<real>,
    indices: seq<nat>,
    colors: seq<real>,
    normals: seq<real>,
    texCoords: seq<real>,
    tangents: seq<real>,
    material: Material,
    buffer: ShapeBuffers.ShapeBuffer,
    texture: Option<TextureInfo>)

  /** `tex_on`. */
  predicate TexOn(s: Shape)
  {
    s.texture.Some?
  }

  /** `new Shape(gl, program, geometry, tex_src, material)`. `material` is
      `None` when the argument is omitted, which means `{}`. For a geometry
      object and an omitted or object material, the only way it throws is
      through the buffer's length checks. */
  function NewShape(geo: Geometry, tex: TexSource, material: Option<MaterialSpec>): (r: Result<Shape, ShapeBuffers.BufferError>)
    ensures r.Ok? <==> ShapeBuffers.Consistent(FloatArray(geo.vertices), FloatArray(geo.colors), FloatArray(geo.normals))
    ensures r.Ok? ==> r.value.material == ResolveMaterial(material.GetOr(EmptySpec))
    ensures r.Ok? ==> (TexOn(r.value) <==> Truthy(tex))
    ensures r.Ok? ==> r.value.vertices == FloatArray(geo.vertices) && r.value.colors == FloatArray(geo.colors)
    ensures r.Ok? ==> ShapeBuffers.Render(r.value.buffer) == |r.value.indices| == |Uint16Array(geo.indices)|
  {
    var vertices := FloatArray(geo.vertices);
    var indices := Uint16Array(geo.indices);
    var colors := FloatArray(geo.colors);
    var normals := FloatArray(geo.normals);
    var texCoords := FloatArray(geo.texCoords);
    var tangents := FloatArray(geo.tangents);
    var m := ResolveMaterial(material.GetOr(EmptySpec));
    match ShapeBuffers.NewShapeBuffer(vertices, indices, colors, normals, texCoords, tangents)
    case Err(e) => Err(e)
    case Ok(buffer) => Ok(Shape(vertices, indices, colors, normals, texCoords, tangents, m, buffer, TextureSetup(tex)))
  }

  /** Why `makeShape` fails: reading `.color` of a missing material, reading
      `.length` of missing vertices, indexing a missing colour, or the
      buffer's length checks. */
  datatype MakeShapeError = MaterialMissing | VerticesMissing | ColorMissing | Buffer(error: ShapeBuffers.BufferError)

  /** `vertices.length / 3` rounded up: the number of passes of
      `generate_colors`' loop, whose bound may be fractional. */
  function ColorPasses(vertices: seq<real>): (n: nat)
    ensures 3 * n >= |vertices| && 3 * n < |vertices| + 3
  {
    (|vertices| + 2) / 3
  }

  /** `makeShape(gl, program, geometry_func, tex_src, material)` with the
      geometry already produced: colours every vertex with `material.color`
      (unresolved, so a literal without a colour fails once a vertex exists),
      then builds the shape. The arguments of `generate_colors` are read left
      to right, so a missing material is reported before missing vertices. */
  function MakeShape(geo: Geometry, tex: TexSource, material: Option<MaterialSpec>): (r: Result<Shape, MakeShapeError>)
    ensures material.None? ==> r == Err(MaterialMissing)
    ensures material.Some? && geo.vertices.None? ==> r == Err(VerticesMissing)
    ensures r.Ok? ==> material.Some? && r.value.material == ResolveMaterial(material.value)
  {
    match material
    case None => Err(MaterialMissing)
    case Some(spec) =>
      if geo.vertices.None? then Err(VerticesMissing)
      else
        var n := ColorPasses(geo.vertices.value);
        if spec.color.None? && n > 0 then Err(ColorMissing)
        else
          var colors := if spec.color.None? then [] else Shading.GenerateColors(spec.color.value, n);
          match NewShape(geo.(colors := Some(colors)), tex, material)
          case Err(e) => Err(Buffer(e))
          case Ok(s) => Ok(s)
  }

  /** `makeShape` succeeds exactly when a material and a vertex array are
      given, the material has a colour or there are no vertices, the
      positions come in triples, and the
      normals are empty or as long as the positions. */
  lemma MakeShapeSucceeds(geo: Geometry, tex: TexSource, material: Option<MaterialSpec>)
    ensures var vertices := FloatArray(geo.vertices);
      MakeShape(geo, tex, material).Ok? <==>
        && material.Some?
        && geo.vertices.Some?
        && (material.value.color.Some? || |vertices| == 0)
        && |vertices| % 3 == 0
        && ShapeBuffers.MatchesOrEmpty(FloatArray(geo.normals), vertices)
  {
    var vertices := FloatArray(geo.vertices);
    if material.Some? && material.value.color.Some? && |vertices| % 3 == 0 {
      var n := ColorPasses(vertices);
      assert 3 * n == |vertices|;
    }
  }

  /** A shape made by `makeShape` carries one colour triple per vertex, each
      equal to the material's colour. */
  lemma MakeShapeColors(geo: Geometry, tex: TexSource, material: Option<MaterialSpec>, k: nat)
    requires MakeShape(geo, tex, material).Ok? && material.value.color.Some?
    ensures |MakeShape(geo, tex, material).value.colors| == |FloatArray(geo.vertices)|
    ensures 3 * k + 2 < |FloatArray(geo.vertices)| ==>
      Tangents.Position(MakeShape(geo, tex, material).value.colors, k) == material.value.color.value
  {
    var vertices := FloatArray(geo.vertices);
    var n := ColorPasses(vertices);
    MakeShapeSucceeds(geo, tex, material);
    assert 3 * n == |vertices|;
    if 3 * k + 2 < |vertices| {
      Shading.GenerateColorsAt(material.value.color.value, n, k);
    }
  }
}

=== FILE: shapebuffer.dfy ===
/** Vertex-array validation and the draw call (src/shapebuffer.js).

    The constructor keeps the attribute arrays, records the vertex and index
    counts, and rejects inconsistent lengths before any GPU buffer exists.
    `render` draws `idxlen` indices as triangles.
 */
module ShapeBuffers {
  import opened Wrappers

  /** The three errors the constructor throws, in the order it checks them. */
  datatype BufferError = VerticesNotTriples | NormalsLengthMismatch | ColorsLengthMismatch

  datatype ShapeBuffer = ShapeBuffer(
    vertices: seq<real>,
    indices: seq<nat>,
    colors: seq<real>,
    normals: seq<real>,
    texCoords: seq<real>,
    tangents: seq<real>,
    verlen: nat,
    idxlen: nat)

  /** An attribute array is acceptable when it is empty or as long as the positions. */
  predicate MatchesOrEmpty(attribute: seq<real>, vertices: seq<real>)
  {
    |attribute| == 0 || |attribute| == |vertices|
  }

  /** The lengths the constructor accepts. Texture coordinates and tangents are not checked. */
  predicate Consistent(vertices: seq<real>, colors: seq<real>, normals: seq<real>)
  {
    |vertices| % 3 == 0 && MatchesOrEmpty(normals, vertices) && MatchesOrEmpty(colors, vertices)
  }

  /** `new ShapeBuffer(gl, program, vertices, indices, colors, normals, tex_coords, tangents)`
      without its GPU calls. */
  function NewShapeBuffer(vertices: seq<real>, indices: seq<nat>, colors: seq<real>, normals: seq<real>,
                          texCoords: seq<real>, tangents: seq<real>): (r: Result<ShapeBuffer, BufferError>)
    ensures r.Ok? <==> Consistent(vertices, colors, normals)
    ensures r.Ok? ==> r.value == ShapeBuffer(vertices, indices, colors, normals, texCoords, tangents, |vertices|, |indices|)
  {
    if |vertices| % 3 != 0 then Err(VerticesNotTriples)
    else if |normals| != 0 && |normals| != |vertices| then Err(NormalsLengthMismatch)
    else if |colors| != 0 && |colors| != |vertices| then Err(ColorsLengthMismatch)
    else Ok(ShapeBuffer(vertices, indices, colors, normals, texCoords, tangents, |vertices|, |indices|))
  }

  /** The error reported is that of the first failing check: positions, then
      normals, then colours. */
  lemma NewShapeBufferErrorOrder(vertices: seq<real>, indices: seq<nat>, colors: seq<real>, normals: seq<real>,
                                 texCoords: seq<real>, tangents: seq<real>)
    ensures var r := NewShapeBuffer(vertices, indices, colors, normals, texCoords, tangents);
      && (r == Err(VerticesNotTriples) <==> |vertices| % 3 != 0)
      && (r == Err(NormalsLengthMismatch) <==> |vertices| % 3 == 0 && !MatchesOrEmpty(normals, vertices))
      && (r == Err(ColorsLengthMismatch) <==>
            |vertices| % 3 == 0 && MatchesOrEmpty(normals, vertices) && !MatchesOrEmpty(colors, vertices))
  {
  }

  /** Whether the constructor succeeds does not depend on the texture
      coordinates or tangents. */
  lemma UncheckedAttributes(vertices: seq<real>, indices: seq<nat>, colors: seq<real>, normals: seq<real>,
                            texCoords1: seq<real>, tangents1: seq<real>, texCoords2: seq<real>, tangents2: seq<real>)
    ensures NewShapeBuffer(vertices, indices, colors, normals, texCoords1, tangents1).Ok?
        == NewShapeBuffer(vertices, indices, colors, normals, texCoords2, tangents2).Ok?
  {
  }

  /** `render`: the number of indices `drawElements` is asked to draw. */
  function Render(b: ShapeBuffer): nat
  {
    b.idxlen
  }

  /** A constructed buffer draws every index it was given. */
  lemma RenderDrawsAllIndices(vertices: seq<real>, indices: seq<nat>, colors: seq<real>, normals: seq<real>,
                              texCoords: seq<real>, tangents: seq<real>)
    requires NewShapeBuffer(vertices, indices, colors, normals, texCoords, tangents).Ok?
    ensures Render(NewShapeBuffer(vertices, indices, colors, normals, texCoords, tangents).value) == |indices|
  {
  }
}

=== FILE: tangents.dfy ===
/** Per-vertex tangent synthesis for normal mapping (`compute_tangents`,
    src/primitives.js).

    For every triangle (i0, i1, i2) the tangent direction is solved from the
    edge vectors dp1 = p1 − p0, dp2 = p2 − p0 and the UV deltas duv1, duv2:

        t = (dp1 · duv2.y − dp2 · duv1.y) / (duv1.x · duv2.y − duv1.y · duv2.x)

    and the same `t` is added to each of the triangle's three vertices. The
    sums are not normalised. The source divides without a guard; a triangle
    whose UV determinant is zero makes it write Infinity or NaN into the
    result, which the model reports as `None`.
 */
module Tangents {
  import opened Wrappers
  import opened Maths

  /** The index array refers only to vertices that exist, in whole triangles. */
  predicate WellIndexed(pos: seq<real>, uv: seq<real>, idx: seq<nat>)
  {
    && |pos| % 3 == 0
    && |idx| % 3 == 0
    && forall k | 0 <= k < |idx| :: 3 * idx[k] + 2 < |pos| && 2 * idx[k] + 1 < |uv|
  }

  /** The number of triangles in an index array. */
  function TriangleCount(idx: seq<nat>): nat
  {
    |idx| / 3
  }

  /** Vertex `v` of a flat position array. */
  function Position(pos: seq<real>, v: nat): Vec3
    requires 3 * v + 2 < |pos|
  {
    Vec3(pos[3 * v], pos[3 * v + 1], pos[3 * v + 2])
  }

  /** The UV determinant `duv1.x * duv2.y − duv1.y * duv2.x` of triangle `t`. */
  function UvDeterminant(pos: seq<real>, uv: seq<real>, idx: seq<nat>, t: nat): real
    requires WellIndexed(pos, uv, idx) && t < TriangleCount(idx)
  {
    var i0, i1, i2 := idx[3 * t], idx[3 * t + 1], idx[3 * t + 2];
    var du1, dv1 := uv[2 * i1] - uv[2 * i0], uv[2 * i1 + 1] - uv[2 * i0 + 1];
    var du2, dv2 := uv[2 * i2] - uv[2 * i0], uv[2 * i2 + 1] - uv[2 * i0 + 1];
    du1 * dv2 - dv1 * du2
  }

  /** `true` when triangle `t` has a UV mapping of zero area. */
  predicate Degenerate(pos: seq<real>, uv: seq<real>, idx: seq<nat>, t: nat)
    requires WellIndexed(pos, uv, idx) && t < TriangleCount(idx)
  {
    UvDeterminant(pos, uv, idx, t) == 0.0
  }

  /** The tangent `t` of triangle `t`, before it is added to its vertices. */
  function TriangleTangent(pos: seq<real>, uv: seq<real>, idx: seq<nat>, t: nat): Vec3
    requires WellIndexed(pos, uv, idx) && t < TriangleCount(idx)
    requires !Degenerate(pos, uv, idx, t)
  {
    var i0, i1, i2 := idx[3 * t], idx[3 * t + 1], idx[3 * t + 2];
    var p0, p1, p2 := Position(pos, i0), Position(pos, i1), Position(pos, i2);
    var dv1 := uv[2 * i1 + 1] - uv[2 * i0 + 1];
    var dv2 := uv[2 * i2 + 1] - uv[2 * i0 + 1];
    var r := 1.0 / UvDeterminant(pos, uv, idx, t);
    Vec3(((p1.x - p0.x) * dv2 - (p2.x - p0.x) * dv1) * r,
         ((p1.y - p0.y) * dv2 - (p2.y - p0.y) * dv1) * r,
         ((p1.z - p0.z) * dv2 - (p2.z - p0.z) * dv1) * r)
  }

  /** Component `c` (0, 1 or 2) of a vector. */
  function Component(v: Vec3, c: nat): real
    requires c < 3
  {
    if c == 0 then v.x else if c == 1 then v.y else v.z
  }

  /** `tangents[v*3 + c] += t[c]` for c = 0, 1, 2. */
  function AddTo(acc: seq<real>, v: nat, t: Vec3): (r: seq<real>)
    requires 3 * v + 2 < |acc|
    ensures |r| == |acc|
    ensures forall k | 0 <= k < |acc| ::
      r[k] == if 3 * v <= k < 3 * v + 3 then acc[k] + Component(t, k - 3 * v) else acc[k]
  {
    acc[3 * v := acc[3 * v] + t.x][3 * v + 1 := acc[3 * v + 1] + t.y][3 * v + 2 := acc[3 * v + 2] + t.z]
  }

  /** The tangents of triangles `0 .. n-1`, or `None` when one of them is
      degenerate. */
  function PerTriangle(pos: seq<real>, uv: seq<real>, idx: seq<nat>, n: nat): (r: Option<seq<Vec3>>)
    requires WellIndexed(pos, uv, idx) && n <= TriangleCount(idx)
    ensures r.Some? ==> |r.value| == n
  {
    if n == 0 then Some([])
    else
      match PerTriangle(pos, uv, idx, n - 1)
      case None => None
      case Some(ts) =>
        if Degenerate(pos, uv, idx, n - 1) then None
        else Some(ts + [TriangleTangent(pos, uv, idx, n - 1)])
  }

  /** Every corner of the first `n` triangles names a vertex whose three
      components lie inside a flat array of length `len`. */
  predicate CornersFit(idx: seq<nat>, n: nat, len: nat)
  {
    3 * n <= |idx| && forall k | 0 <= k < 3 * n :: 3 * idx[k] + 2 < len
  }

  /** Add `x` to each of triangle `t`'s three corners. */
  function AddTriangle(acc: seq<real>, idx: seq<nat>, t: nat, x: Vec3): (r: seq<real>)
    requires 3 * t + 2 < |idx|
    requires 3 * idx[3 * t] + 2 < |acc| && 3 * idx[3 * t + 1] + 2 < |acc| && 3 * idx[3 * t + 2] + 2 < |acc|
    ensures |r| == |acc|
  {
    AddTo(AddTo(AddTo(acc, idx[3 * t], x), idx[3 * t + 1], x), idx[3 * t + 2], x)
  }

  /** Starting from `acc`, add `ts[t]` to each corner of triangle `t`, for
      `t` = 0 .. n-1 in order. */
  function Scatter(acc: seq<real>, idx: seq<nat>, ts: seq<Vec3>, n: nat): (r: seq<real>)
    requires CornersFit(idx, n, |acc|) && n <= |ts|
    ensures |r| == |acc|
  {
    if n == 0 then acc
    else AddTriangle(Scatter(acc, idx, ts, n - 1), idx, n - 1, ts[n - 1])
  }

  /** `compute_tangents(vertices, tex_coords, indices)`: a zero-filled array
      of one tangent per vertex, then the per-triangle accumulation. */
  function ComputeTangents(pos: seq<real>, uv: seq<real>, idx: seq<nat>): (r: Option<seq<real>>)
    requires WellIndexed(pos, uv, idx)
    ensures r.Some? ==> |r.value| == |pos|
  {
    match PerTriangle(pos, uv, idx, TriangleCount(idx))
    case None => None
    case Some(ts) =>
      assert CornersFit(idx, TriangleCount(idx), |pos|);
      Some(Scatter(seq(|pos|, _ => 0.0), idx, ts, TriangleCount(idx)))
  }

  // ---------------------------------------------------------------------------
  // Reference definition: the sum over triangles

  /** How many of triangle `t`'s three corners are vertex `v`. */
  function Multiplicity(idx: seq<nat>, t: nat, v: nat): nat
    requires 3 * t + 2 < |idx|
  {
    (if idx[3 * t] == v then 1 else 0)
    + (if idx[3 * t + 1] == v then 1 else 0)
    + (if idx[3 * t + 2] == v then 1 else 0)
  }

  /** `m` copies of `x` added together. */
  function Times(m: nat, x: real): real
  {
    if m == 0 then 0.0 else Times(m - 1, x) + x
  }

  /** Counting a vertex `Multiplicity` times is adding once per matching corner. */
  lemma MultiplicityScales(idx: seq<nat>, t: nat, v: nat, x: real)
    requires 3 * t + 2 < |idx|
    ensures Times(Multiplicity(idx, t, v), x)
      == (if idx[3 * t] == v then x else 0.0)
       + (if idx[3 * t + 1] == v then x else 0.0)
       + (if idx[3 * t + 2] == v then x else 0.0)
  {
    var m := Multiplicity(idx, t, v);
    assert m <= 3;
    assert Times(0, x) == 0.0;
    assert Times(1, x) == x;
    assert Times(2, x) == x + x;
    assert Times(3, x) == x + x + x;
  }

  /** No triangle among the first `n` is degenerate. */
  predicate NoneDegenerate(pos: seq<real>, uv: seq<real>, idx: seq<nat>, n: nat)
    requires WellIndexed(pos, uv, idx) && n <= TriangleCount(idx)
  {
    forall t | 0 <= t < n :: !Degenerate(pos, uv, idx, t)
  }

  /** Σ over triangles t < n of Multiplicity(t, v) copies of ts[t][c]. */
  function TangentSum(idx: seq<nat>, ts: seq<Vec3>, v: nat, c: nat, n: nat): real
    requires 3 * n <= |idx| && n <= |ts| && c < 3
  {
    if n == 0 then 0.0
    else TangentSum(idx, ts, v, c, n - 1) + Times(Multiplicity(idx, n - 1, v), Component(ts[n - 1], c))
  }

  /** The per-triangle tangents exist exactly when no triangle is degenerate,
      and then they are the triangles' own tangents. */
  lemma {:induction false} PerTriangleDefined(pos: seq<real>, uv: seq<real>, idx: seq<nat>, n: nat)
    requires WellIndexed(pos, uv, idx) && n <= TriangleCount(idx)
    ensures PerTriangle(pos, uv, idx, n).Some? <==> NoneDegenerate(pos, uv, idx, n)
    ensures PerTriangle(pos, uv, idx, n).Some? ==>
      forall t | 0 <= t < n :: PerTriangle(pos, uv, idx, n).value[t] == TriangleTangent(pos, uv, idx, t)
  {
    if n > 0 {
      PerTriangleDefined(pos, uv, idx, n - 1);
      assert NoneDegenerate(pos, uv, idx, n)
        <==> NoneDegenerate(pos, uv, idx, n - 1) && !Degenerate(pos, uv, idx, n - 1);
    }
  }

  /** Entry 3v + c grows by `x[c]` once for each corner of triangle `t` that is `v`. */
  lemma AddTriangleAt(acc: seq<real>, idx: seq<nat>, t: nat, x: Vec3, v: nat, c: nat)
    requires 3 * t + 2 < |idx|
    requires 3 * idx[3 * t] + 2 < |acc| && 3 * idx[3 * t + 1] + 2 < |acc| && 3 * idx[3 * t + 2] + 2 < |acc|
    requires 3 * v + 2 < |acc| && c < 3
    ensures AddTriangle(acc, idx, t, x)[3 * v + c]
      == acc[3 * v + c]
       + (if idx[3 * t] == v then Component(x, c) else 0.0)
       + (if idx[3 * t + 1] == v then Component(x, c) else 0.0)
       + (if idx[3 * t + 2] == v then Component(x, c) else 0.0)
  {
    var k := 3 * v + c;
    var a1 := AddTo(acc, idx[3 * t], x);
    var a2 := AddTo(a1, idx[3 * t + 1], x);
    assert Component(x, c) == Component(x, k - 3 * v);
    assert a1[k] == acc[k] + (if idx[3 * t] == v then Component(x, c) else 0.0);
    assert a2[k] == a1[k] + (if idx[3 * t + 1] == v then Component(x, c) else 0.0);
  }

  /** One more triangle adds, to entry 3v + c, its tangent's component once
      per corner that is `v`. */
  lemma ScatterStep(acc: seq<real>, idx: seq<nat>, ts: seq<Vec3>, n: nat, v: nat, c: nat)
    requires 0 < n && CornersFit(idx, n, |acc|) && n <= |ts|
    requires 3 * v + 2 < |acc| && c < 3
    ensures CornersFit(idx, n - 1, |acc|)
    ensures Scatter(acc, idx, ts, n)[3 * v + c]
      == Scatter(acc, idx, ts, n - 1)[3 * v + c] + Times(Multiplicity(idx, n - 1, v), Component(ts[n - 1], c))
  {
    var m := n - 1;
    assert CornersFit(idx, m, |acc|);
    var prev := Scatter(acc, idx, ts, m);
    assert Scatter(acc, idx, ts, n) == AddTriangle(prev, idx, m, ts[m]);
    AddTriangleAt(prev, idx, m, ts[m], v, c);
    MultiplicityScales(idx, m, v, Component(ts[m], c));
  }

  /** Every entry of the scattered array is its starting value plus the sum
      of the tangents of the triangles using that vertex, each counted once
      per corner. */
  lemma {:induction false} ScatterIsSum(acc: seq<real>, idx: seq<nat>, ts: seq<Vec3>, n: nat, v: nat, c: nat)
    requires CornersFit(idx, n, |acc|) && n <= |ts|
    requires 3 * v + 2 < |acc| && c < 3
    ensures Scatter(acc, idx, ts, n)[3 * v + c] == acc[3 * v + c] + TangentSum(idx, ts, v, c, n)
  {
    if n > 0 {
      ScatterStep(acc, idx, ts, n, v, c);
      ScatterIsSum(acc, idx, ts, n - 1, v, c);
    }
  }

  /** A vertex that no triangle uses keeps its starting value. */
  lemma {:induction false} TangentSumUnused(idx: seq<nat>, ts: seq<Vec3>, v: nat, c: nat, n: nat)
    requires 3 * n <= |idx| && n <= |ts| && c < 3
    requires forall k | 0 <= k < 3 * n :: idx[k] != v
    ensures TangentSum(idx, ts, v, c, n) == 0.0
  {
    if n > 0 {
      TangentSumUnused(idx, ts, v, c, n - 1);
      assert idx[3 * (n - 1)] != v && idx[3 * (n - 1) + 1] != v && idx[3 * (n - 1) + 2] != v;
    }
  }

  /** `compute_tangents` succeeds exactly when no triangle's UV mapping is
      degenerate. */
  lemma ComputeTangentsDefined(pos: seq<real>, uv: seq<real>, idx: seq<nat>)
    requires WellIndexed(pos, uv, idx)
    ensures ComputeTangents(pos, uv, idx).Some? <==> NoneDegenerate(pos, uv, idx, TriangleCount(idx))
  {
    PerTriangleDefined(pos, uv, idx, TriangleCount(idx));
  }

  /** When it succeeds, component `c` of vertex `v`'s tangent is the sum,
      over the triangles, of that triangle's own tangent once per corner that
      names `v`. */
  lemma ComputeTangentsAt(pos: seq<real>, uv: seq<real>, idx: seq<nat>, v: nat, c: nat)
    requires WellIndexed(pos, uv, idx) && 3 * v + 2 < |pos| && c < 3
    requires ComputeTangents(pos, uv, idx).Some?
    ensures PerTriangle(pos, uv, idx, TriangleCount(idx)).Some?
    ensures ComputeTangents(pos, uv, idx).value[3 * v + c]
      == TangentSum(idx, PerTriangle(pos, uv, idx, TriangleCount(idx)).value, v, c, TriangleCount(idx))
  {
    var n := TriangleCount(idx);
    var ts := PerTriangle(pos, uv, idx, n).value;
    var zero := seq(|pos|, _ => 0.0);
    assert CornersFit(idx, n, |zero|);
    assert ComputeTangents(pos, uv, idx).value == Scatter(zero, idx, ts, n);
    ScatterIsSum(zero, idx, ts, n, v, c);
  }

  /** A vertex that no triangle uses keeps the tangent (0, 0, 0). */
  lemma ComputeTangentsUnused(pos: seq<real>, uv: seq<real>, idx: seq<nat>, v: nat, c: nat)
    requires WellIndexed(pos, uv, idx) && 3 * v + 2 < |pos| && c < 3
    requires forall k | 0 <= k < |idx| :: idx[k] != v
    requires ComputeTangents(pos, uv, idx).Some?
    ensures ComputeTangents(pos, uv, idx).value[3 * v + c] == 0.0
  {
    ComputeTangentsAt(pos, uv, idx, v, c);
    TangentSumUnused(idx, PerTriangle(pos, uv, idx, TriangleCount(idx)).value, v, c, TriangleCount(idx));
  }

  /** The right triangle (0,0,0), (1,0,0), (0,1,0) mapped onto the unit UV
      triangle gets the tangent (1, 0, 0) at every corner. */
  lemma ComputeTangentsUnitTriangle()
    ensures WellIndexed([0.0, 0.0, 0.0, 1.0, 0.0, 0.0, 0.0, 1.0, 0.0], [0.0, 0.0, 1.0, 0.0, 0.0, 1.0], [0, 1, 2])
    ensures ComputeTangents([0.0, 0.0, 0.0, 1.0, 0.0, 0.0, 0.0, 1.0, 0.0], [0.0, 0.0, 1.0, 0.0, 0.0, 1.0], [0, 1, 2])
      == Some([1.0, 0.0, 0.0, 1.0, 0.0, 0.0, 1.0, 0.0, 0.0])
  {
    UnitTrianglePerTriangle();
    UnitTriangleScatter();
  }

  lemma UnitTrianglePerTriangle()
    ensures WellIndexed([0.0, 0.0, 0.0, 1.0, 0.0, 0.0, 0.0, 1.0, 0.0], [0.0, 0.0, 1.0, 0.0, 0.0, 1.0], [0, 1, 2])
    ensures PerTriangle([0.0, 0.0, 0.0, 1.0, 0.0, 0.0, 0.0, 1.0, 0.0], [0.0, 0.0, 1.0, 0.0, 0.0, 1.0], [0, 1, 2], 1)
      == Some([Vec3(1.0, 0.0, 0.0)])
  {
    var pos := [0.0, 0.0, 0.0, 1.0, 0.0, 0.0, 0.0, 1.0, 0.0];
    var uv := [0.0, 0.0, 1.0, 0.0, 0.0, 1.0];
    var idx: seq<nat> := [0, 1, 2];
    assert WellIndexed(pos, uv, idx);
    assert UvDeterminant(pos, uv, idx, 0) == 1.0;
    var t := Vec3(1.0, 0.0, 0.0);
    assert TriangleTangent(pos, uv, idx, 0) == t;
    assert PerTriangle(pos, uv, idx, 0) == Some([]);
    assert !Degenerate(pos, uv, idx, 0);
    assert [] + [t] == [t];
  }

  lemma UnitTriangleScatter()
    ensures CornersFit([0, 1, 2], 1, 9)
    ensures Scatter(seq(9, _ => 0.0), [0, 1, 2], [Vec3(1.0, 0.0, 0.0)], 1)
      == [1.0, 0.0, 0.0, 1.0, 0.0, 0.0, 1.0, 0.0, 0.0]
  {
    var idx: seq<nat> := [0, 1, 2];
    var t := Vec3(1.0, 0.0, 0.0);
    var zero := seq(9, _ => 0.0);
    assert CornersFit(idx, 1, 9);
    assert Scatter(zero, idx, [t], 1) == AddTriangle(zero, idx, 0, t);
    assert AddTo(zero, 0, t) == [1.0, 0.0, 0.0, 0.0, 0.0, 0.0, 0.0, 0.0, 0.0];
    assert AddTo(AddTo(zero, 0, t), 1, t) == [1.0, 0.0, 0.0, 1.0, 0.0, 0.0, 0.0, 0.0, 0.0];
    assert AddTriangle(zero, idx, 0, t) == [1.0, 0.0, 0.0, 1.0, 0.0, 0.0, 1.0, 0.0, 0.0];
  }

  /** A triangle whose three corners share one UV coordinate makes the
      accumulation fail. */
  lemma ComputeTangentsCollapsedUv()
    ensures WellIndexed([0.0, 0.0, 0.0, 1.0, 0.0, 0.0, 0.0, 1.0, 0.0], [0.5, 0.5, 0.5, 0.5, 0.5, 0.5], [0, 1, 2])
    ensures ComputeTangents([0.0, 0.0, 0.0, 1.0, 0.0, 0.0, 0.0, 1.0, 0.0], [0.5, 0.5, 0.5, 0.5, 0.5, 0.5], [0, 1, 2]).None?
  {
    var pos := [0.0, 0.0, 0.0, 1.0, 0.0, 0.0, 0.0, 1.0, 0.0];
    var uv := [0.5, 0.5, 0.5, 0.5, 0.5, 0.5];
    var idx: seq<nat> := [0, 1, 2];
    assert WellIndexed(pos, uv, idx);
    assert Degenerate(pos, uv, idx, 0);
  }
}

=== FILE: transformations.dfy ===
/** Column-major 4x4 and 3x3 matrix algebra (src/transformations.js).

    A `Mat4` is a flat array of 16 entries; entry (row i, column j) is stored
    at index `j*4 + i`. Every operation returns a new matrix. Arithmetic is
    over `real`: the single-precision rounding of `Float32Array` is not
    modelled.
 */
module Transformations {
  import opened Maths

  /** A 4x4 matrix in column-major order. */
  type Mat4 = m: seq<real> | |m| == 16 witness seq(16, _ => 0.0)

  /** A 3x3 matrix in column-major order. */
  type Mat3 = m: seq<real> | |m| == 9 witness seq(9, _ => 0.0)

  /** Entry (row i, column j) of a 4x4 matrix. */
  function At(m: Mat4, i: nat, j: nat): real
    requires i < 4 && j < 4
  {
    m[j * 4 + i]
  }

  /** Entry (row i, column j) of a 3x3 matrix. */
  function At3(m: Mat3, i: nat, j: nat): real
    requires i < 3 && j < 3
  {
    m[j * 3 + i]
  }

  /** Two 4x4 matrices with the same entries are the same matrix. */
  lemma Ext(a: Mat4, b: Mat4)
    requires forall i: nat, j: nat | i < 4 && j < 4 :: At(a, i, j) == At(b, i, j)
    ensures a == b
  {
    forall n | 0 <= n < 16
      ensures a[n] == b[n]
    {
      assert At(a, n % 4, n / 4) == At(b, n % 4, n / 4);
    }
  }

  /** Extensionality spelled out index by index. */
  lemma Ext16(a: Mat4, b: Mat4)
    requires a[0] == b[0] && a[1] == b[1] && a[2] == b[2] && a[3] == b[3]
    requires a[4] == b[4] && a[5] == b[5] && a[6] == b[6] && a[7] == b[7]
    requires a[8] == b[8] && a[9] == b[9] && a[10] == b[10] && a[11] == b[11]
    requires a[12] == b[12] && a[13] == b[13] && a[14] == b[14] && a[15] == b[15]
    ensures a == b
  {
    forall n | 0 <= n < 16
      ensures a[n] == b[n]
    {
      assert n < 4 || n < 8 || n < 12 || n < 16;
    }
  }

  /** Two 3x3 matrices with the same entries are the same matrix. */
  lemma Ext3(a: Mat3, b: Mat3)
    requires forall i: nat, j: nat | i < 3 && j < 3 :: At3(a, i, j) == At3(b, i, j)
    ensures a == b
  {
    forall n | 0 <= n < 9
      ensures a[n] == b[n]
    {
      assert At3(a, n % 3, n / 3) == At3(b, n % 3, n / 3);
    }
  }

  /** `mat4Identity`: ones on the diagonal, zeros elsewhere. */
  function Identity(): (r: Mat4)
    ensures forall i: nat, j: nat | i < 4 && j < 4 :: At(r, i, j) == if i == j then 1.0 else 0.0
  {
    [1.0, 0.0, 0.0, 0.0,
     0.0, 1.0, 0.0, 0.0,
     0.0, 0.0, 1.0, 0.0,
     0.0, 0.0, 0.0, 1.0]
  }

  /** `mat4Copy`: a fresh array holding the same entries. */
  function Copy(m: Mat4): (r: Mat4)
    ensures forall i: nat, j: nat | i < 4 && j < 4 :: At(r, i, j) == At(m, i, j)
  {
    m
  }

  // ---------------------------------------------------------------------------
  // Multiplication

  /** Row i of `a` against column j of `b`, summed over the first `k` terms. */
  function PartialDot(a: Mat4, b: Mat4, i: nat, j: nat, k: nat): real
    requires i < 4 && j < 4 && k <= 4
  {
    if k == 0 then 0.0 else PartialDot(a, b, i, j, k - 1) + a[(k - 1) * 4 + i] * b[j * 4 + (k - 1)]
  }

  /** The dot product of two four-component vectors. */
  function Dot4(x0: real, x1: real, x2: real, x3: real, y0: real, y1: real, y2: real, y3: real): real
  {
    x0 * y0 + x1 * y1 + x2 * y2 + x3 * y3
  }

  /** Entry (i, j) of the product a·b: row i of `a` against column j of `b`. */
  function Dot(a: Mat4, b: Mat4, i: nat, j: nat): real
    requires i < 4 && j < 4
  {
    Dot4(At(a, i, 0), At(a, i, 1), At(a, i, 2), At(a, i, 3),
         At(b, 0, j), At(b, 1, j), At(b, 2, j), At(b, 3, j))
  }

  /** The column-major matrix product a·b: applying it to a column vector
      applies `b` first and then `a`. */
  function Mul(a: Mat4, b: Mat4): (r: Mat4)
    ensures forall i: nat, j: nat | i < 4 && j < 4 :: At(r, i, j) == Dot(a, b, i, j)
  {
    var r := ProductColumns(a, b, 4);
    assert r == ProductColumns(a, b, 3) + [Dot(a, b, 0, 3), Dot(a, b, 1, 3), Dot(a, b, 2, 3), Dot(a, b, 3, 3)];
    assert ProductColumns(a, b, 3) == ProductColumns(a, b, 2) + [Dot(a, b, 0, 2), Dot(a, b, 1, 2), Dot(a, b, 2, 2), Dot(a, b, 3, 2)];
    assert ProductColumns(a, b, 2) == ProductColumns(a, b, 1) + [Dot(a, b, 0, 1), Dot(a, b, 1, 1), Dot(a, b, 2, 1), Dot(a, b, 3, 1)];
    assert ProductColumns(a, b, 1) == [Dot(a, b, 0, 0), Dot(a, b, 1, 0), Dot(a, b, 2, 0), Dot(a, b, 3, 0)];
    r
  }

  /** Columns 0 .. n-1 of a·b, each row i against column j of `b`, in the
      order `multiplyMat4` fills them. */
  function ProductColumns(a: Mat4, b: Mat4, n: nat): (r: seq<real>)
    requires n <= 4
    ensures |r| == 4 * n
  {
    if n == 0 then []
    else ProductColumns(a, b, n - 1) + [Dot(a, b, 0, n - 1), Dot(a, b, 1, n - 1), Dot(a, b, 2, n - 1), Dot(a, b, 3, n - 1)]
  }

  lemma PartialDotFull(a: Mat4, b: Mat4, i: nat, j: nat)
    requires i < 4 && j < 4
    ensures PartialDot(a, b, i, j, 4) == Dot(a, b, i, j)
  {
    assert PartialDot(a, b, i, j, 1) == At(a, i, 0) * At(b, 0, j);
    assert PartialDot(a, b, i, j, 2) == PartialDot(a, b, i, j, 1) + At(a, i, 1) * At(b, 1, j);
    assert PartialDot(a, b, i, j, 3) == PartialDot(a, b, i, j, 2) + At(a, i, 2) * At(b, 2, j);
    assert PartialDot(a, b, i, j, 4) == PartialDot(a, b, i, j, 3) + At(a, i, 3) * At(b, 3, j);
  }

  /** Dot written out with the raw column-major indices the source uses. */
  lemma DotExpanded(a: Mat4, b: Mat4, i: nat, j: nat)
    requires i < 4 && j < 4
    ensures Dot(a, b, i, j) == a[i] * b[j * 4] + a[4 + i] * b[j * 4 + 1] + a[8 + i] * b[j * 4 + 2] + a[12 + i] * b[j * 4 + 3]
  {
  }

  /** Entry (i, j) of the product is the source's sum `Σ_k a[k*4+i] * b[j*4+k]`. */
  lemma MulExpanded(a: Mat4, b: Mat4, i: nat, j: nat)
    requires i < 4 && j < 4
    ensures Mul(a, b)[j * 4 + i] == a[i] * b[j * 4] + a[4 + i] * b[j * 4 + 1] + a[8 + i] * b[j * 4 + 2] + a[12 + i] * b[j * 4 + 3]
  {
    DotExpanded(a, b, i, j);
  }

  /** A matrix whose every entry is the matching row-by-column sum is the product. */
  lemma FilledIsProduct(a: Mat4, b: Mat4, r: Mat4)
    requires forall i: nat, j: nat | i < 4 && j < 4 :: At(r, i, j) == Dot(a, b, i, j)
    ensures r == Mul(a, b)
  {
    var p := Mul(a, b);
    forall i: nat, j: nat | i < 4 && j < 4
      ensures At(r, i, j) == At(p, i, j)
    {
      assert At(r, i, j) == Dot(a, b, i, j);
    }
    Ext(r, p);
  }

  /** The innermost loop of `multiplyMat4`: `sum += a[k*4+i] * b[j*4+k]` for k = 0..3. */
  method SumRowColumn(a: Mat4, b: Mat4, i: nat, j: nat) returns (sum: real)
    requires i < 4 && j < 4
    ensures sum == Dot(a, b, i, j)
  {
    sum := 0.0;
    for k := 0 to 4
      invariant sum == PartialDot(a, b, i, j, k)
    {
      sum := sum + a[k * 4 + i] * b[j * 4 + k];
    }
    PartialDotFull(a, b, i, j);
  }

  /** `multiplyMat4`: the source's triple loop, accumulating
      `sum += a[k*4+i] * b[j*4+k]` into `r[j*4+i]`. */
  method MultiplyMat4(a: Mat4, b: Mat4) returns (r: Mat4)
    ensures forall i: nat, j: nat | i < 4 && j < 4 :: At(r, i, j) == Dot(a, b, i, j)
    ensures r == Mul(a, b)
  {
    r := seq(16, _ => 0.0);
    for i := 0 to 4
      invariant forall i': nat, j: nat | i' < i && j < 4 :: At(r, i', j) == Dot(a, b, i', j)
    {
      for j := 0 to 4
        invariant forall i': nat, j': nat | i' < i && j' < 4 :: At(r, i', j') == Dot(a, b, i', j')
        invariant forall j': nat | j' < j :: At(r, i, j') == Dot(a, b, i, j')
      {
        var sum := SumRowColumn(a, b, i, j);
        r := r[j * 4 + i := sum];
      }
    }
    FilledIsProduct(a, b, r);
  }

  // ---------------------------------------------------------------------------
  // Algebraic laws of the product

  lemma {:induction false} MulIdentityLeft(m: Mat4)
    ensures Mul(Identity(), m) == m
  {
    var r := Mul(Identity(), m);
    forall i: nat, j: nat | i < 4 && j < 4
      ensures At(r, i, j) == At(m, i, j)
    {
      assert At(r, i, j) == Dot(Identity(), m, i, j);
    }
    Ext(r, m);
  }

  lemma {:induction false} MulIdentityRight(m: Mat4)
    ensures Mul(m, Identity()) == m
  {
    var r := Mul(m, Identity());
    forall i: nat, j: nat | i < 4 && j < 4
      ensures At(r, i, j) == At(m, i, j)
    {
      assert At(r, i, j) == Dot(m, Identity(), i, j);
    }
    Ext(r, m);
  }

  /** The dot product of a combination a0·row0 + … + a3·row3 with `c` is the
      same combination of the rows' dot products with `c`. */
  lemma Dot4OfCombination(a0: real, a1: real, a2: real, a3: real,
                          b00: real, b01: real, b02: real, b03: real,
                          b10: real, b11: real, b12: real, b13: real,
                          b20: real, b21: real, b22: real, b23: real,
                          b30: real, b31: real, b32: real, b33: real,
                          c0: real, c1: real, c2: real, c3: real)
    ensures Dot4(a0 * b00 + a1 * b10 + a2 * b20 + a3 * b30, a0 * b01 + a1 * b11 + a2 * b21 + a3 * b31,
                 a0 * b02 + a1 * b12 + a2 * b22 + a3 * b32, a0 * b03 + a1 * b13 + a2 * b23 + a3 * b33,
                 c0, c1, c2, c3)
         == a0 * Dot4(b00, b01, b02, b03, c0, c1, c2, c3) + a1 * Dot4(b10, b11, b12, b13, c0, c1, c2, c3)
          + a2 * Dot4(b20, b21, b22, b23, c0, c1, c2, c3) + a3 * Dot4(b30, b31, b32, b33, c0, c1, c2, c3)
  {
  }

  /** One entry of the associativity law, over plain reals: a row `a`, the
      rows `b0..b3` of the middle matrix and a column `c`. */
  lemma Assoc4(a0: real, a1: real, a2: real, a3: real,
               b00: real, b01: real, b02: real, b03: real,
               b10: real, b11: real, b12: real, b13: real,
               b20: real, b21: real, b22: real, b23: real,
               b30: real, b31: real, b32: real, b33: real,
               c0: real, c1: real, c2: real, c3: real)
    ensures Dot4(Dot4(a0, a1, a2, a3, b00, b10, b20, b30),
                 Dot4(a0, a1, a2, a3, b01, b11, b21, b31),
                 Dot4(a0, a1, a2, a3, b02, b12, b22, b32),
                 Dot4(a0, a1, a2, a3, b03, b13, b23, b33),
                 c0, c1, c2, c3)
         == Dot4(a0, a1, a2, a3,
                 Dot4(b00, b01, b02, b03, c0, c1, c2, c3),
                 Dot4(b10, b11, b12, b13, c0, c1, c2, c3),
                 Dot4(b20, b21, b22, b23, c0, c1, c2, c3),
                 Dot4(b30, b31, b32, b33, c0, c1, c2, c3))
  {
    Dot4OfCombination(a0, a1, a2, a3, b00, b01, b02, b03, b10, b11, b12, b13,
                      b20, b21, b22, b23, b30, b31, b32, b33, c0, c1, c2, c3);
  }

  lemma ProductOnLeft(a: Mat4, b: Mat4, c: Mat4, i: nat, j: nat)
    requires i < 4 && j < 4
    ensures Dot(Mul(a, b), c, i, j)
         == Dot4(Dot(a, b, i, 0), Dot(a, b, i, 1), Dot(a, b, i, 2), Dot(a, b, i, 3),
                 At(c, 0, j), At(c, 1, j), At(c, 2, j), At(c, 3, j))
  {
    var ab := Mul(a, b);
    assert At(ab, i, 0) == Dot(a, b, i, 0) && At(ab, i, 1) == Dot(a, b, i, 1);
    assert At(ab, i, 2) == Dot(a, b, i, 2) && At(ab, i, 3) == Dot(a, b, i, 3);
  }

  lemma ProductOnRight(a: Mat4, b: Mat4, c: Mat4, i: nat, j: nat)
    requires i < 4 && j < 4
    ensures Dot(a, Mul(b, c), i, j)
         == Dot4(At(a, i, 0), At(a, i, 1), At(a, i, 2), At(a, i, 3),
                 Dot(b, c, 0, j), Dot(b, c, 1, j), Dot(b, c, 2, j), Dot(b, c, 3, j))
  {
    var bc := Mul(b, c);
    assert At(bc, 0, j) == Dot(b, c, 0, j) && At(bc, 1, j) == Dot(b, c, 1, j);
    assert At(bc, 2, j) == Dot(b, c, 2, j) && At(bc, 3, j) == Dot(b, c, 3, j);
  }

  /** Entry (i, j) of (a·b)·c equals entry (i, j) of a·(b·c). */
  lemma DotAssociative(a: Mat4, b: Mat4, c: Mat4, i: nat, j: nat)
    requires i < 4 && j < 4
    ensures Dot(Mul(a, b), c, i, j) == Dot(a, Mul(b, c), i, j)
  {
    ProductOnLeft(a, b, c, i, j);
    ProductOnRight(a, b, c, i, j);
    Assoc4(At(a, i, 0), At(a, i, 1), At(a, i, 2), At(a, i, 3),
           At(b, 0, 0), At(b, 0, 1), At(b, 0, 2), At(b, 0, 3),
           At(b, 1, 0), At(b, 1, 1), At(b, 1, 2), At(b, 1, 3),
           At(b, 2, 0), At(b, 2, 1), At(b, 2, 2), At(b, 2, 3),
           At(b, 3, 0), At(b, 3, 1), At(b, 3, 2), At(b, 3, 3),
           At(c, 0, j), At(c, 1, j), At(c, 2, j), At(c, 3, j));
  }

  /** The product is associative, so accumulating parent·child transforms
      left to right gives the same world matrix as composing the chain first. */
  lemma {:induction false} MulAssociative(a: Mat4, b: Mat4, c: Mat4)
    ensures Mul(Mul(a, b), c) == Mul(a, Mul(b, c))
  {
    var l, r := Mul(Mul(a, b), c), Mul(a, Mul(b, c));
    forall i: nat, j: nat | i < 4 && j < 4
      ensures At(l, i, j) == At(r, i, j)
    {
      DotAssociative(a, b, c, i, j);
    }
    Ext(l, r);
  }

  // ---------------------------------------------------------------------------
  // Elementary matrices

  /** The matrix that translates by `t`: identity with last column (tx, ty, tz, 1). */
  function TranslationMatrix(t: Vec3): Mat4
  {
    [1.0, 0.0, 0.0, 0.0,
     0.0, 1.0, 0.0, 0.0,
     0.0, 0.0, 1.0, 0.0,
     t.x, t.y, t.z, 1.0]
  }

  /** Rotation about X with columns (1,0,0,0), (0,c,s,0), (0,-s,c,0), (0,0,0,1). */
  function RotationXMatrix(c: real, s: real): Mat4
  {
    [1.0, 0.0, 0.0, 0.0,
     0.0, c, s, 0.0,
     0.0, -s, c, 0.0,
     0.0, 0.0, 0.0, 1.0]
  }

  /** Rotation about Y with columns (c,0,-s,0), (0,1,0,0), (s,0,c,0), (0,0,0,1). */
  function RotationYMatrix(c: real, s: real): Mat4
  {
    [c, 0.0, -s, 0.0,
     0.0, 1.0, 0.0, 0.0,
     s, 0.0, c, 0.0,
     0.0, 0.0, 0.0, 1.0]
  }

  /** Rotation about Z with columns (c,s,0,0), (-s,c,0,0), (0,0,1,0), (0,0,0,1):
      the `rotz` array of `mat4RotateZ`. */
  function RotationZMatrix(c: real, s: real): Mat4
  {
    [c, s, 0.0, 0.0,
     -s, c, 0.0, 0.0,
     0.0, 0.0, 1.0, 0.0,
     0.0, 0.0, 0.0, 1.0]
  }

  /** The diagonal matrix diag(sx, sy, sz, 1). */
  function ScaleMatrix(s: Vec3): Mat4
  {
    [s.x, 0.0, 0.0, 0.0,
     0.0, s.y, 0.0, 0.0,
     0.0, 0.0, s.z, 0.0,
     0.0, 0.0, 0.0, 1.0]
  }

  // ---------------------------------------------------------------------------
  // Transform operations

  /** `mat4Translate`: columns 0..2 are kept; column 3 becomes m·(tx, ty, tz, 1),
      so the translation is expressed in the matrix's own local axes. */
  function Translate(m: Mat4, t: Vec3): (r: Mat4)
    ensures r[..12] == m[..12]
    ensures forall i: nat | i < 4 ::
      At(r, i, 3) == At(m, i, 0) * t.x + At(m, i, 1) * t.y + At(m, i, 2) * t.z + At(m, i, 3)
  {
    m[12 := m[0] * t.x + m[4] * t.y + m[8] * t.z + m[12]]
     [13 := m[1] * t.x + m[5] * t.y + m[9] * t.z + m[13]]
     [14 := m[2] * t.x + m[6] * t.y + m[10] * t.z + m[14]]
     [15 := m[3] * t.x + m[7] * t.y + m[11] * t.z + m[15]]
  }

  /** `mat4RotateX` with `c = cos(angle)` and `s = sin(angle)`. */
  function RotateX(m: Mat4, angle: real, trig: Trig): Mat4
  {
    RotatedX(m, trig.cos(angle), trig.sin(angle))
  }

  /** The body of `mat4RotateX`: columns 0 and 3 are kept, columns 1 and 2
      become c·col1 + s·col2 and c·col2 − s·col1. */
  function RotatedX(m: Mat4, c: real, s: real): (r: Mat4)
    ensures r[..4] == m[..4] && r[12..] == m[12..]
  {
    m[4 := m[4] * c + m[8] * s]
     [5 := m[5] * c + m[9] * s]
     [6 := m[6] * c + m[10] * s]
     [7 := m[7] * c + m[11] * s]
     [8 := m[8] * c - m[4] * s]
     [9 := m[9] * c - m[5] * s]
     [10 := m[10] * c - m[6] * s]
     [11 := m[11] * c - m[7] * s]
  }

  /** `mat4RotateY` with `c = cos(angle)` and `s = sin(angle)`. */
  function RotateY(m: Mat4, angle: real, trig: Trig): Mat4
  {
    RotatedY(m, trig.cos(angle), trig.sin(angle))
  }

  /** The body of `mat4RotateY`: columns 1 and 3 are kept, columns 0 and 2
      become c·col0 − s·col2 and s·col0 + c·col2. */
  function RotatedY(m: Mat4, c: real, s: real): (r: Mat4)
    ensures r[4..8] == m[4..8] && r[12..] == m[12..]
  {
    m[0 := m[0] * c - m[8] * s]
     [1 := m[1] * c - m[9] * s]
     [2 := m[2] * c - m[10] * s]
     [3 := m[3] * c - m[11] * s]
     [8 := m[0] * s + m[8] * c]
     [9 := m[1] * s + m[9] * c]
     [10 := m[2] * s + m[10] * c]
     [11 := m[3] * s + m[11] * c]
  }

  /** `mat4RotateZ`: the product of `m` with the Z rotation built from
      `c = cos(angle)` and `s = sin(angle)` (see `MulRotationZ`). */
  function RotateZ(m: Mat4, angle: real, trig: Trig): Mat4
  {
    Mul(m, RotationZMatrix(trig.cos(angle), trig.sin(angle)))
  }

  /** Post-multiplying by the Z rotation mixes columns 0 and 1 (entries 0–3
      and 4–7, column-major) and keeps columns 2 and 3. */
  lemma MulRotationZ(m: Mat4, c: real, s: real)
    ensures Mul(m, RotationZMatrix(c, s))[8..] == m[8..]
    ensures forall i: nat | i < 4 ::
      Mul(m, RotationZMatrix(c, s))[i] == m[i] * c + m[4 + i] * s
      && Mul(m, RotationZMatrix(c, s))[4 + i] == m[4 + i] * c - m[i] * s
  {
    MulRotationZColumn0(m, c, s);
    MulRotationZColumn1(m, c, s);
    MulRotationZKeeps(m, c, s);
  }

  lemma MulRotationZColumn0(m: Mat4, c: real, s: real)
    ensures var r := Mul(m, RotationZMatrix(c, s));
      && r[0] == m[0] * c + m[4] * s && r[1] == m[1] * c + m[5] * s
      && r[2] == m[2] * c + m[6] * s && r[3] == m[3] * c + m[7] * s
  {
    MulColumn(m, RotationZMatrix(c, s), 0, c, s, 0.0, 0.0);
  }

  lemma MulRotationZColumn1(m: Mat4, c: real, s: real)
    ensures var r := Mul(m, RotationZMatrix(c, s));
      && r[4] == m[4] * c - m[0] * s && r[5] == m[5] * c - m[1] * s
      && r[6] == m[6] * c - m[2] * s && r[7] == m[7] * c - m[3] * s
  {
    MulColumnTurnZ(m, RotationZMatrix(c, s), 1, c, s);
  }

  lemma MulRotationZKeeps(m: Mat4, c: real, s: real)
    ensures Mul(m, RotationZMatrix(c, s))[8..] == m[8..]
  {
    var r := Mul(m, RotationZMatrix(c, s));
    MulColumn(m, RotationZMatrix(c, s), 2, 0.0, 0.0, 1.0, 0.0);
    MulColumn(m, RotationZMatrix(c, s), 3, 0.0, 0.0, 0.0, 1.0);
    assert r[8] == m[8] && r[9] == m[9] && r[10] == m[10] && r[11] == m[11];
    assert r[12] == m[12] && r[13] == m[13] && r[14] == m[14] && r[15] == m[15];
    assert forall k | 0 <= k < 8 :: r[8..][k] == r[8 + k] && m[8..][k] == m[8 + k];
  }

  /** `mat4Scale`: column 0 is multiplied by sx, column 1 by sy, column 2 by sz;
      column 3 is unchanged. */
  function Scale(m: Mat4, s: Vec3): (r: Mat4)
    ensures r[12..] == m[12..]
    ensures forall i: nat | i < 4 ::
      At(r, i, 0) == At(m, i, 0) * s.x && At(r, i, 1) == At(m, i, 1) * s.y && At(r, i, 2) == At(m, i, 2) * s.z
  {
    m[0 := m[0] * s.x][1 := m[1] * s.x][2 := m[2] * s.x][3 := m[3] * s.x]
     [4 := m[4] * s.y][5 := m[5] * s.y][6 := m[6] * s.y][7 := m[7] * s.y]
     [8 := m[8] * s.z][9 := m[9] * s.z][10 := m[10] * s.z][11 := m[11] * s.z]
  }

  // ---------------------------------------------------------------------------
  // Each transform operation is a post-multiplication by an elementary matrix

  /** Column j of a·b when column j of `b` is (y0, y1, y2, y3): the
      combination y0·col0 + y1·col1 + y2·col2 + y3·col3 of `a`. */
  lemma MulColumn(a: Mat4, b: Mat4, j: nat, y0: real, y1: real, y2: real, y3: real)
    requires j < 4 && b[j * 4] == y0 && b[j * 4 + 1] == y1 && b[j * 4 + 2] == y2 && b[j * 4 + 3] == y3
    ensures Mul(a, b)[j * 4] == a[0] * y0 + a[4] * y1 + a[8] * y2 + a[12] * y3
    ensures Mul(a, b)[j * 4 + 1] == a[1] * y0 + a[5] * y1 + a[9] * y2 + a[13] * y3
    ensures Mul(a, b)[j * 4 + 2] == a[2] * y0 + a[6] * y1 + a[10] * y2 + a[14] * y3
    ensures Mul(a, b)[j * 4 + 3] == a[3] * y0 + a[7] * y1 + a[11] * y2 + a[15] * y3
  {
    MulExpanded(a, b, 0, j);
    MulExpanded(a, b, 1, j);
    MulExpanded(a, b, 2, j);
    MulExpanded(a, b, 3, j);
  }

  // The three rotation columns holding −sin: column j of a·b becomes
  // c·col_p − s·col_q of `a`.

  /** Column (0, −s, c, 0), column 2 of the X rotation. */
  lemma MulColumnTurnX(a: Mat4, b: Mat4, j: nat, c: real, s: real)
    requires j < 4 && b[j * 4] == 0.0 && b[j * 4 + 1] == -s && b[j * 4 + 2] == c && b[j * 4 + 3] == 0.0
    ensures Mul(a, b)[j * 4] == a[8] * c - a[4] * s && Mul(a, b)[j * 4 + 1] == a[9] * c - a[5] * s
    ensures Mul(a, b)[j * 4 + 2] == a[10] * c - a[6] * s && Mul(a, b)[j * 4 + 3] == a[11] * c - a[7] * s
  {
    MulColumn(a, b, j, 0.0, -s, c, 0.0);
    NegatedProducts(a[4], a[5], a[6], a[7], s);
  }

  /** Column (c, 0, −s, 0), column 0 of the Y rotation. */
  lemma MulColumnTurnY(a: Mat4, b: Mat4, j: nat, c: real, s: real)
    requires j < 4 && b[j * 4] == c && b[j * 4 + 1] == 0.0 && b[j * 4 + 2] == -s && b[j * 4 + 3] == 0.0
    ensures Mul(a, b)[j * 4] == a[0] * c - a[8] * s && Mul(a, b)[j * 4 + 1] == a[1] * c - a[9] * s
    ensures Mul(a, b)[j * 4 + 2] == a[2] * c - a[10] * s && Mul(a, b)[j * 4 + 3] == a[3] * c - a[11] * s
  {
    MulColumn(a, b, j, c, 0.0, -s, 0.0);
    NegatedProducts(a[8], a[9], a[10], a[11], s);
  }

  /** Column (−s, c, 0, 0), column 1 of the Z rotation. */
  lemma MulColumnTurnZ(a: Mat4, b: Mat4, j: nat, c: real, s: real)
    requires j < 4 && b[j * 4] == -s && b[j * 4 + 1] == c && b[j * 4 + 2] == 0.0 && b[j * 4 + 3] == 0.0
    ensures Mul(a, b)[j * 4] == a[4] * c - a[0] * s && Mul(a, b)[j * 4 + 1] == a[5] * c - a[1] * s
    ensures Mul(a, b)[j * 4 + 2] == a[6] * c - a[2] * s && Mul(a, b)[j * 4 + 3] == a[7] * c - a[3] * s
  {
    MulColumn(a, b, j, -s, c, 0.0, 0.0);
    NegatedProducts(a[0], a[1], a[2], a[3], s);
  }

  /** Column j of a·b when column j of `b` is f times the j-th unit
      vector: column j of `a` scaled by f. */
  lemma MulScaledColumn(a: Mat4, b: Mat4, j: nat, f: real)
    requires j < 4
    requires b[j * 4] == (if j == 0 then f else 0.0) && b[j * 4 + 1] == (if j == 1 then f else 0.0)
    requires b[j * 4 + 2] == (if j == 2 then f else 0.0) && b[j * 4 + 3] == (if j == 3 then f else 0.0)
    ensures Mul(a, b)[j * 4] == a[j * 4] * f && Mul(a, b)[j * 4 + 1] == a[j * 4 + 1] * f
    ensures Mul(a, b)[j * 4 + 2] == a[j * 4 + 2] * f && Mul(a, b)[j * 4 + 3] == a[j * 4 + 3] * f
  {
    MulColumn(a, b, j, b[j * 4], b[j * 4 + 1], b[j * 4 + 2], b[j * 4 + 3]);
  }

  lemma TranslateColumn3(m: Mat4, t: Vec3)
    ensures var r, p := Translate(m, t), Mul(m, TranslationMatrix(t));
      r[12] == p[12] && r[13] == p[13] && r[14] == p[14] && r[15] == p[15]
  {
    MulColumn(m, TranslationMatrix(t), 3, t.x, t.y, t.z, 1.0);
  }

  lemma {:induction false} TranslateIsPostMultiply(m: Mat4, t: Vec3)
    ensures Translate(m, t) == Mul(m, TranslationMatrix(t))
  {
    var b := TranslationMatrix(t);
    MulScaledColumn(m, b, 0, 1.0);
    MulScaledColumn(m, b, 1, 1.0);
    MulScaledColumn(m, b, 2, 1.0);
    TranslateColumn3(m, t);
    Ext16(Translate(m, t), Mul(m, b));
  }

  /** Multiplying by −s negates the product with s. */
  lemma NegatedProducts(x0: real, x1: real, x2: real, x3: real, s: real)
    ensures x0 * -s == -(x0 * s) && x1 * -s == -(x1 * s) && x2 * -s == -(x2 * s) && x3 * -s == -(x3 * s)
  {
  }

  // Columns 0..3 of the in-place X rotation agree with those of the product.

  lemma RotatedXColumn0(m: Mat4, c: real, s: real)
    ensures var r, p := RotatedX(m, c, s), Mul(m, RotationXMatrix(c, s));
      r[0] == p[0] && r[1] == p[1] && r[2] == p[2] && r[3] == p[3]
  {
    MulColumn(m, RotationXMatrix(c, s), 0, 1.0, 0.0, 0.0, 0.0);
  }

  lemma RotatedXColumn1(m: Mat4, c: real, s: real)
    ensures var r, p := RotatedX(m, c, s), Mul(m, RotationXMatrix(c, s));
      r[4] == p[4] && r[5] == p[5] && r[6] == p[6] && r[7] == p[7]
  {
    MulColumn(m, RotationXMatrix(c, s), 1, 0.0, c, s, 0.0);
  }

  lemma RotatedXColumn2(m: Mat4, c: real, s: real)
    ensures var r, p := RotatedX(m, c, s), Mul(m, RotationXMatrix(c, s));
      r[8] == p[8] && r[9] == p[9] && r[10] == p[10] && r[11] == p[11]
  {
    var r := RotatedX(m, c, s);
    assert r[8] == m[8] * c - m[4] * s && r[9] == m[9] * c - m[5] * s;
    assert r[10] == m[10] * c - m[6] * s && r[11] == m[11] * c - m[7] * s;
    MulColumnTurnX(m, RotationXMatrix(c, s), 2, c, s);
  }

  lemma RotatedXColumn3(m: Mat4, c: real, s: real)
    ensures var r, p := RotatedX(m, c, s), Mul(m, RotationXMatrix(c, s));
      r[12] == p[12] && r[13] == p[13] && r[14] == p[14] && r[15] == p[15]
  {
    MulColumn(m, RotationXMatrix(c, s), 3, 0.0, 0.0, 0.0, 1.0);
  }

  /** The in-place X rotation is post-multiplication by the X rotation
      matrix, checked column by column. */
  lemma {:induction false} RotatedXIsPostMultiply(m: Mat4, c: real, s: real)
    ensures RotatedX(m, c, s) == Mul(m, RotationXMatrix(c, s))
  {
    RotatedXColumn0(m, c, s);
    RotatedXColumn1(m, c, s);
    RotatedXColumn2(m, c, s);
    RotatedXColumn3(m, c, s);
    Ext16(RotatedX(m, c, s), Mul(m, RotationXMatrix(c, s)));
  }

  /** `mat4RotateX`'s in-place column update is post-multiplication by the X rotation. */
  lemma RotateXIsPostMultiply(m: Mat4, angle: real, trig: Trig)
    ensures RotateX(m, angle, trig) == Mul(m, RotationXMatrix(trig.cos(angle), trig.sin(angle)))
  {
    RotatedXIsPostMultiply(m, trig.cos(angle), trig.sin(angle));
  }

  // Columns 0..3 of the in-place Y rotation agree with those of the product.

  lemma RotatedYColumn0(m: Mat4, c: real, s: real)
    ensures var r, p := RotatedY(m, c, s), Mul(m, RotationYMatrix(c, s));
      r[0] == p[0] && r[1] == p[1] && r[2] == p[2] && r[3] == p[3]
  {
    var r := RotatedY(m, c, s);
    assert r[0] == m[0] * c - m[8] * s && r[1] == m[1] * c - m[9] * s;
    assert r[2] == m[2] * c - m[10] * s && r[3] == m[3] * c - m[11] * s;
    MulColumnTurnY(m, RotationYMatrix(c, s), 0, c, s);
  }

  lemma RotatedYColumn1(m: Mat4, c: real, s: real)
    ensures var r, p := RotatedY(m, c, s), Mul(m, RotationYMatrix(c, s));
      r[4] == p[4] && r[5] == p[5] && r[6] == p[6] && r[7] == p[7]
  {
    MulColumn(m, RotationYMatrix(c, s), 1, 0.0, 1.0, 0.0, 0.0);
  }

  lemma RotatedYColumn2(m: Mat4, c: real, s: real)
    ensures var r, p := RotatedY(m, c, s), Mul(m, RotationYMatrix(c, s));
      r[8] == p[8] && r[9] == p[9] && r[10] == p[10] && r[11] == p[11]
  {
    MulColumn(m, RotationYMatrix(c, s), 2, s, 0.0, c, 0.0);
  }

  lemma RotatedYColumn3(m: Mat4, c: real, s: real)
    ensures var r, p := RotatedY(m, c, s), Mul(m, RotationYMatrix(c, s));
      r[12] == p[12] && r[13] == p[13] && r[14] == p[14] && r[15] == p[15]
  {
    MulColumn(m, RotationYMatrix(c, s), 3, 0.0, 0.0, 0.0, 1.0);
  }

  /** The in-place Y rotation is post-multiplication by the Y rotation
      matrix, checked column by column. */
  lemma {:induction false} RotatedYIsPostMultiply(m: Mat4, c: real, s: real)
    ensures RotatedY(m, c, s) == Mul(m, RotationYMatrix(c, s))
  {
    RotatedYColumn0(m, c, s);
    RotatedYColumn1(m, c, s);
    RotatedYColumn2(m, c, s);
    RotatedYColumn3(m, c, s);
    Ext16(RotatedY(m, c, s), Mul(m, RotationYMatrix(c, s)));
  }

  /** `mat4RotateY`'s in-place column update is post-multiplication by the Y rotation. */
  lemma RotateYIsPostMultiply(m: Mat4, angle: real, trig: Trig)
    ensures RotateY(m, angle, trig) == Mul(m, RotationYMatrix(trig.cos(angle), trig.sin(angle)))
  {
    RotatedYIsPostMultiply(m, trig.cos(angle), trig.sin(angle));
  }

  lemma {:induction false} ScaleIsPostMultiply(m: Mat4, s: Vec3)
    ensures Scale(m, s) == Mul(m, ScaleMatrix(s))
  {
    var b := ScaleMatrix(s);
    MulScaledColumn(m, b, 0, s.x);
    MulScaledColumn(m, b, 1, s.y);
    MulScaledColumn(m, b, 2, s.z);
    MulScaledColumn(m, b, 3, 1.0);
    Ext16(Scale(m, s), Mul(m, b));
  }

  // ---------------------------------------------------------------------------
  // 3x3 transposes

  /** `mat3Transpose`: entry `i*3+j` of the result is entry `j*3+i` of the input. */
  function Mat3Transpose(m: Mat3): (r: Mat3)
    ensures forall i: nat, j: nat | i < 3 && j < 3 :: At3(r, i, j) == At3(m, j, i)
  {
    [m[0], m[3], m[6],
     m[1], m[4], m[7],
     m[2], m[5], m[8]]
  }

  lemma {:induction false} Mat3TransposeInvolution(m: Mat3)
    ensures Mat3Transpose(Mat3Transpose(m)) == m
  {
    var t := Mat3Transpose(m);
    var tt := Mat3Transpose(t);
    forall n | 0 <= n < 9
      ensures tt[n] == m[n]
    {
      var i, j := n % 3, n / 3;
      assert n == j * 3 + i;
      assert At3(tt, i, j) == At3(t, j, i) == At3(m, i, j);
    }
  }

  /** The upper-left 3x3 block of a 4x4 matrix, kept column-major. */
  function UpperLeft(m: Mat4): (r: Mat3)
    ensures forall i: nat, j: nat | i < 3 && j < 3 :: At3(r, i, j) == At(m, i, j)
  {
    [m[0], m[1], m[2], m[4], m[5], m[6], m[8], m[9], m[10]]
  }

  /** `mat4TransposeInner`: the transpose of the upper-left 3x3 block, read
      straight out of the 4x4 array (`r[i*3+j] == m[j*4+i]`). */
  function TransposeInner(m: Mat4): (r: Mat3)
    ensures forall i: nat, j: nat | i < 3 && j < 3 :: r[i * 3 + j] == m[j * 4 + i]
  {
    [m[0], m[4], m[8],
     m[1], m[5], m[9],
     m[2], m[6], m[10]]
  }

  lemma {:induction false} TransposeInnerIsBlockTranspose(m: Mat4)
    ensures TransposeInner(m) == Mat3Transpose(UpperLeft(m))
  {
    var l, r := TransposeInner(m), Mat3Transpose(UpperLeft(m));
    forall n | 0 <= n < 9
      ensures l[n] == r[n]
    {
      var i, j := n % 3, n / 3;
      assert n == j * 3 + i;
      assert At3(r, i, j) == At3(UpperLeft(m), j, i);
    }
  }
}

=== FILE: wrappers.dfy ===
/** Optional values and failure-carrying results.

    JavaScript's `null`/`undefined` become `None`; a thrown `Error` becomes `Err`.
 */
module Wrappers {

  /** A value that may be missing (the source's `null` or `undefined`). */
  datatype Option<+T> = None | Some(value: T) {

    /** The carried value, or `default` when missing (the source's `??`). */
    function GetOr(default: T): T
    {
      match this
      case Some(v) => v
      case None => default
    }
  }

  /** The outcome of an operation that may throw. */
  datatype Result<+T, +E> = Ok(value: T) | Err(error: E)
}
